=== FILE: README.md ===
# AutoLaunch, modelled in Dafny

AutoLaunch is a .NET library that makes an application start when the user
logs on. A caller configures an `AutoLaunchBuilder` and calls `Build`. `Build`
checks the fields and returns one engine for the operating system it runs on:

- on Windows, the registry `Run` key, a batch file in the Startup folder, or a
  scheduled task;
- on Linux, a freedesktop autostart entry;
- on macOS, a launchd property list or an AppleScript login item.

Every engine offers `Enable`, `Disable` and `IsEnabled`. The older revision
calls the status query `GetStatus`. Two decorators wrap an engine:

- `ExceptionalUnifiedDecorator` turns every escaping exception into a member of
  the `AutoLaunchException` family.
- `SafeDecorator` adds `Try` operations that report failure as `false` and keep
  the last exception for `TakeLastException`.

The model is a set of pure functions over immutable state, one module per
source file:

| module | file | models |
|---|---|---|
| `Wrappers` | `wrappers.dfy` | `Option`, which stands in for nullable references |
| `Exceptions` | `exceptions.dfy` | the exception classes of all three revisions, merged into one family (see "Left out"), the native failures, and `Outcome` (a value returned or an exception thrown) |
| `Text` | `text.dfy` | the .NET string operations the engines rely on: `Trim`, `Join`, `IndexOf` ignoring case, `IsNullOrWhiteSpace`, multi-line raw strings, `int.ToString`; also a reader for lists written by `EncloseAll` and for text split into lines |
| `Enums` | `enums.dfy` | the engine choices, `WorkScope`, and the application (name, path, arguments) |
| `Platform` | `platform.dfy` | the `Path` helpers, the special folders, the argument escaper and the permission guard, as a record of parameters; POSIX `Path.Combine` |
| `FileSystem` | `file_system.dfy` | directories, files and write-protected locations |
| `RegistryStore` | `registry_store.dfy` | registry hives, keys and values |
| `Process` | `process.dfy` | a program run through a runner parameter, and the `Exec` result mapping |
| `WindowsRegistry` | `windows_registry.dfy` | the registry engine, both revisions |
| `WindowsStartupFolder` | `startup_folder.dfy` | the Startup-folder batch file engine, both revisions |
| `WindowsTaskScheduler` | `task_scheduler.dfy` | the PowerShell task-scheduler engine |
| `LinuxFreedesktop` | `freedesktop.dfy` | the XDG autostart desktop entry engine |
| `MacOSLaunchAgent` | `launch_agent.dfy` | the launchd property list engine |
| `MacOSAppleScript` | `apple_script.dfy` | the System Events login item engine |
| `Launcher` | `launcher.dfy` | the `AutoLauncher` contract: one `Engine` value per engine, and the dispatch |
| `UnifiedDecorator` | `unified_decorator.dfy` | `ExceptionalUnifiedDecorator` |
| `SafeDecorator` | `safe_decorator.dfy` | `SafeDecorator` and its last-exception cell |
| `Builder` | `builder.dfy` | `AutoLaunchBuilder`: setters, `Automatic`, `Build` |

Where the code does something outside the model, it becomes a parameter:

- The operating system and the running program's path are arguments of
  `Automatic` and `Build`.
- Path handling, special folders, `ArgumentEx.EscapeArguments` and
  `PermissionDeniedException.ThrowIfIOPermissionDenied` are fields of
  `Platform.Host`.
- Process launches go through a `Process.Runner`.
- A state-changing operation returns the new file system or registry along
  with its outcome.

Some behaviour of the code worth knowing:

- The task-scheduler `Disable` (src/AutoLaunch/Platforms/WindowsTaskScheduler.cs:18)
  does not check first that the task exists. A missing task fails with
  PowerShell's exit code.
- Neither process engine maps standard error to a permission failure
  (src/AutoLaunch/Platforms/WindowsTaskScheduler.cs:27-38,
  src/AutoLaunch/Platforms/MacOSAppleScript.cs:27-38).
- The launch-agent engine writes the path as given
  (src/AutoLaunch/Platforms/MacOSLaunchAgent.cs:46-62). No absolute-path check
  exists beyond the one in `Build` (src/AutoLaunch/AutoLaunchBuilder.cs:161).
- `Build` returns the bare engine (src/AutoLaunch/AutoLaunchBuilder.cs:157-194).
  The decorators are applied by whoever wraps it.
- The startup batch file has six lines: `@echo off`, a remark, `cd /d`, a
  usage remark, `start`, `exit` (src/AutoLaunch/Platforms/WindowsStartupFolder.cs:23-30).

## Model

| member | source | states |
|---|---|---|
| `Exceptions.NewAutoLaunch` | src/AutoLaunchException.cs:6 | the base exception keeps the given message and inner exception, and belongs to the family |
| `Exceptions.NewBuilder` | src/AutoLaunchException.cs:11 | a builder exception belongs to the family and carries the given message |
| `Exceptions.NewUnsupportedOS` | src/AutoLaunchException.cs:16 | the unsupported-OS exception belongs to the family, with the fixed message "Unsupported target os" |
| `Exceptions.NewPermissionDenied` | src/AutoLaunchException.cs:21 | the message defaults to "Permission denied." when none is given, the inner exception is kept, and the result is in the family |
| `Exceptions.NewExecuteCommand` | src/AutoLaunchException.cs:26-34 | `Command`, `ExitCode` and `Error` keep the three arguments verbatim; the message has the semicolon-separated layout; there is no inner exception |
| `Exceptions.NewExecuteCommandExitCodeOnly` | src/AutoLaunch/AutoLaunchException.cs:9-12 | this revision exposes only the exit code, with the same semicolon message |
| `Exceptions.NewExecuteCommandCoded` | src/AutoLaunch/Exceptions/AutoLaunchException.cs:12-14 | the nullable `ExitCode` holds the given code; the message uses commas |
| `Exceptions.NewExecuteCommandWrapped` | src/AutoLaunch/Exceptions/AutoLaunchException.cs:11 | wrapping a failure leaves `ExitCode` null, keeps the failure as the inner exception, and uses the fixed message |
| `Exceptions.ExecuteCommandMessageCarriesExitCode` | src/AutoLaunchException.cs:26-31 | the exit code printed in the message, read back as a number, equals the `ExitCode` property, for every integer code, negative ones with an ASCII minus sign (see "Left out") |
| `Text.Trim` | src/AutoLaunch/Platforms/WindowsTaskScheduler.cs:32 | the trimmed output is a contiguous piece of the input; only white space is cut from either side; the result starts and ends with a non-white-space character |
| `Text.TrimIdempotent` | src/AutoLaunch/Platforms/WindowsTaskScheduler.cs:32 | trimming twice is trimming once |
| `Text.TrimEmptyIffBlank` | src/AutoLaunch/Platforms/WindowsTaskScheduler.cs:32 | the trimmed output is empty exactly when the program printed only white space |
| `Text.TrimPadded` | src/AutoLaunch/Platforms/MacOSAppleScript.cs:32 | an answer surrounded by any white space, such as the trailing line break a program prints, trims to exactly the answer |
| `Text.JoinSnoc` | src/AutoLaunch/Platforms/WindowsTaskScheduler.cs:15 | `string.Join` puts the separator between every pair of neighbours: one more part adds the separator and the part at the end |
| `Text.IndexOfIgnoreCase` | src/AutoLaunch/AutoLaunchBuilder.cs:29 | the index is the first position where the marker occurs ignoring case, and -1 exactly when it occurs nowhere |
| `Text.SplitJoinLines` | src/AutoLaunch/Platforms/LinuxFreedesktop.cs:26-35 | a raw string of fixed lines around an interpolated block reads back as those lines, the block's own lines, then the remaining fixed lines |
| `Text.SplitJoinLinesAll` | src/AutoLaunch/Platforms/WindowsStartupFolder.cs:23-30 | lines free of line breaks, joined into a raw string, read back exactly |
| `Text.EncloseAllIsJoin` | src/AutoLaunch/Platforms/WindowsStartupFolder.cs:28 | wrapping every argument in quotes and joining the results with spaces is the same as `string.Join` over the wrapped items |
| `Text.EncloseAllLineFree` | src/AutoLaunch/Platforms/MacOSLaunchAgent.cs:44-45 | enclosing items free of line breaks in delimiters free of them gives text free of line breaks |
| `Text.DiscloseEncloseAll` | src/AutoLaunch/Platforms/MacOSLaunchAgent.cs:44-45 | items that do not contain the closing delimiter's first character are read back exactly, in order, from their enclosed and joined text |
| `Text.NatToString` | src/AutoLaunchException.cs:26 | a natural number prints as a non-empty string of decimal digits |
| `Text.IntToStringRoundTrip` | src/AutoLaunchException.cs:26 | the decimal text of any integer parses back to that integer |
| `Platform.PosixCombine` | src/AutoLaunch/Platforms/LinuxFreedesktop.cs:8-9 | `Path.Combine` on Unix skips an empty second part, lets a rooted second part replace the first, and otherwise adds one `/` between the two exactly when the first does not already end in one |
| `Platform.PosixCombineParts` | src/AutoLaunch/Platforms/MacOSLaunchAgent.cs:35-36 | on a POSIX host two plain parts are joined with exactly one `/` |
| `FileSystem.EnsureDirectory` | src/AutoLaunch/Platforms/WindowsStartupFolder.cs:13 | creating a missing directory fails only in a write-protected location, and then changes nothing; an existing directory is never an error |
| `FileSystem.WriteAllText` | src/AutoLaunch/Platforms/WindowsStartupFolder.cs:14 | writing creates or overwrites exactly one file; it fails exactly on a protected path, and a failed write changes nothing |
| `FileSystem.DeleteIfExists` | src/AutoLaunch/Platforms/WindowsStartupFolder.cs:18 | a missing file is no error; an existing file goes away unless it is protected |
| `FileSystem.EnsureDirectoryAndWrite` | src/AutoLaunch/Platforms/LinuxFreedesktop.cs:16-17 | on success the directory exists and the file holds the text; a failure leaves every file as it was |
| `FileSystem.EnsureDirectoryAndWriteIdempotent` | src/AutoLaunch/Platforms/MacOSLaunchAgent.cs:10-11 | writing the same artifact a second time succeeds and changes nothing |
| `RegistryStore.GetValue` | src/AutoLaunch/Platforms/WindowsRegistry.cs:33-37 | `key?.GetValue(name)` is null exactly when the key or the value is missing |
| `RegistryStore.CreateSubKeyAndSetValue` | src/AutoLaunch/Platforms/WindowsRegistry.cs:17-18 | on success the one value is (over)written and every other value reads as before; a protected hive refuses with an access exception and nothing changes |
| `RegistryStore.OpenSubKeyAndDeleteValue` | src/AutoLaunch/Platforms/WindowsRegistry.cs:25-26 | a missing key or value is no error; on success the value is gone; every other value is untouched |
| `Process.ExecResult` | src/AutoLaunch/Platforms/WindowsTaskScheduler.cs:27-38 | `Exec` returns exactly on exit code 0, with the trimmed output. A non-zero code throws an `ExecuteCommandException` with that code. A launch failure is wrapped, unless it already is one |
| `Process.ExecResultIsTrimmed` | src/AutoLaunch/Platforms/WindowsTaskScheduler.cs:32 | what `Exec` returns has no white space left to trim |
| `Process.AsyncExecAlwaysFailsAsWritten` | src/AutoLaunch/Extensions/ProcessEx.cs:35-56 | as written, every asynchronous run fails: the wrapping exception has no exit code and the fixed message, whatever the program would answer |
| `Process.AsyncExecMatchesSync` | src/AutoLaunch/Extensions/ProcessEx.cs:15-32 | corrected, the asynchronous `Exec` gives the same outcome as the synchronous one |
| `WindowsRegistry.ScopesIndependent` | src/AutoLaunch/Platforms/WindowsRegistry.cs:13 | the two scopes use different hives: enabling or disabling in one scope leaves the status in the other as it was |
| `WindowsRegistry.AsString` | src/AutoLaunch/Platforms/WindowsRegistry.cs:34 | `as string` yields a value exactly when the stored value is a string, and then it is that string |
| `WindowsRegistry.EnableUnguarded` | src/Platforms/WindowsRegistry.cs:10-17 | succeeds exactly when the hive is writable. On success the `Run` value holds the escaped command line and the approval value holds the eight bytes starting 0x02. A failure changes nothing. No other value changes |
| `WindowsRegistry.DisableUnguarded` | src/Platforms/WindowsRegistry.cs:18-25 | succeeds when the hive is writable or neither key exists; on success neither value exists; a failure changes nothing; no other value changes |
| `WindowsRegistry.StatusDecision` | src/AutoLaunch/Platforms/WindowsRegistry.cs:34-40 | off without a non-blank string under `Run`; otherwise a byte array under `StartupApproved` decides by its first byte being 0x02, and anything else there counts as on |
| `WindowsRegistry.Enable` | src/AutoLaunch/Platforms/WindowsRegistry.cs:15-22 | the guarded revision makes the unguarded state change and succeeds under the same condition; a failure passes through the permission guard |
| `WindowsRegistry.Disable` | src/AutoLaunch/Platforms/WindowsRegistry.cs:23-30 | the guarded `Disable` makes the unguarded state change, with the exception passed through the guard |
| `WindowsRegistry.IsEnabled` | src/AutoLaunch/Platforms/WindowsRegistry.cs:31-41 | the guarded status query always returns the status decision |
| `WindowsRegistry.EnableAsync` | src/AutoLaunch/Platforms/WindowsRegistry.cs:46 | the asynchronous `Enable` makes the same change and passes a failure through the guard a second time |
| `WindowsRegistry.DisableAsync` | src/AutoLaunch/Platforms/WindowsRegistry.cs:47 | the asynchronous `Disable` makes the same change and succeeds exactly when `Disable` does |
| `WindowsRegistry.EnableThenStatus` | src/Platforms/WindowsRegistry.cs:10-36 | after a successful `Enable` the status is on exactly when the stored command line is not blank |
| `WindowsRegistry.DisableThenStatus` | src/Platforms/WindowsRegistry.cs:18-36 | after a successful `Disable` the status is off |
| `WindowsRegistry.ApprovalSwitchesOff` | src/Platforms/WindowsRegistry.cs:31-32 | an approval value that is empty or whose first byte is not 0x02 keeps the entry off, whatever `Run` holds |
| `WindowsRegistry.EnableIdempotent` | src/Platforms/WindowsRegistry.cs:10-17 | enabling again after a successful `Enable` succeeds and changes nothing |
| `WindowsRegistry.OtherAppUnaffected` | src/Platforms/WindowsRegistry.cs:10-36 | enabling or disabling one application leaves the status of every application with a different name, compared exactly, as it was (see "Left out" for names that differ only in case) |
| `WindowsRegistry.RevisionsAgree` | src/AutoLaunch/Platforms/WindowsRegistry.cs:15-41 | the two revisions make the same state change and agree on success and status; only the exception may differ |
| `WindowsStartupFolder.BatchLines` | src/AutoLaunch/Platforms/WindowsStartupFolder.cs:23-30 | the batch file has six lines: `@echo off`, the generated remark, `cd /d` into the program's directory, the usage remark, the start line, and `exit` |
| `WindowsStartupFolder.EnableWith` | src/AutoLaunch/Platforms/WindowsStartupFolder.cs:11-15 | on success the folder exists and the batch file holds the content; no other file changes |
| `WindowsStartupFolder.Enable` | src/AutoLaunch/Platforms/WindowsStartupFolder.cs:11-15 | on success the batch file holds the content that quotes every argument |
| `WindowsStartupFolder.EnableEscaped` | src/Platforms/WindowsStartupFolder.cs:8-12 | on success the batch file holds the content with the escaped command line |
| `WindowsStartupFolder.Disable` | src/AutoLaunch/Platforms/WindowsStartupFolder.cs:16-19 | a missing batch file changes nothing; on success it is gone; every other file is still there with the same content |
| `WindowsStartupFolder.EnableDisableStatus` | src/AutoLaunch/Platforms/WindowsStartupFolder.cs:11-20 | the status is on after a successful `Enable` and off after a successful `Disable` |
| `WindowsStartupFolder.EnableIdempotent` | src/AutoLaunch/Platforms/WindowsStartupFolder.cs:11-15 | enabling twice leaves the state of enabling once |
| `WindowsStartupFolder.DisableWhenAbsent` | src/AutoLaunch/Platforms/WindowsStartupFolder.cs:16-19 | disabling an application that is not enabled succeeds and changes nothing |
| `WindowsStartupFolder.UsageRemarksSingle` | src/AutoLaunch/Platforms/WindowsStartupFolder.cs:27 | the usage remarks of both revisions hold no line break |
| `WindowsStartupFolder.FixedLinesSingle` | src/AutoLaunch/Platforms/WindowsStartupFolder.cs:24-29 | the fixed lines of the batch file hold no line break |
| `WindowsStartupFolder.BatchLinesSingle` | src/AutoLaunch/Platforms/WindowsStartupFolder.cs:23-30 | with a name, path, directory and arguments free of line breaks, none of the six lines holds one |
| `WindowsStartupFolder.BatchFileLines` | src/AutoLaunch/Platforms/WindowsStartupFolder.cs:23-30 | the written batch file reads back as exactly its six lines, in order |
| `WindowsStartupFolder.EscapedBatchFileLines` | src/Platforms/WindowsStartupFolder.cs:39-47 | the escaped revision's file reads back as its six lines, in order |
| `WindowsStartupFolder.StartLineArguments` | src/AutoLaunch/Platforms/WindowsStartupFolder.cs:28 | after its prefix, the start line holds the quoted path and every argument quoted and in order; the items read back exactly when none holds a double quote. With no arguments the line ends in a space |
| `WindowsStartupFolder.StartLinesAgreeWhenEscaperQuotes` | src/Platforms/WindowsStartupFolder.cs:45 | when the escaper quotes every item, the two revisions write the same start line for one or more arguments; for none, they differ by a trailing space |
| `WindowsTaskScheduler.PowerShellArgs` | src/AutoLaunch/Platforms/WindowsTaskScheduler.cs:31 | PowerShell gets six arguments, ending in `-Command` and the command |
| `WindowsTaskScheduler.Exec` | src/AutoLaunch/Platforms/WindowsTaskScheduler.cs:27-38 | returns exactly when PowerShell ran and exited with 0; every failure is an `ExecuteCommandException` |
| `WindowsTaskScheduler.ExecAsync` | src/AutoLaunch/Platforms/WindowsTaskScheduler.cs:40-51 | over the corrected asynchronous start, the same outcome as `Exec` |
| `WindowsTaskScheduler.ExecAsyncAsWritten` | src/AutoLaunch/Platforms/WindowsTaskScheduler.cs:40-51 | as written, always throws an `ExecuteCommandException` without exit code |
| `WindowsTaskScheduler.Enable` | src/AutoLaunch/Platforms/WindowsTaskScheduler.cs:17 | succeeds exactly when the registering command does, and fails with its exception |
| `WindowsTaskScheduler.Disable` | src/AutoLaunch/Platforms/WindowsTaskScheduler.cs:18 | succeeds exactly when the unregistering command does, with no prior existence check |
| `WindowsTaskScheduler.IsEnabled` | src/AutoLaunch/Platforms/WindowsTaskScheduler.cs:19 | answers exactly when the query command succeeds: true when its output equals "true" ignoring case |
| `WindowsTaskScheduler.CommandsAddressTheTask` | src/AutoLaunch/Platforms/WindowsTaskScheduler.cs:23-25 | the register, unregister and query commands each name the same task folder and task right after their cmdlet |
| `WindowsTaskScheduler.TaskFolderIsAppName` | src/AutoLaunch/Platforms/WindowsTaskScheduler.cs:14 | the task path and name in the three commands' text coincide exactly when the application names are equal, compared exactly (see "Left out" for names that differ only in case) |
| `WindowsTaskScheduler.ArgumentBoundariesLost` | src/AutoLaunch/Platforms/WindowsTaskScheduler.cs:15 | one argument `a b` and the two arguments `a`, `b` register the same action |
| `WindowsTaskScheduler.PowerShellBool` | src/AutoLaunch/Platforms/WindowsTaskScheduler.cs:25 | PowerShell's printed boolean has no white space at either end |
| `WindowsTaskScheduler.PowerShellBoolReadsBack` | src/AutoLaunch/Platforms/WindowsTaskScheduler.cs:19 | compared with "true" ignoring case, `True` reads as true and `False` as false |
| `WindowsTaskScheduler.IsEnabledReadsAnswer` | src/AutoLaunch/Platforms/WindowsTaskScheduler.cs:19-32 | whatever white space surrounds PowerShell's boolean, `IsEnabled` returns that boolean |
| `WindowsTaskScheduler.DisableMissingTaskFails` | src/AutoLaunch/Platforms/WindowsTaskScheduler.cs:18-32 | when unregistering exits non-zero, `Disable` throws and carries that exit code |
| `LinuxFreedesktop.DesktopEntryKeys` | src/AutoLaunch/Platforms/LinuxFreedesktop.cs:26-35 | a reader of the written entry finds the `[Desktop Entry]` group, `Type=Application`, `Name` = the application name, `Exec` = the escaped command line, `StartupNotify` and `Terminal` false, and `Comment` = the name plus " startup", read with the first-match reader `KeyValue`; the fixed keys come first and the extra configuration's lines follow them |
| `LinuxFreedesktop.ExtraConfigOverrides` | src/AutoLaunch/Platforms/LinuxFreedesktop.cs:26-35 | the extra configuration is appended after the fixed keys, so one extra line `key=value` redefines any key, `Exec` and `Name` included, for a reader that keeps the last duplicate as GLib's key-file parser does |
| `LinuxFreedesktop.Enable` | src/AutoLaunch/Platforms/LinuxFreedesktop.cs:14-18 | on success the directory exists and the entry holds the desktop file content. A failure leaves the files as they were. No other file changes |
| `LinuxFreedesktop.Disable` | src/AutoLaunch/Platforms/LinuxFreedesktop.cs:19-22 | a missing entry changes nothing; on success it is gone; every other file is still there with the same content |
| `LinuxFreedesktop.IsEnabled` | src/AutoLaunch/Platforms/LinuxFreedesktop.cs:23 | always answers, and answers true exactly when the entry file exists |
| `LinuxFreedesktop.EnableDisableStatus` | src/AutoLaunch/Platforms/LinuxFreedesktop.cs:14-23 | the status is on after a successful `Enable` and off after a successful `Disable` |
| `LinuxFreedesktop.EnableIdempotent` | src/AutoLaunch/Platforms/LinuxFreedesktop.cs:14-18 | enabling twice leaves the state of enabling once |
| `LinuxFreedesktop.PosixUserDirectory` | src/AutoLaunch/Platforms/LinuxFreedesktop.cs:8 | on a POSIX host the per-user directory is `$HOME/.config/autostart` |
| `LinuxFreedesktop.PosixAllUserDirectory` | src/AutoLaunch/Platforms/LinuxFreedesktop.cs:9 | on a POSIX host the all-users directory is `/etc/xdg/autostart` |
| `LinuxFreedesktop.EntryLinesSingle` | src/AutoLaunch/Platforms/LinuxFreedesktop.cs:27-33 | with a name and command line free of line breaks, the seven key lines hold none |
| `LinuxFreedesktop.DesktopFileLines` | src/AutoLaunch/Platforms/LinuxFreedesktop.cs:26-35 | the entry reads back as the seven key lines in their fixed order, then the lines of the extra configuration |
| `LinuxFreedesktop.NoExtraConfigGivesEmptyLastLine` | src/AutoLaunch/Platforms/LinuxFreedesktop.cs:34 | without extra configuration the entry ends in an empty line |
| `MacOSLaunchAgent.PlistKeys` | src/AutoLaunch/Platforms/MacOSLaunchAgent.cs:46-62 | from the written property list, `Label` is the application name, `AssociatedBundleIdentifiers` and `ProgramArguments` are their array lines, and `RunAtLoad` is `<true/>`, read with the first-occurrence reader `ValueOf`; the fixed keys come first and the extra configuration's lines follow them |
| `MacOSLaunchAgent.HeadLines` | src/AutoLaunch/Platforms/MacOSLaunchAgent.cs:47-58 | the property list has twelve lines before the extra configuration |
| `MacOSLaunchAgent.Enable` | src/AutoLaunch/Platforms/MacOSLaunchAgent.cs:8-12 | on success the directory exists and the file holds the property list. A failure is an access failure that leaves the files as they were. No other file changes |
| `MacOSLaunchAgent.Disable` | src/AutoLaunch/Platforms/MacOSLaunchAgent.cs:13-16 | a missing file changes nothing; on success it is gone; every other file is still there with the same content |
| `MacOSLaunchAgent.EnableDisableStatus` | src/AutoLaunch/Platforms/MacOSLaunchAgent.cs:8-17 | the status is on after a successful `Enable` and off after a successful `Disable` |
| `MacOSLaunchAgent.EnableIdempotent` | src/AutoLaunch/Platforms/MacOSLaunchAgent.cs:8-12 | enabling twice leaves the state of enabling once |
| `MacOSLaunchAgent.PosixUserDirectory` | src/AutoLaunch/Platforms/MacOSLaunchAgent.cs:35 | on a POSIX host the per-user directory is `$HOME/Library/LaunchAgents` |
| `MacOSLaunchAgent.PosixAllUserDirectory` | src/AutoLaunch/Platforms/MacOSLaunchAgent.cs:36 | on a POSIX host the all-users directory is `/Library/LaunchAgents` |
| `MacOSLaunchAgent.LabelIsAppName` | src/AutoLaunch/Platforms/MacOSLaunchAgent.cs:51-52 | the label is always the application name, while the file is named after the first identifier when there is one |
| `MacOSLaunchAgent.ArrayLineRoundTrip` | src/AutoLaunch/Platforms/MacOSLaunchAgent.cs:44 | items free of `<` are read back exactly, in order, from a `<string>` array line by the text reader `Disclose`, which is not an XML reader (see "Left out") |
| `MacOSLaunchAgent.ArrayLineUnescaped` | src/AutoLaunch/Platforms/MacOSLaunchAgent.cs:44-45 | the items are written with no XML escaping: every character of every item, `&` and `<` included, appears as is in the array line |
| `MacOSLaunchAgent.ArgumentsAndIdentifiers` | src/AutoLaunch/Platforms/MacOSLaunchAgent.cs:43-56 | `ProgramArguments` reads back as the path followed by every argument; `AssociatedBundleIdentifiers` reads back as the identifiers, by the text reader `Disclose`; nothing is XML-escaped (see "Left out") |
| `MacOSLaunchAgent.NoIdentifiersGiveEmptyArray` | src/AutoLaunch/Platforms/MacOSLaunchAgent.cs:45 | without identifiers the bundle array is empty |
| `MacOSLaunchAgent.DocTypeSingle` | src/AutoLaunch/Platforms/MacOSLaunchAgent.cs:48 | the DOCTYPE line holds no line break |
| `MacOSLaunchAgent.PreambleLinesSingle` | src/AutoLaunch/Platforms/MacOSLaunchAgent.cs:47-50 | the four preamble lines hold no line break |
| `MacOSLaunchAgent.ArrayLineSingle` | src/AutoLaunch/Platforms/MacOSLaunchAgent.cs:44-45 | an array line of items free of line breaks holds none |
| `MacOSLaunchAgent.DictLinesSingle` | src/AutoLaunch/Platforms/MacOSLaunchAgent.cs:51-58 | with values free of line breaks, the eight dictionary lines hold none |
| `MacOSLaunchAgent.HeadLinesSingle` | src/AutoLaunch/Platforms/MacOSLaunchAgent.cs:47-58 | with values free of line breaks, the twelve head lines hold none |
| `MacOSLaunchAgent.LaunchAgentFileLines` | src/AutoLaunch/Platforms/MacOSLaunchAgent.cs:46-62 | the property list reads back as the twelve head lines, the lines of the indented extra configuration, then `</dict>` and `</plist>`: the extra configuration lands inside the dictionary |
| `MacOSAppleScript.BoolText` | src/AutoLaunch/Platforms/MacOSAppleScript.cs:20 | the lower-cased boolean is "true" exactly when the value is true, and reads back as the value when compared with "true" ignoring case |
| `MacOSAppleScript.SystemEventsTo` | src/AutoLaunch/Platforms/MacOSAppleScript.cs:25 | the script is the System Events prefix followed by exactly the suffix |
| `MacOSAppleScript.OsaArgs` | src/AutoLaunch/Platforms/MacOSAppleScript.cs:31 | `osascript` gets two arguments, the second the script |
| `MacOSAppleScript.Exec` | src/AutoLaunch/Platforms/MacOSAppleScript.cs:27-38 | returns exactly when `osascript` ran and exited with 0; every failure is an `ExecuteCommandException` |
| `MacOSAppleScript.ExecAsync` | src/AutoLaunch/Platforms/MacOSAppleScript.cs:39-50 | over the corrected asynchronous start, the same outcome as `Exec` |
| `MacOSAppleScript.ExecAsyncAsWritten` | src/AutoLaunch/Platforms/MacOSAppleScript.cs:39-50 | as written, always throws an `ExecuteCommandException` without exit code |
| `MacOSAppleScript.Enable` | src/AutoLaunch/Platforms/MacOSAppleScript.cs:12 | succeeds exactly when the enabling script does, and fails with its exception |
| `MacOSAppleScript.Disable` | src/AutoLaunch/Platforms/MacOSAppleScript.cs:13 | succeeds exactly when the deleting script does, and fails with its exception |
| `MacOSAppleScript.IsEnabled` | src/AutoLaunch/Platforms/MacOSAppleScript.cs:14 | answers exactly when the query script succeeds: true when its output equals "true" ignoring case |
| `MacOSAppleScript.HiddenFlag` | src/AutoLaunch/Platforms/MacOSAppleScript.cs:19-20 | the login item is hidden exactly when `--hidden` or `--minimized` is an argument, and the record ends in `hidden:true}` or `hidden:false}` accordingly |
| `MacOSAppleScript.ArgumentsOnlySetHidden` | src/AutoLaunch/Platforms/MacOSAppleScript.cs:17-21 | the arguments reach the login item only through the hidden flag |
| `MacOSAppleScript.ScriptsNameTheItem` | src/AutoLaunch/Platforms/MacOSAppleScript.cs:22-23 | the delete and query scripts end with the application name in double quotes |
| `MacOSAppleScript.ScriptsDistinguishApps` | src/AutoLaunch/Platforms/MacOSAppleScript.cs:22-23 | distinct applications get distinct delete and query scripts |
| `MacOSAppleScript.IsEnabledReadsAnswer` | src/AutoLaunch/Platforms/MacOSAppleScript.cs:14-32 | whatever white space surrounds `osascript`'s boolean, `IsEnabled` returns that boolean |
| `MacOSAppleScript.FailuresCarryExitCode` | src/AutoLaunch/Platforms/MacOSAppleScript.cs:32 | a non-zero exit of the enabling script fails `Enable` with that exit code |
| `Launcher.IsEnabled` | src/AutoLaunch/AutoLauncher.cs:64-68 | the engines that keep their state on the machine always answer the status query |
| `Launcher.EnableThenEnabled` | src/AutoLaunch/AutoLauncher.cs:54-68 | for every engine with state on the machine, a successful `Enable` makes the status true (for the registry, when the command line is not blank) |
| `Launcher.DisableThenDisabled` | src/AutoLaunch/AutoLauncher.cs:59-68 | for every such engine, a successful `Disable` makes the status false |
| `Launcher.EnableTwice` | src/AutoLaunch/AutoLauncher.cs:54-57 | for every such engine, enabling twice leaves the machine as enabling once |
| `Launcher.EnableKeepsToSubstrate` | src/AutoLaunch/AutoLauncher.cs:54-57 | file engines leave the registry alone, the registry engine leaves the files alone, and process engines leave the machine unchanged |
| `Launcher.DisableKeepsToSubstrate` | src/AutoLaunch/AutoLauncher.cs:59-62 | `Disable` keeps to the engine's own substrate in the same way |
| `Launcher.ProcessEnginesIgnoreMachine` | src/AutoLaunch/AutoLauncher.cs:52-68 | the process engines answer from the process runner alone, whatever the machine state |
| `UnifiedDecorator.Unify` | src/AutoLaunch/Decorators/ExceptionalUnifiedDecorator.cs:17-26 | the result is always in the family. Security and access failures become `PermissionDeniedException` wrapping the original. Family members pass unchanged. Any other exception is wrapped with the fixed message |
| `UnifiedDecorator.Unified` | src/AutoLaunch/Decorators/ExceptionalUnifiedDecorator.cs:17-26 | a returned value passes unchanged; only exceptions of the family escape |
| `UnifiedDecorator.UnifiedAction` | src/AutoLaunch/Decorators/ExceptionalUnifiedDecorator.cs:40-44 | running an action as a function returning `true` and dropping the value unifies exactly as for a function |
| `UnifiedDecorator.Enable` | src/AutoLaunch/Decorators/ExceptionalUnifiedDecorator.cs:8 | the inner `Enable`'s state change, with its exception unified |
| `UnifiedDecorator.Disable` | src/AutoLaunch/Decorators/ExceptionalUnifiedDecorator.cs:9 | the inner `Disable`'s state change, with its exception unified |
| `UnifiedDecorator.IsEnabled` | src/AutoLaunch/Decorators/ExceptionalUnifiedDecorator.cs:10 | the inner status query, with its exception unified |
| `UnifiedDecorator.UnifyIdempotent` | src/AutoLaunch/Decorators/ExceptionalUnifiedDecorator.cs:25 | unifying twice is unifying once |
| `UnifiedDecorator.UnifyKeepsOriginal` | src/AutoLaunch/Decorators/ExceptionalUnifiedDecorator.cs:19-25 | no failure is lost: the original exception is kept, unchanged or as the inner exception |
| `UnifiedDecorator.SuccessPassesThrough` | src/AutoLaunch/Decorators/ExceptionalUnifiedDecorator.cs:19 | when the inner `Enable` succeeds, the decorator is indistinguishable from it |
| `SafeDecorator.SafeExecute` | src/AutoLaunch/Decorators/SafeDecorator.cs:29-40 | `(true, value)` on return. A family exception gives `(false, default)` and is stored. Any other exception escapes unchanged with the cell untouched |
| `SafeDecorator.SafeExecuteAction` | src/AutoLaunch/Decorators/SafeDecorator.cs:54-58 | the success flag of an action, and the same cell as the function form |
| `SafeDecorator.TryEnable` | src/AutoLaunch/Decorators/SafeDecorator.cs:15 | true exactly when the inner `Enable` returned, with its state change; a family exception gives false and is stored in the cell; any other exception escapes unchanged and leaves the cell as it was |
| `SafeDecorator.TryDisable` | src/AutoLaunch/Decorators/SafeDecorator.cs:16 | true exactly when the inner `Disable` returned, with its state change; a family exception gives false and is stored in the cell; any other exception escapes unchanged and leaves the cell as it was |
| `SafeDecorator.TryIsEnabled` | src/AutoLaunch/Decorators/SafeDecorator.cs:17 | `(true, status)` when the query answers and `(false, false)` when it threw a family exception, which is then stored in the cell; any other exception escapes and leaves the cell as it was; the machine is unchanged |
| `SafeDecorator.TakeTwice` | src/AutoLaunch/Decorators/SafeDecorator.cs:22-26 | a second take right after the first returns nothing |
| `SafeDecorator.FailureOverwrites` | src/AutoLaunch/Decorators/SafeDecorator.cs:35-39 | a family failure replaces whatever the cell held |
| `SafeDecorator.StaleErrorSurvivesSuccess` | src/AutoLaunch/Decorators/SafeDecorator.cs:31-34 | a success does not clear the cell, so an earlier exception survives it |
| `SafeDecorator.SafeOverUnifiedNeverThrows` | src/AutoLaunch/AutoLauncher.cs:95-99 | around the unifying decorator, no `Try` operation throws, as the class contract promises |
| `SafeDecorator.NativeFailureEscapes` | src/AutoLaunch/Decorators/SafeDecorator.cs:35 | around a bare engine, a failure outside the family escapes `TryEnable` unchanged and leaves the cell alone |
| `SafeDecorator.MostRecentFailure` | src/AutoLaunch/AutoLauncher.cs:144-148 | an exception other than the starting one is one that a call in the history threw |
| `SafeDecorator.CellAfterAllSnoc` | src/AutoLaunch/Decorators/SafeDecorator.cs:29-40 | running one more call after a history updates the cell as that call alone would |
| `SafeDecorator.CellHoldsMostRecentFailure` | src/AutoLaunch/AutoLauncher.cs:144-148 | after any history of calls the cell holds the most recent family failure, and the earlier content only when none failed so |
| `SafeDecorator.TakeAfterHistory` | src/AutoLaunch/AutoLauncher.cs:144-148 | from an emptied cell, `TakeLastException` returns the most recent failure, and nothing after a history of successes |
| `Builder.AddArgs` | src/AutoLaunch/AutoLaunchBuilder.cs:60-65 | the new list is the old one (empty when unset) followed by the added items; no other field changes |
| `Builder.AddIdentifiers` | src/AutoLaunch/AutoLaunchBuilder.cs:123-128 | the new list is the old one (empty when unset) followed by the added identifiers; no other field changes |
| `Builder.BundlePath` | src/AutoLaunch/AutoLaunchBuilder.cs:29-30 | the result is a prefix of the path. A path without `.app/` in any case is kept whole. Otherwise the result ends at the first marker, with `.app` kept |
| `Builder.Automatic` | src/AutoLaunch/AutoLaunchBuilder.cs:22-32 | only the name and path change. A set name is kept. A missing name comes from the set path, else the process path. The name stays null only when all three are null. The path is the set path, else the process path; on macOS with the AppleScript engine it is then cut back to its `.app` bundle |
| `Builder.Validate` | src/AutoLaunch/AutoLaunchBuilder.cs:159-161 | validation passes exactly when the name and the path are not blank and the path is rooted |
| `Builder.Build` | src/AutoLaunch/AutoLaunchBuilder.cs:157-194 | a failed validation throws its exception and leaves the builder alone. A passing one sets a null argument list to empty. A returned engine targets the current, supported operating system |
| `Builder.ValidationOrder` | src/AutoLaunch/AutoLaunchBuilder.cs:159-161 | a blank name is reported first, then a blank path (as builder exceptions), then a path that is not absolute (as a plain `AutoLaunchException` with the path in its message) |
| `Builder.UnsupportedExactlyOffPlatform` | src/AutoLaunch/AutoLaunchBuilder.cs:165-193 | valid fields build an engine exactly on Windows, Linux and macOS, and throw `UnsupportedOSException` elsewhere |
| `Builder.EngineFollowsConfiguration` | src/AutoLaunch/AutoLaunchBuilder.cs:165-191 | the engine is the one configured for the operating system and launches the configured path and arguments; only the AppleScript engine names the item after the file instead of the configured name |
| `Builder.ScopeAndExtrasReachTheirEngines` | src/AutoLaunch/AutoLaunchBuilder.cs:169-188 | the scope reaches every engine that takes one; the extra configuration and the identifiers reach the engines that use them |
| `Builder.ArgsWriteBackUnobservable` | src/AutoLaunch/AutoLaunchBuilder.cs:163 | building again from the builder `Build` leaves behind gives the same result |
| `Builder.BundlePathIdempotent` | src/AutoLaunch/AutoLaunchBuilder.cs:29-30 | a path cut back to its bundle is not cut again |
| `Builder.AutomaticIdempotent` | src/AutoLaunch/AutoLaunchBuilder.cs:22-32 | `Automatic` twice is `Automatic` once |
| `Builder.SetterLaws` | src/AutoLaunch/AutoLaunchBuilder.cs:34-128 | a later `Set` replaces an earlier one; `Add` appends to what was set or added before |
| `Builder.MinimalConfiguration` | src/AutoLaunch/AutoLaunchBuilder.cs:8-19 | a new builder given only a name and an absolute path builds each operating system's default engine, for the current user, with no arguments |

## Left out

- The asynchronous operations (`EnableAsync` and the rest) are the same transitions as the synchronous ones, so they are not modelled separately. The registry engine's second guard and the process engines' asynchronous start are modelled, because they behave differently.
- The `_ =>` arms of `Build`'s switches cannot be reached with the enums as declared, so they are not modelled. This includes the macOS arm's "Invalid Windows engine." message.
- File and registry reads never throw in the model: `File.Exists`, `OpenSubKey` for reading and `GetValue`.
- A refused write is modelled as a protected path or hive. Disk-full and sharing violations are not modelled.
- `Text.AsciiUpper`: case folding covers ASCII letters only. `OrdinalIgnoreCase` also folds other scripts, which the fixed literals compared here never need.
- Multi-line raw strings use `\n` line breaks: a C# raw string takes its line breaks from the source file when it is compiled, and the source files use LF line endings.
- `Path.GetFileNameWithoutExtension`, `Path.GetDirectoryName`, `Path.IsPathRooted`, `Path.Combine` on Windows and `ArgumentEx.EscapeArguments` are parameters, not definitions: their code is not part of this model. `PermissionDeniedException.ThrowIfIOPermissionDenied` is a parameter too, because its source is not part of this model.
- The operating system, the special folders and the running program's path are parameters, and so are the process launches. The `#if` choice between `MainModule.FileName` and `Environment.ProcessPath` is therefore not modelled.
- `AutoLauncher` is modelled as the `Launcher.Engine` datatype with dispatch functions, not as an abstract class.
- `Build` hands each engine `AsReadOnly` views of the builder's lists. A later `AddArgs` on the same builder would show through those views; the model copies the lists instead.
- The older revision's `GetStatus` names are the same operation as `IsEnabled`.
- The revisions are modelled side by side where they differ: the registry guard, the batch file's start line, and the `ExecuteCommandException` constructors. One source file calls `inner.GetStatus` while its `AutoLauncher` declares `IsEnabled`; the model reads that call as the status query.
- `FileSystem.WriteAllText`: a write succeeds whenever the path is not protected, even when its parent directory is missing. .NET throws `DirectoryNotFoundException` there. The engines create the directory they write into first, so this matters only for an application name or first identifier that holds a path separator. `Path.GetDirectoryName` is a parameter, so the model cannot tell which directory such a name would need.
- `UnifiedDecorator.Unify` and `SafeDecorator.SafeExecute` (through `Exceptions.Exn.IsAutoLaunch`): `AutoLaunch.AutoLaunchException` (src/AutoLaunch/AutoLaunchException.cs:3) and `AutoLaunch.Exceptions.AutoLaunchException` (src/AutoLaunch/Exceptions/AutoLaunchException.cs:3) are two unrelated classes; the model puts both, and their subclasses, in one family. The `catch` of src/AutoLaunch/Decorators/SafeDecorator.cs:35 and the `when` of src/AutoLaunch/Decorators/ExceptionalUnifiedDecorator.cs:25 name the class of the `AutoLaunch` namespace. An exception of the other namespace, which the task-scheduler and AppleScript engines throw, would be wrapped by the first and escape the second in the code, but passes through and is caught in the model.
- `Launcher.EnableThenEnabled`: stated only for the engines that keep state on the machine. The process engines' status depends on what PowerShell or System Events answers, which is a parameter.
- `Exceptions.ExecuteCommandMessageCarriesExitCode` and `Text.IntToString`: the exit code is printed with the invariant culture, an ASCII `-` before a negative code. C# interpolation uses the current culture's `NegativeSign`, which is not ASCII in some cultures (U+2212 in sv-SE, for example); the round-trip is not promised for those.
- `WindowsRegistry.OtherAppUnaffected` and `WindowsTaskScheduler.TaskFolderIsAppName`: `RegistryStore` and `FileSystem` compare names exactly. Windows registry value names and Task Scheduler paths ignore case, so "App" and "app" share one `Run` value and one task; the model treats them as two applications, and the lemmas do not promise anything for names that differ only in case.
- `WindowsRegistry.EnableAsync` and `WindowsRegistry.DisableAsync`: `ThrowIfIOPermissionDeniedAsync` is modelled by the same guard parameter as the synchronous `ThrowIfIOPermissionDenied`; the two are assumed to map a failure the same way.
- `LinuxFreedesktop.DesktopEntryKeys` and `MacOSLaunchAgent.PlistKeys`: the readers `KeyValue` and `ValueOf` take the first occurrence of a key, while GLib's key-file parser and launchd keep the last duplicate. An extra configuration that repeats a fixed key therefore redefines it for those programs; `LinuxFreedesktop.ExtraConfigOverrides` states this for the desktop entry. The property-list counterpart is not stated.
- `MacOSLaunchAgent.ArrayLineRoundTrip` and `MacOSLaunchAgent.ArgumentsAndIdentifiers`: the read-back is through `Text.Disclose`, a text reader that does not decode XML. The code escapes neither `&` nor `<` in the name, the path, the arguments or the identifiers (`MacOSLaunchAgent.ArrayLineUnescaped`). An item holding `&`, such as a path under `/Applications/Tom & Jerry.app`, makes the file an ill-formed property list that launchd cannot load, while `IsEnabled` still reports true because the file exists. The model does not describe what a property-list parser does with such a file.

## Findings

| source | as written | input that shows it | evidently intended | confidence | as-written member | corrected member |
|---|---|---|---|---|---|---|
| src/AutoLaunch/Extensions/ProcessEx.cs:35-56 | `StartAsync` configures the process but never calls `process.Start()` before reading `StandardOutput` | any program, for example `ExecAsync("true")` in the task-scheduler or AppleScript engine | start the process as `Start` does (line 27), then read and await it | not executed | `Process.AsyncExecAlwaysFailsAsWritten` | `Process.AsyncExecMatchesSync` |

=== FILE: apple_script.dfy ===
/**
 The AppleScript engine: `osascript` asks System Events to add, delete or look
 up a login item named after the application. Nothing is kept on disk by the
 library itself; every operation is one run of `osascript -e <script>`.
 */
module MacOSAppleScript {
  import opened Wrappers
  import opened Exceptions
  import opened Text
  import opened Process
  import opened Enums

  const OsaScript: string := "osascript"
  const SystemEventsPrefix: string := "tell application \"System Events\" to "

  /** A login item is hidden when the arguments ask for a hidden or a
      minimised start. */
  predicate IsHidden(args: seq<string>) {
    exists i :: 0 <= i < |args| && (args[i] == "--hidden" || args[i] == "--minimized")
  }

  /** `bool.ToString().ToLower()`. */
  function BoolText(b: bool): (r: string)
    ensures |r| > 0 && r[0] != ' '
    ensures r == "true" <==> b
    ensures EqualsIgnoreCase("true", r) <==> b
  {
    if b then "true" else "false"
  }

  /** `SystemEventsTo(suffix)`: the suffix as a System Events command. */
  function SystemEventsTo(suffix: string): (r: string)
    ensures SystemEventsPrefix <= r && r[|SystemEventsPrefix|..] == suffix
  {
    SystemEventsPrefix + suffix
  }

  /** The properties record of a new login item. */
  function LoginItemProperties(name: string, path: string, hidden: bool): string {
    "{name:\"" + name + "\",path:\"" + path + "\",hidden:" + BoolText(hidden) + "}"
  }

  function EnableScript(app: App): string {
    SystemEventsTo("make login item at end with properties " + LoginItemProperties(app.appName, app.appPath, IsHidden(app.args)))
  }

  function DisableScript(app: App): string {
    SystemEventsTo("delete login item \"" + app.appName + "\"")
  }

  function IsEnabledScript(app: App): string {
    SystemEventsTo("return exists login item \"" + app.appName + "\"")
  }

  /** The argument vector of an `osascript` run. */
  function OsaArgs(script: string): (r: seq<string>)
    ensures |r| == 2 && r[1] == script
  {
    ["-e", script]
  }

  /** `Exec(script)`: one `osascript` run, its trimmed output on exit code 0. */
  function Exec(run: Runner, script: string): (r: Outcome<string>)
    ensures r.Returned? <==> run(OsaScript, OsaArgs(script)).Ran? && run(OsaScript, OsaArgs(script)).result.exitCode == 0
    ensures r.Threw? ==> r.error.ExecuteCommand?
  {
    ExecResult(script, run(OsaScript, OsaArgs(script)))
  }

  /** `ExecAsync(script)`, over the corrected asynchronous start. */
  function ExecAsync(run: Runner, script: string): (r: Outcome<string>)
    ensures r == Exec(run, script)
  {
    AsyncExecMatchesSync(run, OsaScript, OsaArgs(script), script);
    ExecResult(script, StartAsync(run, OsaScript, OsaArgs(script)))
  }

  /** `ExecAsync(script)` as written: it fails whatever `osascript` would answer. */
  function ExecAsyncAsWritten(run: Runner, script: string): (r: Outcome<string>)
    ensures r.Threw? && r.error.ExecuteCommand? && r.error.exitCode.None?
  {
    ExecResult(script, StartAsyncAsWritten(run, OsaScript, OsaArgs(script)))
  }

  function Enable(run: Runner, app: App): (r: Outcome<()>)
    ensures r.Returned? <==> Exec(run, EnableScript(app)).Returned?
    ensures r.Threw? ==> r.error == Exec(run, EnableScript(app)).error
  {
    Exec(run, EnableScript(app)).Map((_: string) => ())
  }

  function Disable(run: Runner, app: App): (r: Outcome<()>)
    ensures r.Returned? <==> Exec(run, DisableScript(app)).Returned?
    ensures r.Threw? ==> r.error == Exec(run, DisableScript(app)).error
  {
    Exec(run, DisableScript(app)).Map((_: string) => ())
  }

  /** `IsEnabled`: the script's answer compared with "true", ignoring case. */
  function IsEnabled(run: Runner, app: App): (r: Outcome<bool>)
    ensures r.Returned? <==> Exec(run, IsEnabledScript(app)).Returned?
    ensures r.Returned? ==> (r.value <==> EqualsIgnoreCase("true", Exec(run, IsEnabledScript(app)).value))
    ensures r.Threw? ==> r.error == Exec(run, IsEnabledScript(app)).error
  {
    Exec(run, IsEnabledScript(app)).Map((out: string) => EqualsIgnoreCase("true", out))
  }

  // ---------------------------------------------------------------------------
  // Properties

  /** The login item is hidden exactly when `--hidden` or `--minimized` is
      among the arguments: the properties record ends in `hidden:true}` then,
      and in `hidden:false}` otherwise. */
  lemma HiddenFlag(app: App)
    ensures var p := LoginItemProperties(app.appName, app.appPath, IsHidden(app.args));
      && (IsHidden(app.args) <==> ("--hidden" in app.args || "--minimized" in app.args))
      && (IsHidden(app.args) ==> p[|p| - 12..] == "hidden:true}")
      && (!IsHidden(app.args) ==> p[|p| - 13..] == "hidden:false}")
  {
    var p := LoginItemProperties(app.appName, app.appPath, IsHidden(app.args));
    var head := "{name:\"" + app.appName + "\",path:\"" + app.appPath + "\",";
    assert p == head + ("hidden:" + BoolText(IsHidden(app.args)) + "}");
    if "--hidden" in app.args {
      var i :| 0 <= i < |app.args| && app.args[i] == "--hidden";
    } else if "--minimized" in app.args {
      var i :| 0 <= i < |app.args| && app.args[i] == "--minimized";
    }
  }

  /** The arguments reach the login item only through the hidden flag: two
      applications with the same name, path and flag get the same script. */
  lemma ArgumentsOnlySetHidden(app: App, other: App)
    requires app.appName == other.appName && app.appPath == other.appPath
    requires IsHidden(app.args) == IsHidden(other.args)
    ensures EnableScript(app) == EnableScript(other)
  {
  }

  /** The login item `Disable` deletes and the one `IsEnabled` asks about are
      the application's own: the name is read back from the end of each
      script, between the last pair of double quotes. */
  lemma ScriptsNameTheItem(app: App)
    ensures var d := DisableScript(app);
      var q := SystemEventsPrefix + "delete login item \"";
      q <= d && d[|q|..|d| - 1] == app.appName && d[|d| - 1] == '"'
    ensures var e := IsEnabledScript(app);
      var q := SystemEventsPrefix + "return exists login item \"";
      q <= e && e[|q|..|e| - 1] == app.appName && e[|e| - 1] == '"'
  {
    var d := DisableScript(app);
    var qd := SystemEventsPrefix + "delete login item \"";
    assert d == qd + app.appName + "\"";
    var e := IsEnabledScript(app);
    var qe := SystemEventsPrefix + "return exists login item \"";
    assert e == qe + app.appName + "\"";
  }

  /** Distinct applications get distinct `Disable` and `IsEnabled` scripts. */
  lemma ScriptsDistinguishApps(app: App, other: App)
    requires app.appName != other.appName
    ensures DisableScript(app) != DisableScript(other)
    ensures IsEnabledScript(app) != IsEnabledScript(other)
  {
    ScriptsNameTheItem(app);
    ScriptsNameTheItem(other);
  }

  /** `osascript` prints a boolean answer as `true` or `false` and a line
      break; `IsEnabled` reads that answer back, whatever white space
      surrounds it. */
  lemma IsEnabledReadsAnswer(run: Runner, app: App, answer: bool, before: string, after: string, error: string)
    requires IsBlank(before) && IsBlank(after)
    requires run(OsaScript, OsaArgs(IsEnabledScript(app))) == Ran(ProcessResult(0, before + BoolText(answer) + after, error))
    ensures IsEnabled(run, app) == Returned(answer)
  {
    var text := BoolText(answer);
    assert !IsWhiteSpace(text[0]) && !IsWhiteSpace(text[|text| - 1]);
    TrimPadded(before, text, after);
    if !answer {
      assert !EqualsIgnoreCase("true", text);
    }
  }

  /** A run of the enabling script that exits with a non-zero code fails
      `Enable` with an `ExecuteCommandException` carrying that code. */
  lemma FailuresCarryExitCode(run: Runner, app: App)
    requires run(OsaScript, OsaArgs(EnableScript(app))).Ran?
    requires run(OsaScript, OsaArgs(EnableScript(app))).result.exitCode != 0
    ensures Enable(run, app).Threw?
    ensures Enable(run, app).error.exitCode == Some(run(OsaScript, OsaArgs(EnableScript(app))).result.exitCode)
  {
  }
}

=== FILE: builder.dfy ===
/**
 `AutoLaunchBuilder`: the fields a caller sets, `Automatic` (fill in the
 running program, and on macOS with AppleScript cut the path back to its
 `.app` bundle), and `Build` (validate in a fixed order, then pick the engine
 for the operating system).
 */
module Builder {
  import opened Wrappers
  import opened Exceptions
  import opened Text
  import opened Platform
  import opened Enums
  import opened Launcher

  /** The builder's fields; a null field is `None`. */
  datatype Builder = Builder(
    appName: Option<string>,
    appPath: Option<string>,
    args: Option<seq<string>>,
    workScope: WorkScope,
    windowsEngine: WindowsEngine,
    linuxEngine: LinuxEngine,
    macOSEngine: MacOSEngine,
    identifiers: Option<seq<string>>,
    extraConfig: Option<string>)

  /** A new builder: nothing set, the current user, and the default engine of
      each operating system. */
  const Default: Builder := Builder(None, None, None, CurrentUser, Registry, Freedesktop, LaunchAgent, None, None)

  // ---------------------------------------------------------------------------
  // Setters

  function SetAppName(b: Builder, appName: string): Builder {
    b.(appName := Some(appName))
  }

  function SetAppPath(b: Builder, appPath: string): Builder {
    b.(appPath := Some(appPath))
  }

  /** `SetArgs`: replaces the list. */
  function SetArgs(b: Builder, args: seq<string>): Builder {
    b.(args := Some(args))
  }

  /** `AddArgs`: appends to the list, starting from an empty one. */
  function AddArgs(b: Builder, args: seq<string>): (r: Builder)
    ensures r.args.Some? && |r.args.value| == |b.args.GetOr([])| + |args|
    ensures r.args.value[..|b.args.GetOr([])|] == b.args.GetOr([])
    ensures r.args.value[|b.args.GetOr([])|..] == args
    ensures r.(args := b.args) == b
  {
    b.(args := Some(b.args.GetOr([]) + args))
  }

  function SetWorkScope(b: Builder, scope: WorkScope): Builder {
    b.(workScope := scope)
  }

  function SetWindowsEngine(b: Builder, engine: WindowsEngine): Builder {
    b.(windowsEngine := engine)
  }

  function SetLinuxEngine(b: Builder, engine: LinuxEngine): Builder {
    b.(linuxEngine := engine)
  }

  function SetMacOSEngine(b: Builder, engine: MacOSEngine): Builder {
    b.(macOSEngine := engine)
  }

  /** `SetIdentifiers`: replaces the list. */
  function SetIdentifiers(b: Builder, identifiers: seq<string>): Builder {
    b.(identifiers := Some(identifiers))
  }

  /** `AddIdentifiers`: appends to the list, starting from an empty one. */
  function AddIdentifiers(b: Builder, identifiers: seq<string>): (r: Builder)
    ensures r.identifiers.Some? && |r.identifiers.value| == |b.identifiers.GetOr([])| + |identifiers|
    ensures r.identifiers.value[..|b.identifiers.GetOr([])|] == b.identifiers.GetOr([])
    ensures r.identifiers.value[|b.identifiers.GetOr([])|..] == identifiers
    ensures r.(identifiers := b.identifiers) == b
  {
    b.(identifiers := Some(b.identifiers.GetOr([]) + identifiers))
  }

  function SetExtraConfig(b: Builder, extraConfig: string): Builder {
    b.(extraConfig := Some(extraConfig))
  }

  /** `SetExtraConfigIf`: sets the extra configuration only when asked to. */
  function SetExtraConfigIf(b: Builder, condition: bool, extraConfig: string): (r: Builder)
    ensures condition ==> r == SetExtraConfig(b, extraConfig)
    ensures !condition ==> r == b
  {
    if condition then b.(extraConfig := Some(extraConfig)) else b
  }

  // ---------------------------------------------------------------------------
  // Automatic

  const AppBundleMarker: string := ".app/"

  /** A path cut back to its first `.app/` (in any case), keeping `.app`; a
      path without one is kept whole. */
  function BundlePath(path: string): (r: string)
    ensures r <= path
    ensures IndexOfIgnoreCase(path, AppBundleMarker) == -1 ==> r == path
    ensures IndexOfIgnoreCase(path, AppBundleMarker) != -1 ==>
      |r| == IndexOfIgnoreCase(path, AppBundleMarker) + 4 && EqualsIgnoreCase(r[|r| - 4..], ".app")
  {
    var i := IndexOfIgnoreCase(path, AppBundleMarker);
    if i == -1 then path
    else
      var r := path[..i + 4];
      assert r[i..] == path[i..i + 5][..4];
      r
  }

  /** `Automatic`: the path of the running program (`processPath`, null when
      unknown) and its file name fill the fields left unset; then, on macOS
      with the AppleScript engine, the path is cut back to its `.app` bundle.
      The name is taken before the path is cut. */
  function Automatic(b: Builder, os: OS, processPath: Option<string>, host: Host): (r: Builder)
    ensures r.(appName := b.appName, appPath := b.appPath) == b
    ensures b.appName.Some? ==> r.appName == b.appName
    ensures b.appName.None? && b.appPath.Some? ==> r.appName == Some(host.fileNameWithoutExtension(b.appPath.value))
    ensures b.appName.None? && b.appPath.None? && processPath.Some? ==> r.appName == Some(host.fileNameWithoutExtension(processPath.value))
    ensures r.appName.None? <==> b.appName.None? && b.appPath.None? && processPath.None?
    ensures b.appPath.None? && processPath.None? ==> r.appPath.None?
    ensures r.appPath.Some? ==> r.appPath.value <= b.appPath.GetOr(processPath.GetOr(""))
    ensures var p := if b.appPath.Some? then b.appPath else processPath;
      && (os == MacOS && b.macOSEngine == AppleScript && p.Some? ==> r.appPath == Some(BundlePath(p.value)))
      && (!(os == MacOS && b.macOSEngine == AppleScript && p.Some?) ==> r.appPath == p)
  {
    var path := if b.appPath.Some? then b.appPath else processPath;
    var name := if b.appName.Some? then b.appName
                else if path.None? then None
                else Some(host.fileNameWithoutExtension(path.value));
    var filled := b.(appPath := path, appName := name);
    if os != MacOS || b.macOSEngine != AppleScript || path.None? then filled
    else filled.(appPath := Some(BundlePath(path.value)))
  }

  // ---------------------------------------------------------------------------
  // Build

  const AppNameRequired: string := "AppName is required."
  const AppPathRequired: string := "AppPath is required."

  /** The message for a path that is not absolute. */
  function NotAbsoluteMessage(path: string): string {
    "AppPath '" + path + "' is not absolute."
  }

  /** What `Build` leaves behind besides the launcher: the argument list is set
      to an empty one when it was null and the fields pass validation. */
  datatype Built = Built(outcome: Outcome<Engine>, builder: Builder)

  /** The three checks of `Build`, in order: a name, a path, an absolute path. */
  function Validate(b: Builder, host: Host): (r: Option<Exn>)
    ensures r.None? <==> !IsNullOrWhiteSpace(b.appName) && !IsNullOrWhiteSpace(b.appPath) && host.isPathRooted(b.appPath.value)
  {
    if IsNullOrWhiteSpace(b.appName) then Some(NewBuilder(AppNameRequired))
    else if IsNullOrWhiteSpace(b.appPath) then Some(NewBuilder(AppPathRequired))
    else if !host.isPathRooted(b.appPath.value) then Some(NewAutoLaunch(NotAbsoluteMessage(b.appPath.value), None))
    else None
  }

  /** The engine for the operating system, from fields that passed validation. */
  function SelectEngine(b: Builder, os: OS, host: Host): (r: Outcome<Engine>)
    requires b.appName.Some? && b.appPath.Some?
  {
    var name := b.appName.value;
    var path := b.appPath.value;
    var args := b.args.GetOr([]);
    var app := App(name, path, args);
    match os
    case Windows =>
      (match b.windowsEngine
       case Registry => Returned(RegistryEngine(app, b.workScope))
       case StartupFolder => Returned(StartupFolderEngine(app, b.workScope))
       case TaskScheduler => Returned(TaskSchedulerEngine(app)))
    case Linux =>
      (match b.linuxEngine
       case Freedesktop => Returned(FreedesktopEngine(app, b.workScope, b.extraConfig)))
    case MacOS =>
      (match b.macOSEngine
       case AppleScript => Returned(AppleScriptEngine(App(host.fileNameWithoutExtension(path), path, args)))
       case LaunchAgent => Returned(LaunchAgentEngine(app, b.workScope, b.identifiers, b.extraConfig)))
    case OtherOS => Threw(NewUnsupportedOS())
  }

  /** `Build`. */
  function Build(b: Builder, os: OS, host: Host): (r: Built)
    ensures Validate(b, host).Some? ==> r == Built(Threw(Validate(b, host).value), b)
    ensures Validate(b, host).None? ==> r.builder == b.(args := Some(b.args.GetOr([])))
    ensures r.outcome.Returned? ==> r.outcome.value.TargetOS() == os && IsSupported(os)
  {
    match Validate(b, host)
    case Some(e) => Built(Threw(e), b)
    case None => Built(SelectEngine(b, os, host), b.(args := Some(b.args.GetOr([]))))
  }

  // ---------------------------------------------------------------------------
  // Properties

  /** The checks come in order: a blank name is reported first, then a blank
      path (both as builder exceptions), then a path that is not absolute (as
      a plain `AutoLaunchException`). */
  lemma ValidationOrder(b: Builder, os: OS, host: Host)
    ensures IsNullOrWhiteSpace(b.appName) ==> Build(b, os, host).outcome == Threw(BuilderError(AppNameRequired))
    ensures !IsNullOrWhiteSpace(b.appName) && IsNullOrWhiteSpace(b.appPath) ==>
      Build(b, os, host).outcome == Threw(BuilderError(AppPathRequired))
    ensures !IsNullOrWhiteSpace(b.appName) && !IsNullOrWhiteSpace(b.appPath) && !host.isPathRooted(b.appPath.value) ==>
      var e := Build(b, os, host).outcome;
      e.Threw? && e.error.AutoLaunchError? && e.error.Message() == NotAbsoluteMessage(b.appPath.value)
  {
  }

  /** Valid fields give an engine exactly on a supported operating system, and
      `UnsupportedOSException` everywhere else. */
  lemma UnsupportedExactlyOffPlatform(b: Builder, os: OS, host: Host)
    requires Validate(b, host).None?
    ensures Build(b, os, host).outcome.Returned? <==> IsSupported(os)
    ensures !IsSupported(os) ==> Build(b, os, host).outcome == Threw(UnsupportedOS)
  {
  }

  /** The engine built is the one configured for the operating system, and it
      launches the configured program with the configured arguments (none
      when unset); only the AppleScript engine names the item after the file
      instead of the configured name. */
  lemma EngineFollowsConfiguration(b: Builder, os: OS, host: Host)
    requires Build(b, os, host).outcome.Returned?
    ensures var e := Build(b, os, host).outcome.value;
      (&& e.app.appPath == b.appPath.value
      && e.app.args == b.args.GetOr([])
      && (os.Windows? ==>
            (e.RegistryEngine? <==> b.windowsEngine.Registry?)
            && (e.StartupFolderEngine? <==> b.windowsEngine.StartupFolder?)
            && (e.TaskSchedulerEngine? <==> b.windowsEngine.TaskScheduler?))
      && (os.MacOS? ==> (e.AppleScriptEngine? <==> b.macOSEngine.AppleScript?))
      && (e.AppleScriptEngine? ==> e.app.appName == host.fileNameWithoutExtension(b.appPath.value))
      && (!e.AppleScriptEngine? ==> e.app.appName == b.appName.value))
  {
  }

  /** The scope reaches the engines that have one; the extra configuration and
      the identifiers reach the engines that use them. */
  lemma ScopeAndExtrasReachTheirEngines(b: Builder, os: OS, host: Host)
    requires Build(b, os, host).outcome.Returned?
    ensures var e := Build(b, os, host).outcome.value;
      && (e.RegistryEngine? || e.StartupFolderEngine? || e.FreedesktopEngine? || e.LaunchAgentEngine? ==> e.scope == b.workScope)
      && (e.FreedesktopEngine? || e.LaunchAgentEngine? ==> e.extraConfig == b.extraConfig)
      && (e.LaunchAgentEngine? ==> e.identifiers == b.identifiers)
  {
  }

  /** Filling in the empty argument list changes nothing a later `Build` sees. */
  lemma ArgsWriteBackUnobservable(b: Builder, os: OS, host: Host)
    requires Validate(b, host).None?
    ensures Build(Build(b, os, host).builder, os, host) == Build(b, os, host)
  {
  }

  /** A path cut back at its first `.app/` has no `.app/` left in it, so it is
      not cut again. */
  lemma {:induction false} BundlePathIdempotent(path: string)
    ensures BundlePath(BundlePath(path)) == BundlePath(path)
  {
    var i := IndexOfIgnoreCase(path, AppBundleMarker);
    if i != -1 {
      var r := path[..i + 4];
      forall j | 0 <= j <= |r| ensures !OccursAtIgnoreCase(r, AppBundleMarker, j) {
        if OccursAtIgnoreCase(r, AppBundleMarker, j) {
          assert j + 5 <= i + 4;
          assert r[j..j + 5] == path[j..j + 5];
          assert OccursAtIgnoreCase(path, AppBundleMarker, j);
        }
      }
    }
  }

  /** `Automatic` twice is `Automatic` once. */
  lemma AutomaticIdempotent(b: Builder, os: OS, processPath: Option<string>, host: Host)
    ensures Automatic(Automatic(b, os, processPath, host), os, processPath, host) == Automatic(b, os, processPath, host)
  {
    var a := Automatic(b, os, processPath, host);
    if a.appPath.Some? {
      var path := if b.appPath.Some? then b.appPath.value else processPath.value;
      BundlePathIdempotent(path);
    }
  }

  /** A later `Set` replaces an earlier one, and `Add` appends to what was set
      or added before. */
  lemma SetterLaws(b: Builder, name: string, name2: string, xs: seq<string>, ys: seq<string>)
    ensures SetAppName(SetAppName(b, name), name2) == SetAppName(b, name2)
    ensures SetAppPath(SetAppPath(b, name), name2) == SetAppPath(b, name2)
    ensures SetArgs(SetArgs(b, xs), ys) == SetArgs(b, ys)
    ensures AddArgs(SetArgs(b, xs), ys) == SetArgs(b, xs + ys)
    ensures AddArgs(AddArgs(b, xs), ys) == AddArgs(b, xs + ys)
    ensures AddIdentifiers(SetIdentifiers(b, xs), ys) == SetIdentifiers(b, xs + ys)
    ensures AddIdentifiers(AddIdentifiers(b, xs), ys) == AddIdentifiers(b, xs + ys)
  {
    SeqAssoc(b.args.GetOr([]), xs, ys);
    SeqAssoc(b.identifiers.GetOr([]), xs, ys);
  }

  /** A builder given only a name and an absolute path builds the default
      engine of each operating system, for the current user, with no
      arguments. */
  lemma MinimalConfiguration(name: string, path: string, os: OS, host: Host)
    requires !IsBlank(name) && !IsBlank(path) && host.isPathRooted(path)
    ensures var e := Build(SetAppPath(SetAppName(Default, name), path), os, host).outcome;
      && (os == Windows ==> e == Returned(RegistryEngine(App(name, path, []), CurrentUser)))
      && (os == Linux ==> e == Returned(FreedesktopEngine(App(name, path, []), CurrentUser, None)))
      && (os == MacOS ==> e == Returned(LaunchAgentEngine(App(name, path, []), CurrentUser, None, None)))
  {
  }
}

=== FILE: enums.dfy ===
/**
 The configuration choices a caller makes: which engine to use on each
 operating system and whether the entry applies to one user or to all, plus
 the application every engine launches.
 */
module Enums {

  /** The engines available on Windows. */
  datatype WindowsEngine = Registry | StartupFolder | TaskScheduler

  /** The engines available on Linux. */
  datatype LinuxEngine = Freedesktop

  /** The engines available on macOS. */
  datatype MacOSEngine = LaunchAgent | AppleScript

  /** The scope of the auto-launch entry. */
  datatype WorkScope = CurrentUser | AllUser

  /** The application an engine registers: its name, the path of its
      executable and the arguments it is started with, in order. */
  datatype App = App(appName: string, appPath: string, args: seq<string>)
}

=== FILE: exceptions.dfy ===
/**
 The exceptions that cross the engines and decorators: the `AutoLaunchException`
 family of the library (in its three revisions) and the native .NET failures the
 engines can raise. An operation either returns a value or throws one of these.
 */
module Exceptions {
  import opened Wrappers
  import opened Text

  /** One thrown exception. The first five kinds form the `AutoLaunchException`
      family; the last three are native failures raised by the runtime. */
  datatype Exn =
    | AutoLaunchError(message: string, inner: Option<Exn>)
    | BuilderError(message: string)
    | UnsupportedOS
    | PermissionDenied(message: string, inner: Option<Exn>)
    | ExecuteCommand(message: string, command: Option<string>, exitCode: Option<int>,
                     error: Option<string>, inner: Option<Exn>)
    | SecurityError(message: string)
    | UnauthorizedAccess(message: string)
    | NativeError(typeName: string, message: string)
  {
    /** `is AutoLaunchException`: the kind derives from the library's base class. */
    predicate IsAutoLaunch() {
      !(SecurityError? || UnauthorizedAccess? || NativeError?)
    }

    /** `Exception.Message`. */
    function Message(): string {
      match this
      case UnsupportedOS => UnsupportedOSMessage
      case AutoLaunchError(m, _) => m
      case BuilderError(m) => m
      case PermissionDenied(m, _) => m
      case ExecuteCommand(m, _, _, _, _) => m
      case SecurityError(m) => m
      case UnauthorizedAccess(m) => m
      case NativeError(_, m) => m
    }
  }

  /** The outcome of one call: a returned value or a thrown exception. */
  datatype Outcome<+T> = Returned(value: T) | Threw(error: Exn) {

    /** The same outcome with a returned value passed through `f`. */
    function Map<U>(f: T -> U): (r: Outcome<U>)
      ensures r.Returned? <==> Returned?
      ensures Returned? ==> r.value == f(value)
      ensures Threw? ==> r.error == error
    {
      match this
      case Returned(v) => Returned(f(v))
      case Threw(e) => Threw(e)
    }

    /** The same outcome with a thrown exception passed through `g`. */
    function MapError(g: Exn -> Exn): (r: Outcome<T>)
      ensures r.Returned? <==> Returned?
      ensures Returned? ==> r.value == value
      ensures Threw? ==> r.error == g(error)
    {
      match this
      case Returned(v) => Returned(v)
      case Threw(e) => Threw(g(e))
    }
  }

  const UnsupportedOSMessage: string := "Unsupported target os"
  const PermissionDeniedMessage: string := "Permission denied."

  // ---------------------------------------------------------------------------
  // Constructors shared by every revision

  /** `new AutoLaunchException(message, inner)`. */
  function NewAutoLaunch(message: string, inner: Option<Exn>): (r: Exn)
    ensures r.IsAutoLaunch() && r.Message() == message
    ensures r.AutoLaunchError? && r.inner == inner
  {
    AutoLaunchError(message, inner)
  }

  /** `new AutoLaunchBuilderException(message)`: a family member without inner exception. */
  function NewBuilder(message: string): (r: Exn)
    ensures r.IsAutoLaunch() && r.Message() == message
  {
    BuilderError(message)
  }

  /** `new UnsupportedOSException()`: fixed message, no arguments. */
  function NewUnsupportedOS(): (r: Exn)
    ensures r.IsAutoLaunch() && r.Message() == "Unsupported target os"
  {
    UnsupportedOS
  }

  /** `new PermissionDeniedException(message?, inner?)`: the message defaults
      to "Permission denied." when the caller gives none. */
  function NewPermissionDenied(message: Option<string>, inner: Option<Exn>): (r: Exn)
    ensures r.IsAutoLaunch() && r.PermissionDenied? && r.inner == inner
    ensures message.None? ==> r.Message() == "Permission denied."
    ensures message.Some? ==> r.Message() == message.value
  {
    PermissionDenied(message.GetOr(PermissionDeniedMessage), inner)
  }

  // ---------------------------------------------------------------------------
  // ExecuteCommandException, one constructor per revision

  /** The message of `ExecuteCommandException` in the revisions that separate the
      fields with semicolons. */
  function SemicolonMessage(command: string, exitCode: int, error: string): string {
    "Failed to execute command: " + command + "; exit code: " + IntToString(exitCode) + "; error: " + error
  }

  /** The message of the `AutoLaunch.Exceptions` revision, which uses commas. */
  function CommaMessage(command: string, exitCode: int, error: string): string {
    "Failed to execute command: " + command + ", exit code: " + IntToString(exitCode) + ", error: " + error
  }

  /** `new ExecuteCommandException(command, exitCode, error)` of the revision that
      exposes `Command`, `ExitCode` and `Error`: all three are kept verbatim. */
  function NewExecuteCommand(command: string, exitCode: int, error: string): (r: Exn)
    ensures r.IsAutoLaunch() && r.ExecuteCommand?
    ensures r.command == Some(command) && r.exitCode == Some(exitCode) && r.error == Some(error)
    ensures r.Message() == SemicolonMessage(command, exitCode, error)
    ensures r.inner.None?
  {
    ExecuteCommand(SemicolonMessage(command, exitCode, error), Some(command), Some(exitCode), Some(error), None)
  }

  /** The revision that exposes only `ExitCode` (never null) beside the message. */
  function NewExecuteCommandExitCodeOnly(command: string, exitCode: int, error: string): (r: Exn)
    ensures r.IsAutoLaunch() && r.ExecuteCommand?
    ensures r.exitCode == Some(exitCode) && r.command.None? && r.error.None?
    ensures r.Message() == SemicolonMessage(command, exitCode, error)
  {
    ExecuteCommand(SemicolonMessage(command, exitCode, error), None, Some(exitCode), None, None)
  }

  /** `AutoLaunch.Exceptions.ExecuteCommandException(command, exitCode, error)`:
      the nullable `ExitCode` is set to the given code. */
  function NewExecuteCommandCoded(command: string, exitCode: int, error: string): (r: Exn)
    ensures r.IsAutoLaunch() && r.ExecuteCommand?
    ensures r.exitCode == Some(exitCode) && r.inner.None?
    ensures r.Message() == CommaMessage(command, exitCode, error)
  {
    ExecuteCommand(CommaMessage(command, exitCode, error), None, Some(exitCode), None, None)
  }

  /** `AutoLaunch.Exceptions.ExecuteCommandException(ex)`: wraps a launch failure,
      leaves `ExitCode` null and uses a fixed message. */
  function NewExecuteCommandWrapped(ex: Exn): (r: Exn)
    ensures r.IsAutoLaunch() && r.ExecuteCommand?
    ensures r.exitCode.None? && r.inner == Some(ex)
    ensures r.Message() == "Error to execute command."
  {
    ExecuteCommand("Error to execute command.", None, None, None, Some(ex))
  }

  /** The exit code shown in the message is the one stored in `ExitCode`: it is
      read back from the text that follows "; exit code: ". */
  lemma ExecuteCommandMessageCarriesExitCode(command: string, exitCode: int, error: string)
    ensures var prefix := "Failed to execute command: " + command + "; exit code: ";
      var m := NewExecuteCommand(command, exitCode, error).Message();
      var digits := IntToString(exitCode);
      && prefix <= m
      && m[|prefix|..|prefix| + |digits|] == digits
      && ParseInt(digits) == NewExecuteCommand(command, exitCode, error).exitCode.value
  {
    var prefix := "Failed to execute command: " + command + "; exit code: ";
    var digits := IntToString(exitCode);
    var m := prefix + digits + ("; error: " + error);
    assert NewExecuteCommand(command, exitCode, error).Message() == m;
    assert m[|prefix|..|prefix| + |digits|] == digits;
    IntToStringRoundTrip(exitCode);
  }
}

=== FILE: file_system.dfy ===
/**
 The file system as the file-based engines see it: a set of directories, the
 text of each file, and the locations where the current user may not write.
 */
module FileSystem {
  import opened Exceptions

  datatype Fs = Fs(dirs: set<string>, files: map<string, string>, denied: set<string>)

  /** The state after a call, whether or not the call threw. */
  datatype FsStep = FsStep(outcome: Outcome<()>, fs: Fs)

  /** The message of .NET's `UnauthorizedAccessException` for a path. */
  function AccessDenied(path: string): Exn {
    UnauthorizedAccess("Access to the path '" + path + "' is denied.")
  }

  /** `File.Exists(path)`; it never throws. */
  predicate FileExists(fs: Fs, path: string) {
    path in fs.files
  }

  /** `if (!Directory.Exists(dir)) Directory.CreateDirectory(dir)`. */
  function EnsureDirectory(fs: Fs, dir: string): (r: FsStep)
    ensures r.outcome.Returned? <==> dir in fs.dirs || dir !in fs.denied
    ensures r.outcome.Returned? ==> r.fs == fs.(dirs := fs.dirs + {dir})
    ensures r.outcome.Threw? ==> r.fs == fs && r.outcome.error.UnauthorizedAccess?
  {
    if dir in fs.dirs then FsStep(Returned(()), fs)
    else if dir in fs.denied then FsStep(Threw(AccessDenied(dir)), fs)
    else FsStep(Returned(()), fs.(dirs := fs.dirs + {dir}))
  }

  /** `File.WriteAllText(path, text)`: creates or overwrites the file. */
  function WriteAllText(fs: Fs, path: string, text: string): (r: FsStep)
    ensures r.outcome.Returned? <==> path !in fs.denied
    ensures r.outcome.Returned? ==> r.fs == fs.(files := fs.files[path := text])
    ensures r.outcome.Threw? ==> r.fs == fs && r.outcome.error.UnauthorizedAccess?
  {
    if path in fs.denied then FsStep(Threw(AccessDenied(path)), fs)
    else FsStep(Returned(()), fs.(files := fs.files[path := text]))
  }

  /** `if (File.Exists(path)) File.Delete(path)`: a missing file is no error. */
  function DeleteIfExists(fs: Fs, path: string): (r: FsStep)
    ensures r.outcome.Returned? <==> path !in fs.files || path !in fs.denied
    ensures r.outcome.Returned? ==> r.fs == fs.(files := fs.files - {path})
    ensures r.outcome.Threw? ==> r.fs == fs && r.outcome.error.UnauthorizedAccess?
  {
    if path !in fs.files then FsStep(Returned(()), fs)
    else if path in fs.denied then FsStep(Threw(AccessDenied(path)), fs)
    else FsStep(Returned(()), fs.(files := fs.files - {path}))
  }

  /** The `Enable` body the four file-based engines share: make sure the
      directory exists, then (over)write the artifact. There is no rollback: a
      refused write leaves a freshly created directory in place. */
  function EnsureDirectoryAndWrite(fs: Fs, dir: string, path: string, text: string): (r: FsStep)
    ensures r.outcome.Returned? <==> (dir in fs.dirs || dir !in fs.denied) && path !in fs.denied
    ensures r.outcome.Returned? ==>
      r.fs == Fs(fs.dirs + {dir}, fs.files[path := text], fs.denied)
    ensures r.outcome.Threw? ==> r.fs.files == fs.files && r.outcome.error.UnauthorizedAccess?
  {
    var made := EnsureDirectory(fs, dir);
    if made.outcome.Threw? then made else WriteAllText(made.fs, path, text)
  }

  /** Writing the same artifact twice leaves the state of writing it once. */
  lemma EnsureDirectoryAndWriteIdempotent(fs: Fs, dir: string, path: string, text: string)
    requires EnsureDirectoryAndWrite(fs, dir, path, text).outcome.Returned?
    ensures var once := EnsureDirectoryAndWrite(fs, dir, path, text).fs;
      EnsureDirectoryAndWrite(once, dir, path, text) == FsStep(Returned(()), once)
  {
    var once := EnsureDirectoryAndWrite(fs, dir, path, text).fs;
    assert once.files[path := text] == once.files;
    assert once.dirs + {dir} == once.dirs;
  }
}

=== FILE: freedesktop.dfy ===
/**
 The Linux engine: a desktop entry (`<appName>.desktop`) in the XDG autostart
 directory, as the Desktop Application Autostart Specification describes,
 with the keys of section 6 of the Desktop Entry Specification. Every
 operation runs under the permission guard.
 */
module LinuxFreedesktop {
  import opened Wrappers
  import opened Exceptions
  import opened Text
  import opened Platform
  import opened FileSystem
  import opened Enums

  /** `~/.config/autostart` for the current user, `/etc/xdg/autostart` for all users. */
  function AutoStartDir(host: Host, scope: WorkScope): (r: string)
    ensures scope.CurrentUser? ==> r == host.Combine3(host.userProfile, ".config", "autostart")
    ensures scope.AllUser? ==> r == host.Combine4(host.directorySeparator, "etc", "xdg", "autostart")
  {
    match scope
    case CurrentUser => host.Combine3(host.userProfile, ".config", "autostart")
    case AllUser => host.Combine4(host.directorySeparator, "etc", "xdg", "autostart")
  }

  /** `AutoStartFile`: `<dir>/<appName>.desktop`. */
  function AutoStartFile(host: Host, app: App, scope: WorkScope): string {
    host.combine(AutoStartDir(host, scope), app.appName + ".desktop")
  }

  /** The value of the first `key=value` line for `key`, as a desktop-entry
      reader looks it up (`None` when no line sets the key). */
  function KeyValue(lines: seq<string>, key: string): (r: Option<string>)
    ensures r.Some? ==> exists i :: 0 <= i < |lines| && lines[i] == key + "=" + r.value
    decreases |lines|
  {
    if |lines| == 0 then None
    else if key + "=" <= lines[0] then
      assert lines[0] == key + "=" + lines[0][|key| + 1..];
      Some(lines[0][|key| + 1..])
    else
      var r := KeyValue(lines[1..], key);
      assert r.Some? ==> exists i :: 0 <= i < |lines| && lines[i] == key + "=" + r.value by {
        if r.Some? {
          var i :| 0 <= i < |lines[1..]| && lines[1..][i] == key + "=" + r.value;
          assert lines[i + 1] == key + "=" + r.value;
        }
      }
      r
  }

  /** A key set in the first lines keeps its value whatever lines follow. */
  lemma {:induction false} KeyValuePrefix(a: seq<string>, b: seq<string>, key: string)
    requires KeyValue(a, key).Some?
    ensures KeyValue(a + b, key) == KeyValue(a, key)
    decreases |a|
  {
    assert (a + b)[0] == a[0];
    if !(key + "=" <= a[0]) {
      assert (a + b)[1..] == a[1..] + b;
      KeyValuePrefix(a[1..], b, key);
    }
  }

  /** A reader that lets the last line setting `key` win, as GLib's key-file
      parser does with duplicate keys. */
  function KeyValueLast(lines: seq<string>, key: string): (r: Option<string>)
    ensures r.Some? ==> exists i :: 0 <= i < |lines| && lines[i] == key + "=" + r.value
    decreases |lines|
  {
    if |lines| == 0 then None
    else if key + "=" <= lines[|lines| - 1] then
      assert lines[|lines| - 1] == key + "=" + lines[|lines| - 1][|key| + 1..];
      Some(lines[|lines| - 1][|key| + 1..])
    else
      var r := KeyValueLast(lines[..|lines| - 1], key);
      assert r.Some? ==> exists i :: 0 <= i < |lines| && lines[i] == key + "=" + r.value by {
        if r.Some? {
          var i :| 0 <= i < |lines[..|lines| - 1]| && lines[..|lines| - 1][i] == key + "=" + r.value;
          assert lines[i] == key + "=" + r.value;
        }
      }
      r
  }

  /** The seven fixed entry lines, before the extra configuration. */
  function EntryLines(host: Host, app: App): (r: seq<string>)
    ensures |r| == 7 && r[0] == "[Desktop Entry]"
  {
    [ "[Desktop Entry]",
      "Type=Application",
      "Name=" + app.appName,
      "Exec=" + host.escapeArguments([app.appPath] + app.args),
      "StartupNotify=false",
      "Terminal=false",
      "Comment=" + app.appName + " startup" ]
  }

  /** `GetDesktopFileContent`: the entry lines, then the extra configuration
      verbatim on the last line (an empty line when there is none). */
  function DesktopFileContent(host: Host, app: App, extraConfig: Option<string>): string {
    JoinLines(EntryLines(host, app) + [extraConfig.GetOr("")])
  }

  /** `Enable`: creates the directory when missing and (over)writes the entry. */
  function Enable(fs: Fs, host: Host, app: App, scope: WorkScope, extraConfig: Option<string>): (r: FsStep)
    ensures r.outcome.Returned? ==>
      && FileExists(r.fs, AutoStartFile(host, app, scope))
      && r.fs.files[AutoStartFile(host, app, scope)] == DesktopFileContent(host, app, extraConfig)
      && AutoStartDir(host, scope) in r.fs.dirs
    ensures r.outcome.Threw? ==> r.fs.files == fs.files
    ensures forall p :: p != AutoStartFile(host, app, scope) ==>
      (p in r.fs.files <==> p in fs.files) && (p in fs.files ==> r.fs.files[p] == fs.files[p])
  {
    var s := EnsureDirectoryAndWrite(fs, AutoStartDir(host, scope), AutoStartFile(host, app, scope),
                                     DesktopFileContent(host, app, extraConfig));
    FsStep(s.outcome.MapError(host.permissionGuard), s.fs)
  }

  /** `Disable`: deletes the entry when it exists and otherwise does nothing. */
  function Disable(fs: Fs, host: Host, app: App, scope: WorkScope): (r: FsStep)
    ensures !FileExists(fs, AutoStartFile(host, app, scope)) ==> r == FsStep(Returned(()), fs)
    ensures r.outcome.Returned? ==> !FileExists(r.fs, AutoStartFile(host, app, scope))
    ensures forall p :: p != AutoStartFile(host, app, scope) ==>
      (p in r.fs.files <==> p in fs.files) && (p in fs.files ==> r.fs.files[p] == fs.files[p])
  {
    var s := DeleteIfExists(fs, AutoStartFile(host, app, scope));
    FsStep(s.outcome.MapError(host.permissionGuard), s.fs)
  }

  /** `IsEnabled`: the entry exists; the guard has nothing to catch. */
  function IsEnabled(fs: Fs, host: Host, app: App, scope: WorkScope): (r: Outcome<bool>)
    ensures r.Returned? && (r.value <==> AutoStartFile(host, app, scope) in fs.files)
  {
    Returned(FileExists(fs, AutoStartFile(host, app, scope))).MapError(host.permissionGuard)
  }

  // ---------------------------------------------------------------------------
  // Properties

  /** A successful `Enable` makes the status true, a successful `Disable` false. */
  lemma EnableDisableStatus(fs: Fs, host: Host, app: App, scope: WorkScope, extraConfig: Option<string>)
    ensures Enable(fs, host, app, scope, extraConfig).outcome.Returned? ==>
      IsEnabled(Enable(fs, host, app, scope, extraConfig).fs, host, app, scope) == Returned(true)
    ensures Disable(fs, host, app, scope).outcome.Returned? ==>
      IsEnabled(Disable(fs, host, app, scope).fs, host, app, scope) == Returned(false)
  {
  }

  /** Enabling twice leaves the state of enabling once. */
  lemma EnableIdempotent(fs: Fs, host: Host, app: App, scope: WorkScope, extraConfig: Option<string>)
    requires Enable(fs, host, app, scope, extraConfig).outcome.Returned?
    ensures var once := Enable(fs, host, app, scope, extraConfig).fs;
      Enable(once, host, app, scope, extraConfig) == FsStep(Returned(()), once)
  {
    EnsureDirectoryAndWriteIdempotent(fs, AutoStartDir(host, scope), AutoStartFile(host, app, scope),
                                      DesktopFileContent(host, app, extraConfig));
  }

  /** On a POSIX host the per-user directory is `$HOME/.config/autostart`. */
  lemma PosixUserDirectory(host: Host)
    requires IsPosix(host)
    requires host.userProfile != "" && host.userProfile[|host.userProfile| - 1] != '/'
    ensures AutoStartDir(host, CurrentUser) == host.userProfile + "/.config/autostart"
  {
    var home := host.userProfile;
    PosixCombineParts(host, home, ".config");
    var config := home + "/.config";
    assert home + "/" + ".config" == config;
    assert config[|config| - 1] == 'g';
    PosixCombineParts(host, config, "autostart");
    assert config + "/" + "autostart" == home + "/.config/autostart";
    assert host.combine(home, ".config") == config;
    assert host.Combine3(home, ".config", "autostart") == host.combine(config, "autostart");
  }

  /** On a POSIX host the all-users directory is `/etc/xdg/autostart`, the
      system-wide autostart directory of the XDG specification. */
  lemma PosixAllUserDirectory(host: Host)
    requires IsPosix(host)
    ensures AutoStartDir(host, AllUser) == "/etc/xdg/autostart"
  {
    PosixCombineParts(host, "/", "etc");
    PosixCombineParts(host, "/etc", "xdg");
    PosixCombineParts(host, "/etc/xdg", "autostart");
  }

  /** None of the seven key lines holds a line break when the name and the
      command line do not. */
  lemma EntryLinesSingle(host: Host, app: App)
    requires '\n' !in app.appName
    requires '\n' !in host.escapeArguments([app.appPath] + app.args)
    ensures LinesFree(EntryLines(host, app))
  {
    var lines := EntryLines(host, app);
    assert '\n' !in lines[0] && '\n' !in lines[1] && '\n' !in lines[2] && '\n' !in lines[3];
    assert '\n' !in lines[4] && '\n' !in lines[5] && '\n' !in lines[6];
  }

  /** Read back line by line, the entry holds the seven key lines in their
      fixed order (`[Desktop Entry]`, `Type`, `Name`, `Exec`, `StartupNotify`,
      `Terminal`, `Comment`) and then the lines of the extra configuration. */
  lemma DesktopFileLines(host: Host, app: App, extraConfig: Option<string>)
    requires '\n' !in app.appName
    requires '\n' !in host.escapeArguments([app.appPath] + app.args)
    ensures SplitLines(DesktopFileContent(host, app, extraConfig)) == EntryLines(host, app) + SplitLines(extraConfig.GetOr(""))
  {
    var pre := EntryLines(host, app);
    EntryLinesSingle(host, app);
    SplitJoinLines(pre, extraConfig.GetOr(""), []);
    assert pre + [extraConfig.GetOr("")] + [] == pre + [extraConfig.GetOr("")];
  }

  /** What a first-match reader of the written entry sees: the application
      name, the escaped command line, a comment naming the application, and no
      startup notification or terminal. The fixed keys come first and the
      extra configuration's lines follow them; a reader that keeps the last
      duplicate sees the extra configuration's value instead (see
      `ExtraConfigOverrides`). */
  lemma DesktopEntryKeys(host: Host, app: App, extraConfig: Option<string>)
    requires '\n' !in app.appName
    requires '\n' !in host.escapeArguments([app.appPath] + app.args)
    ensures var lines := SplitLines(DesktopFileContent(host, app, extraConfig));
      && lines[0] == "[Desktop Entry]"
      && KeyValue(lines, "Type") == Some("Application")
      && KeyValue(lines, "Name") == Some(app.appName)
      && KeyValue(lines, "Exec") == Some(host.escapeArguments([app.appPath] + app.args))
      && KeyValue(lines, "StartupNotify") == Some("false")
      && KeyValue(lines, "Terminal") == Some("false")
      && KeyValue(lines, "Comment") == Some(app.appName + " startup")
  {
    var exec := host.escapeArguments([app.appPath] + app.args);
    DesktopFileLines(host, app, extraConfig);
    EntryLinesIsEntry(host, app);
    EntryKeysBeforeRest(app.appName, exec, EntryLines(host, app), SplitLines(extraConfig.GetOr("")));
  }

  /** The fixed entry lines have the shape `IsEntry` describes. */
  lemma EntryLinesIsEntry(host: Host, app: App)
    ensures IsEntry(EntryLines(host, app), app.appName, host.escapeArguments([app.appPath] + app.args))
  {
  }

  /** The six keys of an entry keep their values whatever lines follow it. */
  lemma EntryKeysBeforeRest(name: string, exec: string, entry: seq<string>, rest: seq<string>)
    requires IsEntry(entry, name, exec)
    ensures (entry + rest)[0] == "[Desktop Entry]"
    ensures KeyValue(entry + rest, "Type") == Some("Application")
    ensures KeyValue(entry + rest, "Name") == Some(name)
    ensures KeyValue(entry + rest, "Exec") == Some(exec)
    ensures KeyValue(entry + rest, "StartupNotify") == Some("false")
    ensures KeyValue(entry + rest, "Terminal") == Some("false")
    ensures KeyValue(entry + rest, "Comment") == Some(name + " startup")
  {
    EntryKeysFront(name, exec, entry);
    EntryKeysBack(name, exec, entry);
    KeyValuePrefix(entry, rest, "Type");
    KeyValuePrefix(entry, rest, "Name");
    KeyValuePrefix(entry, rest, "Exec");
    KeyValuePrefix(entry, rest, "StartupNotify");
    KeyValuePrefix(entry, rest, "Terminal");
    KeyValuePrefix(entry, rest, "Comment");
  }

  /** The key is read from the first line that sets it. */
  lemma {:induction false} KeyValueFirst(lines: seq<string>, key: string, i: nat)
    requires i < |lines| && key + "=" <= lines[i]
    requires forall j :: 0 <= j < i ==> !(key + "=" <= lines[j])
    ensures KeyValue(lines, key) == Some(lines[i][|key| + 1..])
    decreases i
  {
    if i > 0 {
      assert forall j :: 0 <= j < i - 1 ==> lines[1..][j] == lines[j + 1];
      KeyValueFirst(lines[1..], key, i - 1);
    }
  }

  /** A line that differs from `key` at position `k` does not set `key`. */
  lemma NotKeyLine(line: string, key: string, k: nat)
    requires k < |key| && k < |line| && line[k] != key[k]
    ensures !(key + "=" <= line)
  {
  }

  /** The seven entry lines, for a given name and command line. */
  predicate IsEntry(entry: seq<string>, name: string, exec: string) {
    && |entry| == 7
    && entry[0] == "[Desktop Entry]"
    && entry[1] == "Type=Application"
    && entry[2] == "Name=" + name
    && entry[3] == "Exec=" + exec
    && entry[4] == "StartupNotify=false"
    && entry[5] == "Terminal=false"
    && entry[6] == "Comment=" + name + " startup"
  }

  /** The keys of the first four entry lines, read one by one. */
  lemma EntryKeysFront(name: string, exec: string, entry: seq<string>)
    requires IsEntry(entry, name, exec)
    ensures KeyValue(entry, "Type") == Some("Application")
    ensures KeyValue(entry, "Name") == Some(name)
    ensures KeyValue(entry, "Exec") == Some(exec)
  {
    assert entry[0][0] == '[' && entry[1][0] == 'T' && entry[2][0] == 'N';
    NotKeyLine(entry[0], "Type", 0);
    KeyValueFirst(entry, "Type", 1);
    NotKeyLine(entry[0], "Name", 0);
    NotKeyLine(entry[1], "Name", 0);
    KeyValueFirst(entry, "Name", 2);
    NotKeyLine(entry[0], "Exec", 0);
    NotKeyLine(entry[1], "Exec", 0);
    NotKeyLine(entry[2], "Exec", 0);
    KeyValueFirst(entry, "Exec", 3);
  }

  /** The keys of the last three entry lines, read one by one. */
  lemma EntryKeysBack(name: string, exec: string, entry: seq<string>)
    requires IsEntry(entry, name, exec)
    ensures KeyValue(entry, "StartupNotify") == Some("false")
    ensures KeyValue(entry, "Terminal") == Some("false")
    ensures KeyValue(entry, "Comment") == Some(name + " startup")
  {
    assert entry[0][0] == '[' && entry[1][0] == 'T' && entry[1][1] == 'y' && entry[2][0] == 'N';
    assert entry[3][0] == 'E' && entry[4][0] == 'S' && entry[5][0] == 'T';
    NotKeyLine(entry[0], "StartupNotify", 0);
    NotKeyLine(entry[1], "StartupNotify", 0);
    NotKeyLine(entry[2], "StartupNotify", 0);
    NotKeyLine(entry[3], "StartupNotify", 0);
    KeyValueFirst(entry, "StartupNotify", 4);
    NotKeyLine(entry[0], "Terminal", 0);
    NotKeyLine(entry[1], "Terminal", 1);
    NotKeyLine(entry[2], "Terminal", 0);
    NotKeyLine(entry[3], "Terminal", 0);
    NotKeyLine(entry[4], "Terminal", 0);
    KeyValueFirst(entry, "Terminal", 5);
    NotKeyLine(entry[0], "Comment", 0);
    NotKeyLine(entry[1], "Comment", 0);
    NotKeyLine(entry[2], "Comment", 0);
    NotKeyLine(entry[3], "Comment", 0);
    NotKeyLine(entry[4], "Comment", 0);
    NotKeyLine(entry[5], "Comment", 0);
    assert entry[6] == "Comment=" + (name + " startup");
    KeyValueFirst(entry, "Comment", 6);
  }

  /** Without extra configuration the entry ends in an empty line. */
  lemma NoExtraConfigGivesEmptyLastLine(host: Host, app: App)
    requires '\n' !in app.appName
    requires '\n' !in host.escapeArguments([app.appPath] + app.args)
    ensures SplitLines(DesktopFileContent(host, app, None)) == EntryLines(host, app) + [""]
  {
    DesktopFileLines(host, app, None);
    SplitLinesSingle("");
  }

  /** The extra configuration is appended after the fixed keys, so a single
      extra line `key=value` redefines `key` for a reader that keeps the last
      duplicate, even for `Exec`, `Name` and the other fixed keys. */
  lemma ExtraConfigOverrides(host: Host, app: App, key: string, value: string)
    requires '\n' !in app.appName
    requires '\n' !in host.escapeArguments([app.appPath] + app.args)
    requires '\n' !in key && '\n' !in value
    ensures KeyValueLast(SplitLines(DesktopFileContent(host, app, Some(key + "=" + value))), key) == Some(value)
  {
    var extra := key + "=" + value;
    DesktopFileLines(host, app, Some(extra));
    SplitLinesSingle(extra);
    var lines := EntryLines(host, app) + [extra];
    assert lines[|lines| - 1] == extra;
    assert extra[|key| + 1..] == value;
  }
}

=== FILE: launch_agent.dfy ===
/**
 The macOS launchd engine: a property list in the user's (or the system's)
 `LaunchAgents` directory whose `ProgramArguments` launchd runs at load.
 */
module MacOSLaunchAgent {
  import opened Wrappers
  import opened Exceptions
  import opened Text
  import opened Platform
  import opened FileSystem
  import opened Enums

  /** `~/Library/LaunchAgents` for the current user, `/Library/LaunchAgents` for all users. */
  function LaunchAgentsDir(host: Host, scope: WorkScope): (r: string)
    ensures scope.CurrentUser? ==> r == host.Combine3(host.userProfile, "Library", "LaunchAgents")
    ensures scope.AllUser? ==> r == host.Combine3(host.directorySeparator, "Library", "LaunchAgents")
  {
    match scope
    case CurrentUser => host.Combine3(host.userProfile, "Library", "LaunchAgents")
    case AllUser => host.Combine3(host.directorySeparator, "Library", "LaunchAgents")
  }

  /** `identifiers?.FirstOrDefault() ?? appName`: the first identifier when
      there is one, the application name otherwise. */
  function FileStem(app: App, identifiers: Option<seq<string>>): (r: string)
    ensures identifiers.Some? && |identifiers.value| > 0 ==> r == identifiers.value[0]
    ensures identifiers.None? || |identifiers.value| == 0 ==> r == app.appName
  {
    match identifiers
    case Some(ids) => if |ids| > 0 then ids[0] else app.appName
    case None => app.appName
  }

  /** `LaunchAgentFile`: `<dir>/<stem>.plist`. */
  function LaunchAgentFile(host: Host, app: App, scope: WorkScope, identifiers: Option<seq<string>>): string {
    host.combine(LaunchAgentsDir(host, scope), FileStem(app, identifiers) + ".plist")
  }

  // The fixed lines of the property list. The longer literals are written in
  // pieces, which keeps the proofs about their characters small.
  const XmlDeclaration: string := "<?xml version=\"1.0\" " + "encoding=\"UTF-8\"?>"
  const DocType: string := "<!DOCTYPE plist PUBLIC " + "\"-//Apple//DTD " + "PLIST 1.0//EN\" "
    + "\"http://www.apple.com/" + "DTDs/PropertyList-" + "1.0.dtd\">"
  const PlistOpen: string := "<plist version=\"1.0\">"
  const Indent: string := "    "

  /** Every item as `<string>item</string>`, concatenated. */
  function StringElements(xs: seq<string>): string {
    EncloseAll("<string>", "</string>", "", xs)
  }

  /** An indented `<array>` line around the given elements. */
  function ArrayLine(xs: seq<string>): string {
    Indent + "<array>" + StringElements(xs) + "</array>"
  }

  const BundleIdentifiersKey: string := "AssociatedBundle" + "Identifiers"

  /** The XML declaration, the document type and the opening tags. */
  const PreambleLines: seq<string> := [XmlDeclaration, DocType, PlistOpen, "<dict>"]

  /** The `<key>` line of a dictionary entry. */
  function KeyLine(key: string): string {
    Indent + "<key>" + key + "</key>"
  }

  /** The line after the first `<key>` line for `key`: the value a
      property-list reader pairs with the key (`None` when no line names it). */
  function ValueOf(lines: seq<string>, key: string): (r: Option<string>)
    decreases |lines|
  {
    if |lines| < 2 then None
    else if lines[0] == KeyLine(key) then Some(lines[1])
    else ValueOf(lines[1..], key)
  }

  /** The value is read after the first line that names the key. */
  lemma {:induction false} ValueOfFirst(lines: seq<string>, key: string, i: nat)
    requires i + 1 < |lines| && lines[i] == KeyLine(key)
    requires forall j :: 0 <= j < i ==> lines[j] != KeyLine(key)
    ensures ValueOf(lines, key) == Some(lines[i + 1])
    decreases i
  {
    if i > 0 {
      assert forall j :: 0 <= j < i - 1 ==> lines[1..][j] == lines[j + 1];
      ValueOfFirst(lines[1..], key, i - 1);
    }
  }

  /** A line that is not indented is not a `<key>` line. */
  lemma NotKeyLine(line: string, key: string)
    requires |line| > 0 && line[0] != ' '
    ensures line != KeyLine(key)
  {
  }

  /** An indented line that is not a `<key>` element is not a `<key>` line. */
  lemma NotKeyLineAt(line: string, key: string)
    requires |line| > 5 && line[5] != 'k'
    ensures line != KeyLine(key)
  {
    assert KeyLine(key)[5] == 'k';
  }

  /** In a file that opens with four unindented lines and continues with the
      dictionary lines, a key is paired with the line after its first
      `<key>` line in the dictionary. */
  lemma ValueInDict(lines: seq<string>, dict: seq<string>, key: string, i: nat)
    requires |lines| >= 12 && |dict| == 8 && i + 1 < 8
    requires forall j :: 0 <= j < 4 ==> |lines[j]| > 0 && lines[j][0] == '<'
    requires forall j :: 0 <= j < 8 ==> lines[4 + j] == dict[j]
    requires dict[i] == KeyLine(key)
    requires forall j :: 0 <= j < i ==> dict[j] != KeyLine(key)
    ensures ValueOf(lines, key) == Some(dict[i + 1])
  {
    forall j | 0 <= j < 4 + i ensures lines[j] != KeyLine(key) {
      if j < 4 { NotKeyLine(lines[j], key); } else { assert lines[j] == dict[j - 4]; }
    }
    assert lines[4 + i + 1] == dict[i + 1];
    ValueOfFirst(lines, key, 4 + i);
  }

  /** The indented key/value lines of the dictionary, up to `<true/>`. */
  function DictLines(app: App, identifiers: Option<seq<string>>): (r: seq<string>)
    ensures |r| == 8
    ensures r[6] == KeyLine("RunAtLoad") && r[7] == Indent + "<true/>"
  {
    [ KeyLine("Label"),
      Indent + "<string>" + app.appName + "</string>",
      KeyLine(BundleIdentifiersKey),
      ArrayLine(identifiers.GetOr([])),
      KeyLine("ProgramArguments"),
      ArrayLine([app.appPath] + app.args),
      KeyLine("RunAtLoad"),
      Indent + "<true/>" ]
  }

  /** The lines from the XML declaration up to `<true/>`. */
  function HeadLines(app: App, identifiers: Option<seq<string>>): (r: seq<string>)
    ensures |r| == 12
  {
    PreambleLines + DictLines(app, identifiers)
  }

  const TailLines: seq<string> := ["</dict>", "</plist>"]

  /** `GetLaunchAgentFileContent`: the head, the extra configuration spliced
      in after the indentation, then `</dict>` and `</plist>`. */
  function LaunchAgentFileContent(app: App, identifiers: Option<seq<string>>, extraConfig: Option<string>): string {
    JoinLines(HeadLines(app, identifiers) + [Indent + extraConfig.GetOr("")] + TailLines)
  }

  // ---------------------------------------------------------------------------
  // Operations over the file system

  /** `Enable`: creates the directory when missing and (over)writes the property list. */
  function Enable(fs: Fs, host: Host, app: App, scope: WorkScope,
                  identifiers: Option<seq<string>>, extraConfig: Option<string>): (r: FsStep)
    ensures r.outcome.Returned? ==>
      && FileExists(r.fs, LaunchAgentFile(host, app, scope, identifiers))
      && r.fs.files[LaunchAgentFile(host, app, scope, identifiers)] == LaunchAgentFileContent(app, identifiers, extraConfig)
      && LaunchAgentsDir(host, scope) in r.fs.dirs
    ensures r.outcome.Threw? ==> r.fs.files == fs.files && r.outcome.error.UnauthorizedAccess?
    ensures forall p :: p != LaunchAgentFile(host, app, scope, identifiers) ==>
      (p in r.fs.files <==> p in fs.files) && (p in fs.files ==> r.fs.files[p] == fs.files[p])
  {
    EnsureDirectoryAndWrite(fs, LaunchAgentsDir(host, scope), LaunchAgentFile(host, app, scope, identifiers),
                            LaunchAgentFileContent(app, identifiers, extraConfig))
  }

  /** `Disable`: deletes the property list when it exists and otherwise does nothing. */
  function Disable(fs: Fs, host: Host, app: App, scope: WorkScope, identifiers: Option<seq<string>>): (r: FsStep)
    ensures !FileExists(fs, LaunchAgentFile(host, app, scope, identifiers)) ==> r == FsStep(Returned(()), fs)
    ensures r.outcome.Returned? ==> !FileExists(r.fs, LaunchAgentFile(host, app, scope, identifiers))
    ensures forall p :: p != LaunchAgentFile(host, app, scope, identifiers) ==>
      (p in r.fs.files <==> p in fs.files) && (p in fs.files ==> r.fs.files[p] == fs.files[p])
  {
    DeleteIfExists(fs, LaunchAgentFile(host, app, scope, identifiers))
  }

  /** `IsEnabled`: the property list exists. */
  function IsEnabled(fs: Fs, host: Host, app: App, scope: WorkScope, identifiers: Option<seq<string>>): bool {
    FileExists(fs, LaunchAgentFile(host, app, scope, identifiers))
  }

  // ---------------------------------------------------------------------------
  // Properties

  /** Enable, Disable and the status use the same file: a successful `Enable`
      makes the status true, a successful `Disable` makes it false. */
  lemma EnableDisableStatus(fs: Fs, host: Host, app: App, scope: WorkScope,
                            identifiers: Option<seq<string>>, extraConfig: Option<string>)
    ensures Enable(fs, host, app, scope, identifiers, extraConfig).outcome.Returned? ==>
      IsEnabled(Enable(fs, host, app, scope, identifiers, extraConfig).fs, host, app, scope, identifiers)
    ensures Disable(fs, host, app, scope, identifiers).outcome.Returned? ==>
      !IsEnabled(Disable(fs, host, app, scope, identifiers).fs, host, app, scope, identifiers)
  {
  }

  /** Enabling twice leaves the state of enabling once. */
  lemma EnableIdempotent(fs: Fs, host: Host, app: App, scope: WorkScope,
                         identifiers: Option<seq<string>>, extraConfig: Option<string>)
    requires Enable(fs, host, app, scope, identifiers, extraConfig).outcome.Returned?
    ensures var once := Enable(fs, host, app, scope, identifiers, extraConfig).fs;
      Enable(once, host, app, scope, identifiers, extraConfig) == FsStep(Returned(()), once)
  {
    EnsureDirectoryAndWriteIdempotent(fs, LaunchAgentsDir(host, scope), LaunchAgentFile(host, app, scope, identifiers),
                                      LaunchAgentFileContent(app, identifiers, extraConfig));
  }

  /** On a POSIX host the per-user directory is `$HOME/Library/LaunchAgents`. */
  lemma PosixUserDirectory(host: Host)
    requires IsPosix(host)
    requires host.userProfile != "" && host.userProfile[|host.userProfile| - 1] != '/'
    ensures LaunchAgentsDir(host, CurrentUser) == host.userProfile + "/Library/LaunchAgents"
  {
    var home := host.userProfile;
    PosixCombineParts(host, home, "Library");
    var library := home + "/Library";
    assert home + "/" + "Library" == library;
    assert library[|library| - 1] == 'y';
    PosixCombineParts(host, library, "LaunchAgents");
    assert library + "/" + "LaunchAgents" == home + "/Library/LaunchAgents";
    assert host.combine(home, "Library") == library;
  }

  /** On a POSIX host the all-users directory is `/Library/LaunchAgents`. */
  lemma PosixAllUserDirectory(host: Host)
    requires IsPosix(host)
    ensures LaunchAgentsDir(host, AllUser) == "/Library/LaunchAgents"
  {
    PosixCombineParts(host, "/", "Library");
    PosixCombineParts(host, "/Library", "LaunchAgents");
  }

  /** The label is always the application name, while the file is named after
      the first identifier when there is one. */
  lemma LabelIsAppName(host: Host, app: App, scope: WorkScope, identifiers: Option<seq<string>>)
    ensures DictLines(app, identifiers)[0] == Indent + "<key>Label</key>"
    ensures DictLines(app, identifiers)[1] == Indent + "<string>" + app.appName + "</string>"
    ensures identifiers.Some? && |identifiers.value| > 0 ==>
      LaunchAgentFile(host, app, scope, identifiers) == host.combine(LaunchAgentsDir(host, scope), identifiers.value[0] + ".plist")
  {
  }

  /** What the first-occurrence reader `ValueOf` finds in the written property
      list: the label is the application name, `ProgramArguments` and
      `AssociatedBundleIdentifiers` are their array lines, and `RunAtLoad` is
      true. The fixed keys come first and the
      extra configuration's lines follow them. */
  lemma PlistKeys(app: App, identifiers: Option<seq<string>>, extraConfig: Option<string>)
    requires SingleLineParts(app, identifiers)
    ensures var lines := SplitLines(LaunchAgentFileContent(app, identifiers, extraConfig));
      && ValueOf(lines, "Label") == Some(Indent + "<string>" + app.appName + "</string>")
      && ValueOf(lines, BundleIdentifiersKey) == Some(ArrayLine(identifiers.GetOr([])))
      && ValueOf(lines, "ProgramArguments") == Some(ArrayLine([app.appPath] + app.args))
      && ValueOf(lines, "RunAtLoad") == Some(Indent + "<true/>")
  {
    PlistLayout(app, identifiers, extraConfig);
    var lines := SplitLines(LaunchAgentFileContent(app, identifiers, extraConfig));
    DictValuesFront(lines, app, identifiers);
    DictValuesBack(lines, app, identifiers);
  }

  /** The lines of a file laid out as `PlistLayout` describes. */
  predicate LaidOut(lines: seq<string>, dict: seq<string>) {
    && |lines| >= 12 && |dict| == 8
    && (forall j :: 0 <= j < 4 ==> |lines[j]| > 0 && lines[j][0] == '<')
    && (forall j :: 0 <= j < 8 ==> lines[4 + j] == dict[j])
  }

  lemma DictValuesFront(lines: seq<string>, app: App, identifiers: Option<seq<string>>)
    requires LaidOut(lines, DictLines(app, identifiers))
    ensures ValueOf(lines, "Label") == Some(Indent + "<string>" + app.appName + "</string>")
    ensures ValueOf(lines, BundleIdentifiersKey) == Some(ArrayLine(identifiers.GetOr([])))
  {
    var dict := DictLines(app, identifiers);
    ValueInDict(lines, dict, "Label", 0);
    assert |KeyLine("Label")| == 20 && |KeyLine(BundleIdentifiersKey)| == 42;
    assert dict[1][5] == 's';
    NotKeyLineAt(dict[1], BundleIdentifiersKey);
    ValueInDict(lines, dict, BundleIdentifiersKey, 2);
  }

  lemma DictValuesBack(lines: seq<string>, app: App, identifiers: Option<seq<string>>)
    requires LaidOut(lines, DictLines(app, identifiers))
    ensures ValueOf(lines, "ProgramArguments") == Some(ArrayLine([app.appPath] + app.args))
    ensures ValueOf(lines, "RunAtLoad") == Some(Indent + "<true/>")
  {
    var dict := DictLines(app, identifiers);
    assert |KeyLine("Label")| == 20 && |KeyLine(BundleIdentifiersKey)| == 42;
    assert |KeyLine("ProgramArguments")| == 31 && |KeyLine("RunAtLoad")| == 24;
    assert dict[1][5] == 's' && dict[3][5] == 'a' && dict[5][5] == 'a';
    NotKeyLineAt(dict[1], "ProgramArguments");
    NotKeyLineAt(dict[3], "ProgramArguments");
    ValueInDict(lines, dict, "ProgramArguments", 4);
    NotKeyLineAt(dict[1], "RunAtLoad");
    NotKeyLineAt(dict[3], "RunAtLoad");
    NotKeyLineAt(dict[5], "RunAtLoad");
    ValueInDict(lines, dict, "RunAtLoad", 6);
  }

  /** Read back line by line, the property list opens with four unindented
      lines and continues with the dictionary lines. */
  lemma PlistLayout(app: App, identifiers: Option<seq<string>>, extraConfig: Option<string>)
    requires SingleLineParts(app, identifiers)
    ensures var lines := SplitLines(LaunchAgentFileContent(app, identifiers, extraConfig));
      && |lines| >= 12
      && (forall j :: 0 <= j < 4 ==> |lines[j]| > 0 && lines[j][0] == '<')
      && (forall j :: 0 <= j < 8 ==> lines[4 + j] == DictLines(app, identifiers)[j])
  {
    var lines := SplitLines(LaunchAgentFileContent(app, identifiers, extraConfig));
    var dict := DictLines(app, identifiers);
    var rest := SplitLines(Indent + extraConfig.GetOr("")) + TailLines;
    LaunchAgentFileLines(app, identifiers, extraConfig);
    assert lines == PreambleLines + dict + rest;
    assert forall j :: 0 <= j < 4 ==> lines[j] == PreambleLines[j];
    assert forall j :: 0 <= j < 8 ==> lines[4 + j] == dict[j];
    assert XmlDeclaration[0] == '<' && DocType[0] == '<' && PlistOpen[0] == '<';
  }

  /** Items free of `<` are read back exactly, in order, from an array line. */
  lemma ArrayLineRoundTrip(xs: seq<string>)
    requires forall i :: 0 <= i < |xs| ==> '<' !in xs[i]
    ensures var line := ArrayLine(xs);
      var inner := StringElements(xs);
      && line == Indent + "<array>" + inner + "</array>"
      && Disclose("<string>", "</string>", "", inner) == Some(xs)
  {
    DiscloseEncloseAll("<string>", "</string>", "", xs);
  }

  /** The items are written verbatim, with no XML escaping: every character of
      every item, `&` and `<` included, appears as is in the array line. */
  lemma {:induction false} ArrayLineUnescaped(xs: seq<string>, i: nat, c: char)
    requires i < |xs| && c in xs[i]
    ensures c in StringElements(xs) && c in ArrayLine(xs)
    decreases |xs|
  {
    var open, close := "<string>", "</string>";
    if |xs| == 1 {
      assert StringElements(xs) == open + xs[0] + close;
    } else {
      assert StringElements(xs) == open + xs[0] + close + ("" + StringElements(xs[1..]));
      if i > 0 {
        assert xs[1..][i - 1] == xs[i];
        ArrayLineUnescaped(xs[1..], i - 1, c);
      }
    }
  }

  /** `ProgramArguments` lists the program path and then every argument, in
      order; `AssociatedBundleIdentifiers` lists the identifiers and is an
      empty array when there are none. */
  lemma ArgumentsAndIdentifiers(app: App, identifiers: Option<seq<string>>)
    requires '<' !in app.appPath
    requires forall i :: 0 <= i < |app.args| ==> '<' !in app.args[i]
    requires identifiers.Some? ==> forall i :: 0 <= i < |identifiers.value| ==> '<' !in identifiers.value[i]
    ensures DictLines(app, identifiers)[5] == ArrayLine([app.appPath] + app.args)
    ensures Disclose("<string>", "</string>", "", StringElements([app.appPath] + app.args)) == Some([app.appPath] + app.args)
    ensures DictLines(app, identifiers)[3] == ArrayLine(identifiers.GetOr([]))
    ensures Disclose("<string>", "</string>", "", StringElements(identifiers.GetOr([]))) == Some(identifiers.GetOr([]))
  {
    var d := DictLines(app, identifiers);
    assert d[3] == ArrayLine(identifiers.GetOr([])) && d[5] == ArrayLine([app.appPath] + app.args);
    ConsAvoids('<', app.appPath, app.args);
    ArrayLineRoundTrip([app.appPath] + app.args);
    ArrayLineRoundTrip(identifiers.GetOr([]));
  }

  /** With no identifiers the bundle array is empty. */
  lemma NoIdentifiersGiveEmptyArray(app: App, identifiers: Option<seq<string>>)
    requires identifiers.None? || identifiers.value == []
    ensures DictLines(app, identifiers)[3] == Indent + "<array></array>"
  {
  }

  /** The values spliced into the head hold no line break. */
  predicate SingleLineParts(app: App, identifiers: Option<seq<string>>) {
    && '\n' !in app.appName
    && '\n' !in app.appPath
    && LinesFree(app.args)
    && LinesFree(identifiers.GetOr([]))
  }

  lemma DocTypeSingle()
    ensures '\n' !in DocType
  {
    var head := "<!DOCTYPE plist PUBLIC " + "\"-//Apple//DTD " + "PLIST 1.0//EN\" ";
    var tail := "\"http://www.apple.com/" + "DTDs/PropertyList-" + "1.0.dtd\">";
    assert '\n' !in head;
    assert '\n' !in tail;
    assert DocType == head + tail;
  }

  lemma PreambleLinesSingle()
    ensures LinesFree(PreambleLines)
  {
    DocTypeSingle();
    assert '\n' !in XmlDeclaration && '\n' !in PlistOpen;
  }

  lemma ArrayLineSingle(xs: seq<string>)
    requires LinesFree(xs)
    ensures '\n' !in ArrayLine(xs)
  {
    EncloseAllLineFree("<string>", "</string>", "", xs);
  }

  lemma DictLinesSingle(app: App, identifiers: Option<seq<string>>)
    requires SingleLineParts(app, identifiers)
    ensures LinesFree(DictLines(app, identifiers))
  {
    ConsAvoids('\n', app.appPath, app.args);
    ArrayLineSingle([app.appPath] + app.args);
    ArrayLineSingle(identifiers.GetOr([]));
    var lines := DictLines(app, identifiers);
    forall i | 0 <= i < 8 ensures '\n' !in lines[i] {
      if i < 4 {
        assert '\n' !in lines[0] && '\n' !in lines[1] && '\n' !in lines[2];
      } else {
        assert '\n' !in lines[4] && '\n' !in lines[6] && '\n' !in lines[7];
      }
    }
  }

  lemma HeadLinesSingle(app: App, identifiers: Option<seq<string>>)
    requires SingleLineParts(app, identifiers)
    ensures LinesFree(HeadLines(app, identifiers))
  {
    PreambleLinesSingle();
    DictLinesSingle(app, identifiers);
    LinesFreeAppend(PreambleLines, DictLines(app, identifiers));
  }

  /** Read back line by line, the property list holds the twelve head lines,
      then the lines of the indented extra configuration, then `</dict>` and
      `</plist>`: the extra configuration lands inside the dictionary, after
      `RunAtLoad`. */
  lemma LaunchAgentFileLines(app: App, identifiers: Option<seq<string>>, extraConfig: Option<string>)
    requires SingleLineParts(app, identifiers)
    ensures SplitLines(LaunchAgentFileContent(app, identifiers, extraConfig)) ==
      HeadLines(app, identifiers) + SplitLines(Indent + extraConfig.GetOr("")) + TailLines
  {
    HeadLinesSingle(app, identifiers);
    assert LinesFree(TailLines);
    SplitJoinLines(HeadLines(app, identifiers), Indent + extraConfig.GetOr(""), TailLines);
  }
}

=== FILE: launcher.dfy ===
/**
 The `AutoLauncher` contract of the `IsEnabled` revision: one value per engine
 the builder can return, and `Enable`, `Disable` and `IsEnabled` dispatched to
 that engine. The engines act on one machine, a file system and a registry,
 and the process engines on a process runner.
 */
module Launcher {
  import opened Wrappers
  import opened Exceptions
  import opened Text
  import opened Platform
  import opened FileSystem
  import opened RegistryStore
  import opened Process
  import opened Enums
  import WindowsRegistry
  import WindowsStartupFolder
  import WindowsTaskScheduler
  import LinuxFreedesktop
  import MacOSAppleScript
  import MacOSLaunchAgent

  /** The operating system the library finds itself on. */
  datatype OS = Windows | Linux | MacOS | OtherOS

  /** `AutoLauncher.IsSupported`: Windows, Linux and macOS have engines. */
  predicate IsSupported(os: OS) {
    os.Windows? || os.Linux? || os.MacOS?
  }

  /** An engine as `Build` constructs it, with what its constructor receives. */
  datatype Engine =
    | RegistryEngine(app: App, scope: WorkScope)
    | StartupFolderEngine(app: App, scope: WorkScope)
    | TaskSchedulerEngine(app: App)
    | FreedesktopEngine(app: App, scope: WorkScope, extraConfig: Option<string>)
    | AppleScriptEngine(app: App)
    | LaunchAgentEngine(app: App, scope: WorkScope, identifiers: Option<seq<string>>, extraConfig: Option<string>)
  {
    /** The operating system the engine is written for. */
    function TargetOS(): OS {
      match this
      case RegistryEngine(_, _) => Windows
      case StartupFolderEngine(_, _) => Windows
      case TaskSchedulerEngine(_) => Windows
      case FreedesktopEngine(_, _, _) => Linux
      case AppleScriptEngine(_) => MacOS
      case LaunchAgentEngine(_, _, _, _) => MacOS
    }

    /** The engine keeps its state in files. */
    predicate UsesFiles() {
      StartupFolderEngine? || FreedesktopEngine? || LaunchAgentEngine?
    }

    /** The engine works by running a program. */
    predicate UsesProcess() {
      TaskSchedulerEngine? || AppleScriptEngine?
    }
  }

  /** The state the engines act on. */
  datatype Machine = Machine(fs: Fs, registry: Store)

  /** What the engines get from outside: the platform helpers and the process runner. */
  datatype Env = Env(host: Host, run: Runner)

  datatype Step = Step(outcome: Outcome<()>, machine: Machine)

  function Enable(e: Engine, m: Machine, env: Env): Step {
    match e
    case RegistryEngine(app, scope) =>
      var s := WindowsRegistry.Enable(m.registry, env.host, app, scope);
      Step(s.outcome, m.(registry := s.store))
    case StartupFolderEngine(app, scope) =>
      var s := WindowsStartupFolder.Enable(m.fs, env.host, app, scope);
      Step(s.outcome, m.(fs := s.fs))
    case TaskSchedulerEngine(app) =>
      Step(WindowsTaskScheduler.Enable(env.run, app), m)
    case FreedesktopEngine(app, scope, extra) =>
      var s := LinuxFreedesktop.Enable(m.fs, env.host, app, scope, extra);
      Step(s.outcome, m.(fs := s.fs))
    case AppleScriptEngine(app) =>
      Step(MacOSAppleScript.Enable(env.run, app), m)
    case LaunchAgentEngine(app, scope, ids, extra) =>
      var s := MacOSLaunchAgent.Enable(m.fs, env.host, app, scope, ids, extra);
      Step(s.outcome, m.(fs := s.fs))
  }

  function Disable(e: Engine, m: Machine, env: Env): Step {
    match e
    case RegistryEngine(app, scope) =>
      var s := WindowsRegistry.Disable(m.registry, env.host, app, scope);
      Step(s.outcome, m.(registry := s.store))
    case StartupFolderEngine(app, scope) =>
      var s := WindowsStartupFolder.Disable(m.fs, env.host, app, scope);
      Step(s.outcome, m.(fs := s.fs))
    case TaskSchedulerEngine(app) =>
      Step(WindowsTaskScheduler.Disable(env.run, app), m)
    case FreedesktopEngine(app, scope, _) =>
      var s := LinuxFreedesktop.Disable(m.fs, env.host, app, scope);
      Step(s.outcome, m.(fs := s.fs))
    case AppleScriptEngine(app) =>
      Step(MacOSAppleScript.Disable(env.run, app), m)
    case LaunchAgentEngine(app, scope, ids, _) =>
      var s := MacOSLaunchAgent.Disable(m.fs, env.host, app, scope, ids);
      Step(s.outcome, m.(fs := s.fs))
  }

  /** `IsEnabled`: the status query; it reads the machine and changes nothing. */
  function IsEnabled(e: Engine, m: Machine, env: Env): (r: Outcome<bool>)
    ensures !e.UsesProcess() ==> r.Returned?
  {
    match e
    case RegistryEngine(app, scope) => WindowsRegistry.IsEnabled(m.registry, env.host, app, scope)
    case StartupFolderEngine(app, scope) => Returned(WindowsStartupFolder.IsEnabled(m.fs, env.host, app, scope))
    case TaskSchedulerEngine(app) => WindowsTaskScheduler.IsEnabled(env.run, app)
    case FreedesktopEngine(app, scope, _) => LinuxFreedesktop.IsEnabled(m.fs, env.host, app, scope)
    case AppleScriptEngine(app) => MacOSAppleScript.IsEnabled(env.run, app)
    case LaunchAgentEngine(app, scope, ids, _) => Returned(MacOSLaunchAgent.IsEnabled(m.fs, env.host, app, scope, ids))
  }

  // ---------------------------------------------------------------------------
  // Properties

  /** Every engine that keeps state on the machine reads its own write: after a
      successful `Enable` the status is true (for the registry, when the stored
      command line is not blank). */
  lemma EnableThenEnabled(e: Engine, m: Machine, env: Env)
    requires !e.UsesProcess()
    requires e.RegistryEngine? ==> !IsBlank(WindowsRegistry.CommandLine(env.host, e.app))
    requires Enable(e, m, env).outcome.Returned?
    ensures IsEnabled(e, Enable(e, m, env).machine, env) == Returned(true)
  {
    match e
    case RegistryEngine(app, scope) =>
      WindowsRegistry.EnableThenStatus(m.registry, env.host, app, scope);
    case StartupFolderEngine(app, scope) =>
    case FreedesktopEngine(app, scope, extra) =>
      LinuxFreedesktop.EnableDisableStatus(m.fs, env.host, app, scope, extra);
    case LaunchAgentEngine(app, scope, ids, extra) =>
  }

  /** After a successful `Disable` every such engine reports false. */
  lemma DisableThenDisabled(e: Engine, m: Machine, env: Env)
    requires !e.UsesProcess()
    requires Disable(e, m, env).outcome.Returned?
    ensures IsEnabled(e, Disable(e, m, env).machine, env) == Returned(false)
  {
    match e
    case RegistryEngine(app, scope) =>
      WindowsRegistry.DisableThenStatus(m.registry, app, scope);
    case StartupFolderEngine(app, scope) =>
    case FreedesktopEngine(app, scope, extra) =>
      LinuxFreedesktop.EnableDisableStatus(m.fs, env.host, app, scope, None);
    case LaunchAgentEngine(app, scope, ids, extra) =>
  }

  /** Enabling twice leaves the machine as enabling once, for every engine
      that keeps state on it. */
  lemma EnableTwice(e: Engine, m: Machine, env: Env)
    requires !e.UsesProcess()
    requires Enable(e, m, env).outcome.Returned?
    ensures var once := Enable(e, m, env).machine;
      Enable(e, once, env) == Step(Returned(()), once)
  {
    match e
    case RegistryEngine(app, scope) =>
      WindowsRegistry.EnableIdempotent(m.registry, env.host, app, scope);
    case StartupFolderEngine(app, scope) =>
      WindowsStartupFolder.EnableIdempotent(m.fs, env.host, app, scope, WindowsStartupFolder.BatchFileContent(env.host, app));
    case FreedesktopEngine(app, scope, extra) =>
      LinuxFreedesktop.EnableIdempotent(m.fs, env.host, app, scope, extra);
    case LaunchAgentEngine(app, scope, ids, extra) =>
      MacOSLaunchAgent.EnableIdempotent(m.fs, env.host, app, scope, ids, extra);
  }

  /** Each engine touches only its own substrate: the file engines leave the
      registry alone, the registry engine leaves the files alone, and the
      process engines change nothing on the machine. */
  lemma EnableKeepsToSubstrate(e: Engine, m: Machine, env: Env)
    ensures e.UsesFiles() ==> Enable(e, m, env).machine.registry == m.registry
    ensures e.RegistryEngine? ==> Enable(e, m, env).machine.fs == m.fs
    ensures e.UsesProcess() ==> Enable(e, m, env).machine == m
  {
    match e
    case RegistryEngine(_, _) =>
    case StartupFolderEngine(_, _) =>
    case TaskSchedulerEngine(_) =>
    case FreedesktopEngine(_, _, _) =>
    case AppleScriptEngine(_) =>
    case LaunchAgentEngine(_, _, _, _) =>
  }

  /** `Disable` keeps to the engine's substrate in the same way. */
  lemma DisableKeepsToSubstrate(e: Engine, m: Machine, env: Env)
    ensures e.UsesFiles() ==> Disable(e, m, env).machine.registry == m.registry
    ensures e.RegistryEngine? ==> Disable(e, m, env).machine.fs == m.fs
    ensures e.UsesProcess() ==> Disable(e, m, env).machine == m
  {
    match e
    case RegistryEngine(_, _) =>
    case StartupFolderEngine(_, _) =>
    case TaskSchedulerEngine(_) =>
    case FreedesktopEngine(_, _, _) =>
    case AppleScriptEngine(_) =>
    case LaunchAgentEngine(_, _, _, _) =>
  }

  /** The process engines answer from the runner alone: on two machines they
      give the same outcomes. */
  lemma ProcessEnginesIgnoreMachine(e: Engine, m: Machine, m2: Machine, env: Env)
    requires e.UsesProcess()
    ensures Enable(e, m, env).outcome == Enable(e, m2, env).outcome
    ensures Disable(e, m, env).outcome == Disable(e, m2, env).outcome
    ensures IsEnabled(e, m, env) == IsEnabled(e, m2, env)
  {
    match e
    case TaskSchedulerEngine(_) =>
    case AppleScriptEngine(_) =>
  }
}

=== FILE: platform.dfy ===
/**
 What the engines ask of the running platform but do not define themselves:
 the `System.IO.Path` helpers, the special folders, the argument escaper and the
 permission guard. Their behaviour depends on the operating system, so the model
 takes them as parameters; a POSIX `Path.Combine` is given for the Unix engines.
 */
module Platform {
  import opened Exceptions

  datatype Host = Host(
    /** `Path.Combine(a, b)`. */
    combine: (string, string) -> string,
    /** `Path.GetDirectoryName(p)`; a null result is interpolated as "". */
    directoryName: string -> string,
    /** `Path.GetFileNameWithoutExtension(p)`. */
    fileNameWithoutExtension: string -> string,
    /** `Path.IsPathRooted(p)`. */
    isPathRooted: string -> bool,
    /** `ArgumentEx.EscapeArguments(argv)`: one command line from an argument vector. */
    escapeArguments: seq<string> -> string,
    /** The exception `PermissionDeniedException.ThrowIfIOPermissionDenied` lets
        escape when the guarded action throws the given one. */
    permissionGuard: Exn -> Exn,
    /** `Environment.GetFolderPath(SpecialFolder.Startup)`. */
    startupFolder: string,
    /** `Environment.GetFolderPath(SpecialFolder.CommonStartup)`. */
    commonStartupFolder: string,
    /** `Environment.GetFolderPath(SpecialFolder.UserProfile)`. */
    userProfile: string,
    /** `Path.DirectorySeparatorChar.ToString()`. */
    directorySeparator: string)
  {
    /** `Path.Combine(a, b, c)`. */
    function Combine3(a: string, b: string, c: string): string {
      combine(combine(a, b), c)
    }

    /** `Path.Combine(a, b, c, d)`. */
    function Combine4(a: string, b: string, c: string, d: string): string {
      combine(combine(combine(a, b), c), d)
    }
  }

  /** `Path.Combine` on Unix: an empty part is skipped, a rooted second part
      replaces the first, and one `/` goes between the two otherwise. */
  function PosixCombine(a: string, b: string): (r: string)
    ensures b == "" ==> r == a
    ensures b != "" && (a == "" || b[0] == '/') ==> r == b
    ensures a != "" && b != "" && b[0] != '/' && a[|a| - 1] == '/' ==> r == a + b
    ensures a != "" && b != "" && b[0] != '/' && a[|a| - 1] != '/' ==> r == a + "/" + b
  {
    if b == "" then a
    else if a == "" || b[0] == '/' then b
    else if a[|a| - 1] == '/' then a + b
    else a + "/" + b
  }

  /** A host whose paths follow POSIX rules. */
  ghost predicate IsPosix(h: Host) {
    && h.directorySeparator == "/"
    && forall a, b :: h.combine(a, b) == PosixCombine(a, b)
  }

  /** POSIX `Path.Combine` of two plain parts puts one `/` between them. */
  lemma PosixCombineParts(host: Host, a: string, b: string)
    requires IsPosix(host)
    requires a != "" && b != "" && b[0] != '/'
    ensures a[|a| - 1] == '/' ==> host.combine(a, b) == a + b
    ensures a[|a| - 1] != '/' ==> host.combine(a, b) == a + "/" + b
  {
    assert host.combine(a, b) == PosixCombine(a, b);
  }
}

=== FILE: process.dfy ===
/**
 Running an external program and turning its result into a returned string or
 an `ExecuteCommandException`, as the `Exec` helpers of the task-scheduler and
 AppleScript engines do.
 */
module Process {
  import opened Wrappers
  import opened Exceptions
  import opened Text

  /** What `ProcessEx.Start` reports once the program has exited. */
  datatype ProcessResult = ProcessResult(exitCode: int, output: string, error: string)

  /** A run either completes with a result or fails to launch at all. */
  datatype Launch = Ran(result: ProcessResult) | LaunchFailed(failure: Exn)

  /** The process collaborator: program name and argument vector to the run. */
  type Runner = (string, seq<string>) -> Launch

  /** The body of `Exec(command)` once the program has been run: exit code 0
      gives the trimmed standard output; any other exit code throws an
      `ExecuteCommandException` with the command, the code and the standard
      error; a launch failure is wrapped in one, unless it already is one. */
  function ExecResult(command: string, launch: Launch): (r: Outcome<string>)
    ensures r.Returned? <==> launch.Ran? && launch.result.exitCode == 0
    ensures r.Returned? ==> r.value == Trim(launch.result.output)
    ensures r.Threw? ==> r.error.ExecuteCommand? && r.error.IsAutoLaunch()
    ensures launch.Ran? && launch.result.exitCode != 0 ==>
      r == Threw(NewExecuteCommandCoded(command, launch.result.exitCode, launch.result.error))
    ensures launch.LaunchFailed? && launch.failure.ExecuteCommand? ==> r == Threw(launch.failure)
    ensures launch.LaunchFailed? && !launch.failure.ExecuteCommand? ==>
      r.error.inner == Some(launch.failure) && r.error.exitCode.None?
  {
    match launch
    case Ran(res) =>
      if res.exitCode == 0 then Returned(Trim(res.output))
      else Threw(NewExecuteCommandCoded(command, res.exitCode, res.error))
    case LaunchFailed(ex) =>
      if ex.ExecuteCommand? then Threw(ex) else Threw(NewExecuteCommandWrapped(ex))
  }

  /** The returned text of a successful run never has white space at either end. */
  lemma ExecResultIsTrimmed(command: string, launch: Launch)
    requires ExecResult(command, launch).Returned?
    ensures Trim(ExecResult(command, launch).value) == ExecResult(command, launch).value
  {
    TrimIdempotent(launch.result.output);
  }

  // ---------------------------------------------------------------------------
  // `ProcessEx.StartAsync`

  /** `ProcessEx.StartAsync` as written: it configures the process but never
      calls `process.Start()`, so its first read of `StandardOutput` throws an
      `InvalidOperationException` whatever program it was given. */
  function StartAsyncAsWritten(run: Runner, fileName: string, args: seq<string>): Launch {
    LaunchFailed(NativeError("System.InvalidOperationException",
                             "StandardOut has not been redirected or the process hasn't started yet."))
  }

  /** As written, every asynchronous `Exec` fails, whatever the program would
      have answered: the failure is the wrapping `ExecuteCommandException`. */
  lemma AsyncExecAlwaysFailsAsWritten(run: Runner, fileName: string, args: seq<string>, command: string)
    ensures var r := ExecResult(command, StartAsyncAsWritten(run, fileName, args));
      r.Threw? && r.error.ExecuteCommand? && r.error.exitCode.None?
      && r.error.Message() == "Error to execute command."
  {
  }

  /** `ProcessEx.StartAsync` as evidently intended: the process is started and
      awaited, with the result `ProcessEx.Start` would report. */
  function StartAsync(run: Runner, fileName: string, args: seq<string>): (r: Launch)
    ensures r == run(fileName, args)
  {
    run(fileName, args)
  }

  /** Corrected, the asynchronous `Exec` reports exactly what the synchronous one does. */
  lemma AsyncExecMatchesSync(run: Runner, fileName: string, args: seq<string>, command: string)
    ensures ExecResult(command, StartAsync(run, fileName, args)) == ExecResult(command, run(fileName, args))
  {
  }
}

=== FILE: registry_store.dfy ===
/**
 The Windows registry as the registry engine sees it: keys under a hive root,
 each holding named values, and the hives the current user may not write
 (HKLM for a non-elevated process).
 */
module RegistryStore {
  import opened Wrappers
  import opened Exceptions

  /** `Registry.CurrentUser` (HKCU) and `Registry.LocalMachine` (HKLM). */
  datatype Hive = CurrentUserHive | LocalMachineHive

  type Byte = x: int | 0 <= x < 256

  /** A registry value: a string, a binary blob, or any other kind (such as a DWORD). */
  datatype RegValue = RegString(text: string) | RegBinary(bytes: seq<Byte>) | RegOther

  datatype RegKey = RegKey(hive: Hive, path: string)

  datatype Store = Store(keys: map<RegKey, map<string, RegValue>>, denied: set<Hive>)

  /** The state after a call, whether or not the call threw. */
  datatype RegStep = RegStep(outcome: Outcome<()>, store: Store)

  /** `key?.GetValue(name)`: null when the key or the value is missing. */
  function GetValue(st: Store, key: RegKey, name: string): (r: Option<RegValue>)
    ensures r.Some? <==> key in st.keys && name in st.keys[key]
  {
    if key in st.keys && name in st.keys[key] then Some(st.keys[key][name]) else None
  }

  /** `root.CreateSubKey(path, true).SetValue(name, value)`: creates the key when
      missing and (over)writes the one value; a write-protected hive refuses. */
  function CreateSubKeyAndSetValue(st: Store, key: RegKey, name: string, value: RegValue): (r: RegStep)
    ensures r.outcome.Returned? <==> key.hive !in st.denied
    ensures r.outcome.Threw? ==> r.store == st && r.outcome.error.UnauthorizedAccess?
    ensures r.outcome.Returned? ==> GetValue(r.store, key, name) == Some(value)
    ensures r.outcome.Returned? ==> forall k, n :: (k, n) != (key, name) ==> GetValue(r.store, k, n) == GetValue(st, k, n)
    ensures r.store.denied == st.denied
  {
    if key.hive in st.denied then
      RegStep(Threw(UnauthorizedAccess("Access to the registry key '" + key.path + "' is denied.")), st)
    else
      var values := if key in st.keys then st.keys[key] else map[];
      RegStep(Returned(()), st.(keys := st.keys[key := values[name := value]]))
  }

  /** `root.OpenSubKey(path, true)?.DeleteValue(name, false)`: a missing key or
      value is no error; opening an existing key of a write-protected hive for
      writing is refused with a `SecurityException`. */
  function OpenSubKeyAndDeleteValue(st: Store, key: RegKey, name: string): (r: RegStep)
    ensures r.outcome.Returned? <==> key !in st.keys || key.hive !in st.denied
    ensures r.outcome.Threw? ==> r.store == st && r.outcome.error.SecurityError?
    ensures r.outcome.Returned? ==> GetValue(r.store, key, name).None?
    ensures forall k, n :: (k, n) != (key, name) ==> GetValue(r.store, k, n) == GetValue(st, k, n)
    ensures r.store.denied == st.denied
  {
    if key !in st.keys then RegStep(Returned(()), st)
    else if key.hive in st.denied then
      RegStep(Threw(SecurityError("Requested registry access is not allowed.")), st)
    else
      RegStep(Returned(()), st.(keys := st.keys[key := st.keys[key] - {name}]))
  }
}

=== FILE: safe_decorator.dfy ===
/**
 `SafeDecorator`: the `Try` operations of a `SafeAutoLauncher` report success
 as a flag instead of throwing a member of the `AutoLaunchException` family,
 and keep the last such exception in a cell that `TakeLastException` empties.
 Exceptions outside the family are not caught. Both revisions share this
 behaviour; the `GetStatus` revision names the status query differently.
 */
module SafeDecorator {
  import opened Wrappers
  import opened Exceptions
  import Launcher
  import UnifiedDecorator

  /** The result of a guarded call together with the new content of the cell. */
  datatype Safe<T> = Safe(outcome: Outcome<T>, last: Option<Exn>)

  /** `SafeExecute(func)`: `(true, value)` when the call returns; `(false,
      fallback)` and the exception stored in the cell when it throws a member
      of the family; any other exception escapes and the cell keeps its value. */
  function SafeExecute<T>(o: Outcome<T>, last: Option<Exn>, fallback: T): (r: Safe<(bool, T)>)
    ensures r.outcome.Threw? <==> o.Threw? && !o.error.IsAutoLaunch()
    ensures r.outcome.Threw? ==> r.outcome.error == o.error
    ensures r.outcome.Returned? ==> (r.outcome.value.0 <==> o.Returned?)
    ensures o.Returned? ==> r.outcome.value.1 == o.value
    ensures r.last != last ==> o.Threw? && r.last == Some(o.error)
    ensures o.Threw? && o.error.IsAutoLaunch() ==> r.last == Some(o.error) && r.outcome.value.1 == fallback
  {
    match o
    case Returned(v) => Safe(Returned((true, v)), last)
    case Threw(e) =>
      if e.IsAutoLaunch() then Safe(Returned((false, fallback)), Some(e))
      else Safe(Threw(e), last)
  }

  /** `SafeExecute(action)`: the action run as a function returning `true`,
      and only the success flag kept. */
  function SafeExecuteAction(o: Outcome<()>, last: Option<Exn>): (r: Safe<bool>)
    ensures r.outcome.Threw? <==> o.Threw? && !o.error.IsAutoLaunch()
    ensures r.outcome.Returned? ==> (r.outcome.value <==> o.Returned?)
    ensures r.last == SafeExecute(o, last, ()).last
  {
    var s := SafeExecute(o.Map((_: ()) => true), last, false);
    Safe(s.outcome.Map((p: (bool, bool)) => p.0), s.last)
  }

  /** `TakeLastException`: the cell's content, and an empty cell. */
  datatype Taken = Taken(exception: Option<Exn>, last: Option<Exn>)

  function TakeLastException(last: Option<Exn>): (r: Taken)
    ensures r.exception == last && r.last.None?
  {
    Taken(last, None)
  }

  // ---------------------------------------------------------------------------
  // The decorator around a launcher

  /** The launcher inside the safe decorator: a bare engine, or an engine inside
      `ExceptionalUnifiedDecorator`. */
  datatype Inner = Bare(engine: Launcher.Engine) | Unifying(engine: Launcher.Engine)

  function InnerEnable(inner: Inner, m: Launcher.Machine, env: Launcher.Env): Launcher.Step {
    match inner
    case Bare(e) => Launcher.Enable(e, m, env)
    case Unifying(e) => UnifiedDecorator.Enable(e, m, env)
  }

  function InnerDisable(inner: Inner, m: Launcher.Machine, env: Launcher.Env): Launcher.Step {
    match inner
    case Bare(e) => Launcher.Disable(e, m, env)
    case Unifying(e) => UnifiedDecorator.Disable(e, m, env)
  }

  function InnerIsEnabled(inner: Inner, m: Launcher.Machine, env: Launcher.Env): Outcome<bool> {
    match inner
    case Bare(e) => Launcher.IsEnabled(e, m, env)
    case Unifying(e) => UnifiedDecorator.IsEnabled(e, m, env)
  }

  /** One `Try` call: what it returns, the cell after it and the machine after it. */
  datatype TryStep<T> = TryStep(outcome: Outcome<T>, last: Option<Exn>, machine: Launcher.Machine)

  /** `TryEnable`: true exactly when the inner `Enable` returned. */
  function TryEnable(inner: Inner, last: Option<Exn>, m: Launcher.Machine, env: Launcher.Env): (r: TryStep<bool>)
    ensures r.machine == InnerEnable(inner, m, env).machine
    ensures r.outcome.Returned? ==> (r.outcome.value <==> InnerEnable(inner, m, env).outcome.Returned?)
    ensures var o := InnerEnable(inner, m, env).outcome;
      && (r.outcome.Threw? <==> o.Threw? && !o.error.IsAutoLaunch())
      && (r.outcome.Threw? ==> r.outcome.error == o.error)
      && r.last == (if o.Threw? && o.error.IsAutoLaunch() then Some(o.error) else last)
  {
    var s := InnerEnable(inner, m, env);
    var t := SafeExecuteAction(s.outcome, last);
    TryStep(t.outcome, t.last, s.machine)
  }

  /** `TryDisable`: true exactly when the inner `Disable` returned. */
  function TryDisable(inner: Inner, last: Option<Exn>, m: Launcher.Machine, env: Launcher.Env): (r: TryStep<bool>)
    ensures r.machine == InnerDisable(inner, m, env).machine
    ensures r.outcome.Returned? ==> (r.outcome.value <==> InnerDisable(inner, m, env).outcome.Returned?)
    ensures var o := InnerDisable(inner, m, env).outcome;
      && (r.outcome.Threw? <==> o.Threw? && !o.error.IsAutoLaunch())
      && (r.outcome.Threw? ==> r.outcome.error == o.error)
      && r.last == (if o.Threw? && o.error.IsAutoLaunch() then Some(o.error) else last)
  {
    var s := InnerDisable(inner, m, env);
    var t := SafeExecuteAction(s.outcome, last);
    TryStep(t.outcome, t.last, s.machine)
  }

  /** `TryIsEnabled` (`TryGetStatus`): `(success, enabled)`, and `(false,
      false)` when the query threw a member of the family. */
  function TryIsEnabled(inner: Inner, last: Option<Exn>, m: Launcher.Machine, env: Launcher.Env): (r: TryStep<(bool, bool)>)
    ensures r.machine == m
    ensures r.outcome.Returned? && !r.outcome.value.0 ==> r.outcome.value == (false, false)
    ensures InnerIsEnabled(inner, m, env).Returned? ==> r.outcome == Returned((true, InnerIsEnabled(inner, m, env).value))
    ensures var o := InnerIsEnabled(inner, m, env);
      && (r.outcome.Threw? <==> o.Threw? && !o.error.IsAutoLaunch())
      && (r.outcome.Threw? ==> r.outcome.error == o.error)
      && (o.Threw? && o.error.IsAutoLaunch() ==> r.outcome == Returned((false, false)))
      && r.last == (if o.Threw? && o.error.IsAutoLaunch() then Some(o.error) else last)
  {
    var s := SafeExecute(InnerIsEnabled(inner, m, env), last, false);
    TryStep(s.outcome, s.last, m)
  }

  /** The forwarding `Enable`: the inner operation, and the cell untouched. */
  function Enable(inner: Inner, last: Option<Exn>, m: Launcher.Machine, env: Launcher.Env): (r: TryStep<()>)
    ensures r.last == last
    ensures r.outcome == InnerEnable(inner, m, env).outcome && r.machine == InnerEnable(inner, m, env).machine
  {
    var s := InnerEnable(inner, m, env);
    TryStep(s.outcome, last, s.machine)
  }

  /** The forwarding `Disable`. */
  function Disable(inner: Inner, last: Option<Exn>, m: Launcher.Machine, env: Launcher.Env): (r: TryStep<()>)
    ensures r.last == last
    ensures r.outcome == InnerDisable(inner, m, env).outcome && r.machine == InnerDisable(inner, m, env).machine
  {
    var s := InnerDisable(inner, m, env);
    TryStep(s.outcome, last, s.machine)
  }

  /** The forwarding `IsEnabled` (`GetStatus`). */
  function IsEnabled(inner: Inner, last: Option<Exn>, m: Launcher.Machine, env: Launcher.Env): (r: TryStep<bool>)
    ensures r.last == last && r.machine == m
    ensures r.outcome == InnerIsEnabled(inner, m, env)
  {
    TryStep(InnerIsEnabled(inner, m, env), last, m)
  }

  // ---------------------------------------------------------------------------
  // Properties of the cell

  /** Two takes in a row: the stored exception, then nothing. */
  lemma TakeTwice(last: Option<Exn>)
    ensures var first := TakeLastException(last);
      first.exception == last && TakeLastException(first.last).exception.None?
  {
  }

  /** A failure with a member of the family overwrites whatever the cell held. */
  lemma FailureOverwrites<T>(o: Outcome<T>, last: Option<Exn>, fallback: T)
    requires o.Threw? && o.error.IsAutoLaunch()
    ensures SafeExecute(o, last, fallback) == Safe(Returned((false, fallback)), Some(o.error))
  {
  }

  /** A success leaves the cell as it was: an earlier exception survives it. */
  lemma StaleErrorSurvivesSuccess<T>(o: Outcome<T>, err: Exn, fallback: T)
    requires o.Returned?
    ensures SafeExecute(o, Some(err), fallback).last == Some(err)
  {
  }

  /** Around `ExceptionalUnifiedDecorator` no `Try` operation throws. */
  lemma SafeOverUnifiedNeverThrows(e: Launcher.Engine, last: Option<Exn>, m: Launcher.Machine, env: Launcher.Env)
    ensures TryEnable(Unifying(e), last, m, env).outcome.Returned?
    ensures TryDisable(Unifying(e), last, m, env).outcome.Returned?
    ensures TryIsEnabled(Unifying(e), last, m, env).outcome.Returned?
  {
  }

  /** Around a bare engine a native failure escapes a `Try` operation unchanged
      and leaves the cell alone. */
  lemma NativeFailureEscapes(e: Launcher.Engine, last: Option<Exn>, m: Launcher.Machine, env: Launcher.Env)
    requires Launcher.Enable(e, m, env).outcome.Threw?
    requires !Launcher.Enable(e, m, env).outcome.error.IsAutoLaunch()
    ensures TryEnable(Bare(e), last, m, env).outcome == Threw(Launcher.Enable(e, m, env).outcome.error)
    ensures TryEnable(Bare(e), last, m, env).last == last
  {
  }

  // ---------------------------------------------------------------------------
  // The cell over a history of calls

  /** The cell after a `Try` call whose inner call had outcome `o`. */
  function CellAfter(o: Outcome<bool>, last: Option<Exn>): Option<Exn> {
    SafeExecute(o, last, false).last
  }

  /** The cell after a history of `Try` calls, in order. */
  function CellAfterAll(history: seq<Outcome<bool>>, last: Option<Exn>): Option<Exn>
    decreases |history|
  {
    if history == [] then last else CellAfterAll(history[1..], CellAfter(history[0], last))
  }

  /** The most recent failure with a member of the family, or `initial` when
      the history holds none: what `TakeLastException` promises to return. */
  function MostRecentFailure(history: seq<Outcome<bool>>, initial: Option<Exn>): (r: Option<Exn>)
    ensures r != initial ==> r.Some? && exists i :: 0 <= i < |history| && history[i] == Threw(r.value)
    decreases |history|
  {
    if history == [] then initial
    else
      var o := history[|history| - 1];
      if o.Threw? && o.error.IsAutoLaunch() then Some(o.error)
      else
        var front := history[..|history| - 1];
        var r := MostRecentFailure(front, initial);
        assert forall i :: 0 <= i < |front| ==> front[i] == history[i];
        r
  }

  lemma {:induction false} CellAfterAllSnoc(history: seq<Outcome<bool>>, o: Outcome<bool>, last: Option<Exn>)
    ensures CellAfterAll(history + [o], last) == CellAfter(o, CellAfterAll(history, last))
    decreases |history|
  {
    if history == [] {
      assert [] + [o] == [o];
      assert [o][1..] == [];
    } else {
      assert (history + [o])[1..] == history[1..] + [o];
      CellAfterAllSnoc(history[1..], o, CellAfter(history[0], last));
    }
  }

  /** Whatever the calls in between, the cell holds the most recent failure
      with a member of the family, and the earlier content only when none of
      them failed so. */
  lemma {:induction false} CellHoldsMostRecentFailure(history: seq<Outcome<bool>>, initial: Option<Exn>)
    ensures CellAfterAll(history, initial) == MostRecentFailure(history, initial)
    decreases |history|
  {
    if history != [] {
      var front := history[..|history| - 1];
      var o := history[|history| - 1];
      assert front + [o] == history;
      CellAfterAllSnoc(front, o, initial);
      CellHoldsMostRecentFailure(front, initial);
    }
  }

  /** Starting from an emptied cell, `TakeLastException` after a history of
      calls returns the most recent failure, or nothing after a history of
      successes. */
  lemma TakeAfterHistory(history: seq<Outcome<bool>>)
    ensures TakeLastException(CellAfterAll(history, None)).exception == MostRecentFailure(history, None)
    ensures (forall i :: 0 <= i < |history| ==> history[i].Returned?) ==>
      TakeLastException(CellAfterAll(history, None)).exception.None?
  {
    CellHoldsMostRecentFailure(history, None);
  }
}

=== FILE: startup_folder.dfy ===
/**
 The startup-folder engine: a batch file named after the application in the
 user's (or the common) Startup folder starts the application at logon.

 The two revisions keep the file in the same place and differ only in how the
 batch file's start line quotes the program and its arguments.
 */
module WindowsStartupFolder {
  import opened Wrappers
  import opened Exceptions
  import opened Text
  import opened Platform
  import opened FileSystem
  import opened Enums

  /** The Startup folder of the current user, or the common one for all users. */
  function Folder(host: Host, scope: WorkScope): (r: string)
    ensures scope.CurrentUser? ==> r == host.startupFolder
    ensures scope.AllUser? ==> r == host.commonStartupFolder
  {
    match scope
    case CurrentUser => host.startupFolder
    case AllUser => host.commonStartupFolder
  }

  /** `BatchFilePath`: `<folder>/<appName>.bat`. */
  function BatchFilePath(host: Host, app: App, scope: WorkScope): string {
    host.combine(Folder(host, scope), app.appName + ".bat")
  }

  function Quote(s: string): string {
    "\"" + s + "\""
  }

  const EchoOff: string := "@echo off"
  const GeneratedRemark: string := "REM Auto-generated " + "batch file for auto-launch"
  /** The part the two usage remarks share (written in pieces, which keeps the
      proofs about the characters of each literal small). */
  const UsageRemarkStart: string := "REM start : start \"title\" " + "/d \"exeFolder\" \"exePath\" "
  /** The usage remark of the revision that quotes every argument. */
  const QuotedUsageRemark: string := UsageRemarkStart + "\"arg1\" \"arg2\" ..."
  /** The usage remark of the revision that escapes the argument vector. */
  const EscapedUsageRemark: string := UsageRemarkStart + "\"arg1\" arg2 ..."
  const ExitLine: string := "exit"

  /** `start "<appName>" /d "<dir of appPath>" `, the start line up to the program. */
  function StartPrefix(host: Host, app: App): string {
    "start " + Quote(app.appName) + " /d " + Quote(host.directoryName(app.appPath)) + " "
  }

  /** The start line of the `IsEnabled` revision: the program path and then
      every argument in double quotes, separated by single spaces. */
  function QuotedStartLine(host: Host, app: App): string {
    StartPrefix(host, app) + Quote(app.appPath) + " " + EncloseAll("\"", "\"", " ", app.args)
  }

  /** The start line of the `GetStatus` revision: the escaped argument vector. */
  function EscapedStartLine(host: Host, app: App): string {
    StartPrefix(host, app) + host.escapeArguments([app.appPath] + app.args)
  }

  /** The six lines of the batch file around a given usage remark and start line. */
  function BatchLines(host: Host, app: App, usage: string, start: string): (r: seq<string>)
    ensures |r| == 6 && r[0] == EchoOff && r[3] == usage && r[4] == start && r[5] == ExitLine
    ensures r[1] == GeneratedRemark
    ensures r[2] == "cd /d " + Quote(host.directoryName(app.appPath))
  {
    [EchoOff, GeneratedRemark, "cd /d " + Quote(host.directoryName(app.appPath)), usage, start, ExitLine]
  }

  /** `GetBatchFileContent` of the `IsEnabled` revision. */
  function BatchFileContent(host: Host, app: App): string {
    JoinLines(BatchLines(host, app, QuotedUsageRemark, QuotedStartLine(host, app)))
  }

  /** `GetBatchFileContent` of the `GetStatus` revision. */
  function EscapedBatchFileContent(host: Host, app: App): string {
    JoinLines(BatchLines(host, app, EscapedUsageRemark, EscapedStartLine(host, app)))
  }

  // ---------------------------------------------------------------------------
  // Operations over the file system

  /** `Enable`: creates the folder when missing, then (over)writes the batch file. */
  function EnableWith(fs: Fs, host: Host, app: App, scope: WorkScope, content: string): (r: FsStep)
    ensures r.outcome.Returned? ==> FileExists(r.fs, BatchFilePath(host, app, scope))
    ensures r.outcome.Returned? ==> r.fs.files[BatchFilePath(host, app, scope)] == content
    ensures r.outcome.Returned? ==> Folder(host, scope) in r.fs.dirs
    ensures r.outcome.Threw? ==> r.fs.files == fs.files
    ensures forall p :: p != BatchFilePath(host, app, scope) ==>
      (p in r.fs.files <==> p in fs.files) && (p in fs.files ==> r.fs.files[p] == fs.files[p])
  {
    EnsureDirectoryAndWrite(fs, Folder(host, scope), BatchFilePath(host, app, scope), content)
  }

  /** `Enable` of the `IsEnabled` revision. */
  function Enable(fs: Fs, host: Host, app: App, scope: WorkScope): (r: FsStep)
    ensures r.outcome.Returned? ==>
      FileExists(r.fs, BatchFilePath(host, app, scope)) && r.fs.files[BatchFilePath(host, app, scope)] == BatchFileContent(host, app)
  {
    EnableWith(fs, host, app, scope, BatchFileContent(host, app))
  }

  /** `Enable` of the `GetStatus` revision. */
  function EnableEscaped(fs: Fs, host: Host, app: App, scope: WorkScope): (r: FsStep)
    ensures r.outcome.Returned? ==>
      FileExists(r.fs, BatchFilePath(host, app, scope)) && r.fs.files[BatchFilePath(host, app, scope)] == EscapedBatchFileContent(host, app)
  {
    EnableWith(fs, host, app, scope, EscapedBatchFileContent(host, app))
  }

  /** `Disable`: deletes the batch file when it exists and otherwise does nothing. */
  function Disable(fs: Fs, host: Host, app: App, scope: WorkScope): (r: FsStep)
    ensures !FileExists(fs, BatchFilePath(host, app, scope)) ==> r == FsStep(Returned(()), fs)
    ensures r.outcome.Returned? ==> !FileExists(r.fs, BatchFilePath(host, app, scope))
    ensures forall p :: p != BatchFilePath(host, app, scope) ==>
      (p in r.fs.files <==> p in fs.files) && (p in fs.files ==> r.fs.files[p] == fs.files[p])
  {
    DeleteIfExists(fs, BatchFilePath(host, app, scope))
  }

  /** `IsEnabled` (and `GetStatus`): the batch file exists. */
  function IsEnabled(fs: Fs, host: Host, app: App, scope: WorkScope): bool {
    FileExists(fs, BatchFilePath(host, app, scope))
  }

  // ---------------------------------------------------------------------------
  // Properties

  /** A successful `Enable` makes the status true, a successful `Disable` makes it false. */
  lemma EnableDisableStatus(fs: Fs, host: Host, app: App, scope: WorkScope, content: string)
    ensures EnableWith(fs, host, app, scope, content).outcome.Returned? ==>
      IsEnabled(EnableWith(fs, host, app, scope, content).fs, host, app, scope)
    ensures Disable(fs, host, app, scope).outcome.Returned? ==>
      !IsEnabled(Disable(fs, host, app, scope).fs, host, app, scope)
  {
  }

  /** Enabling twice leaves the state of enabling once: one file, same content. */
  lemma EnableIdempotent(fs: Fs, host: Host, app: App, scope: WorkScope, content: string)
    requires EnableWith(fs, host, app, scope, content).outcome.Returned?
    ensures var once := EnableWith(fs, host, app, scope, content).fs;
      EnableWith(once, host, app, scope, content) == FsStep(Returned(()), once)
  {
    EnsureDirectoryAndWriteIdempotent(fs, Folder(host, scope), BatchFilePath(host, app, scope), content);
  }

  /** Disabling an application that is not enabled changes nothing. */
  lemma DisableWhenAbsent(fs: Fs, host: Host, app: App, scope: WorkScope)
    requires !IsEnabled(fs, host, app, scope)
    ensures Disable(fs, host, app, scope) == FsStep(Returned(()), fs)
  {
  }

  /** The values spliced into the batch file hold no line break. */
  predicate SingleLineParts(host: Host, app: App) {
    && '\n' !in app.appName
    && '\n' !in app.appPath
    && '\n' !in host.directoryName(app.appPath)
    && LinesFree(app.args)
  }

  lemma UsageRemarksSingle()
    ensures '\n' !in QuotedUsageRemark && '\n' !in EscapedUsageRemark
  {
    assert '\n' !in UsageRemarkStart;
    var quoted := "\"arg1\" \"arg2\" ...";
    var escaped := "\"arg1\" arg2 ...";
    assert '\n' !in quoted && '\n' !in escaped;
  }

  lemma FixedLinesSingle()
    ensures '\n' !in EchoOff && '\n' !in GeneratedRemark && '\n' !in ExitLine
    ensures '\n' !in QuotedUsageRemark && '\n' !in EscapedUsageRemark
  {
    UsageRemarksSingle();
  }

  lemma BatchLinesSingle(host: Host, app: App, usage: string, start: string)
    requires SingleLineParts(host, app)
    requires usage == QuotedUsageRemark || usage == EscapedUsageRemark
    requires '\n' !in start
    ensures LinesFree(BatchLines(host, app, usage, start))
  {
    FixedLinesSingle();
    var lines := BatchLines(host, app, usage, start);
    assert '\n' !in lines[2];
  }

  /** Read back line by line, the file holds exactly the six lines in order:
      `@echo off`, the generated remark, `cd /d "<dir>"`, the usage remark, the
      start line and `exit`. */
  lemma BatchFileLines(host: Host, app: App)
    requires SingleLineParts(host, app)
    ensures SplitLines(BatchFileContent(host, app)) ==
      [EchoOff, GeneratedRemark, "cd /d " + Quote(host.directoryName(app.appPath)),
       QuotedUsageRemark, QuotedStartLine(host, app), ExitLine]
  {
    EncloseAllLineFree("\"", "\"", " ", app.args);
    BatchLinesSingle(host, app, QuotedUsageRemark, QuotedStartLine(host, app));
    SplitJoinLinesAll(BatchLines(host, app, QuotedUsageRemark, QuotedStartLine(host, app)));
  }

  /** The same six lines in the `GetStatus` revision, with its own remark and start line. */
  lemma EscapedBatchFileLines(host: Host, app: App)
    requires SingleLineParts(host, app)
    requires '\n' !in host.escapeArguments([app.appPath] + app.args)
    ensures SplitLines(EscapedBatchFileContent(host, app)) ==
      [EchoOff, GeneratedRemark, "cd /d " + Quote(host.directoryName(app.appPath)),
       EscapedUsageRemark, EscapedStartLine(host, app), ExitLine]
  {
    BatchLinesSingle(host, app, EscapedUsageRemark, EscapedStartLine(host, app));
    SplitJoinLinesAll(BatchLines(host, app, EscapedUsageRemark, EscapedStartLine(host, app)));
  }

  /** The start line carries the program path and every argument, each in its
      own quotes and in order: reading the quoted items back after the prefix
      gives `[appPath] + args` whenever no argument holds a double quote. With
      no arguments the line ends in a space after the quoted path. */
  lemma StartLineArguments(host: Host, app: App)
    requires '"' !in app.appPath
    requires forall i :: 0 <= i < |app.args| ==> '"' !in app.args[i]
    ensures var line := QuotedStartLine(host, app);
      var prefix := StartPrefix(host, app);
      && prefix <= line
      && (|app.args| == 0 ==> line[|prefix|..] == Quote(app.appPath) + " ")
      && (|app.args| > 0 ==> Disclose("\"", "\"", " ", line[|prefix|..]) == Some([app.appPath] + app.args))
  {
    var line := QuotedStartLine(host, app);
    var prefix := StartPrefix(host, app);
    var tail := Quote(app.appPath) + " " + EncloseAll("\"", "\"", " ", app.args);
    assert line == prefix + tail;
    assert line[|prefix|..] == tail;
    if |app.args| > 0 {
      var argv := [app.appPath] + app.args;
      assert argv[1..] == app.args;
      assert EncloseAll("\"", "\"", " ", argv) == tail;
      DiscloseEncloseAll("\"", "\"", " ", argv);
    }
  }

  /** When the escaper quotes each argument, the two revisions write the same
      start line, provided there is at least one argument; without arguments
      the `IsEnabled` revision leaves a trailing space. */
  lemma StartLinesAgreeWhenEscaperQuotes(host: Host, app: App)
    requires host.escapeArguments([app.appPath] + app.args) == EncloseAll("\"", "\"", " ", [app.appPath] + app.args)
    ensures |app.args| > 0 ==> QuotedStartLine(host, app) == EscapedStartLine(host, app)
    ensures |app.args| == 0 ==> QuotedStartLine(host, app) == EscapedStartLine(host, app) + " "
  {
    var argv := [app.appPath] + app.args;
    assert argv[1..] == app.args;
    if |app.args| == 0 {
      assert argv == [app.appPath];
    }
  }
}

=== FILE: task_scheduler.dfy ===
/**
 The task-scheduler engine: PowerShell registers, unregisters or looks up a
 scheduled task that runs the application at logon. The task lives in a
 folder named after the application and is called after the logged-on user.
 */
module WindowsTaskScheduler {
  import opened Wrappers
  import opened Exceptions
  import opened Text
  import opened Process
  import opened Enums

  const PowerShell: string := "powershell.exe"

  /** The task's name; PowerShell expands the user name when it runs the command. */
  const TaskName: string := "AutoLaunch for " + "$env:USERNAME"

  /** `_taskBaseInfo`: the task folder `\<appName>\` and the task name, with a
      trailing space. */
  function TaskBaseInfo(app: App): string {
    "-TaskPath \"\\" + app.appName + "\\\" -TaskName \"" + TaskName + "\" "
  }

  /** `_taskExecInfo`: the program and its arguments joined by single spaces
      into one quoted `-Argument`, with a trailing space. */
  function TaskExecInfo(app: App): string {
    "-Execute \"" + app.appPath + "\" -Argument \"" + Join(" ", app.args) + "\" "
  }

  const RegisterPrefix: string := "Register-ScheduledTask -Force -RunLevel Highest "
    + "-Trigger (New-ScheduledTaskTrigger " + "-AtLogOn -User $env:USERNAME) "

  function EnableCmd(app: App): string {
    RegisterPrefix + TaskBaseInfo(app) + " -Action (New-ScheduledTaskAction " + TaskExecInfo(app) + ")"
  }

  function DisableCmd(app: App): string {
    "Unregister-ScheduledTask " + TaskBaseInfo(app) + " -Confirm:$false"
  }

  function IsEnabledCmd(app: App): string {
    "(Get-ScheduledTask " + TaskBaseInfo(app) + " -ErrorAction SilentlyContinue) -ne $null"
  }

  /** The argument vector of a PowerShell run: no prompts, no profile, no
      execution policy, and the command last. */
  function PowerShellArgs(cmd: string): (r: seq<string>)
    ensures |r| == 6 && r[4] == "-Command" && r[5] == cmd
  {
    ["-NonInteractive", "-NoProfile", "-ExecutionPolicy", "Bypass", "-Command", cmd]
  }

  /** `Exec(cmd)`: one PowerShell run, its trimmed output on exit code 0. */
  function Exec(run: Runner, cmd: string): (r: Outcome<string>)
    ensures r.Returned? <==> run(PowerShell, PowerShellArgs(cmd)).Ran? && run(PowerShell, PowerShellArgs(cmd)).result.exitCode == 0
    ensures r.Threw? ==> r.error.ExecuteCommand?
  {
    ExecResult(cmd, run(PowerShell, PowerShellArgs(cmd)))
  }

  /** `ExecAsync(cmd)`, over the corrected asynchronous start. */
  function ExecAsync(run: Runner, cmd: string): (r: Outcome<string>)
    ensures r == Exec(run, cmd)
  {
    AsyncExecMatchesSync(run, PowerShell, PowerShellArgs(cmd), cmd);
    ExecResult(cmd, StartAsync(run, PowerShell, PowerShellArgs(cmd)))
  }

  /** `ExecAsync(cmd)` as written: it fails whatever PowerShell would answer. */
  function ExecAsyncAsWritten(run: Runner, cmd: string): (r: Outcome<string>)
    ensures r.Threw? && r.error.ExecuteCommand? && r.error.exitCode.None?
  {
    ExecResult(cmd, StartAsyncAsWritten(run, PowerShell, PowerShellArgs(cmd)))
  }

  function Enable(run: Runner, app: App): (r: Outcome<()>)
    ensures r.Returned? <==> Exec(run, EnableCmd(app)).Returned?
    ensures r.Threw? ==> r.error == Exec(run, EnableCmd(app)).error
  {
    Exec(run, EnableCmd(app)).Map((_: string) => ())
  }

  /** `Disable`: unregisters the task without looking for it first, so a
      missing task fails the way PowerShell reports it. */
  function Disable(run: Runner, app: App): (r: Outcome<()>)
    ensures r.Returned? <==> Exec(run, DisableCmd(app)).Returned?
    ensures r.Threw? ==> r.error == Exec(run, DisableCmd(app)).error
  {
    Exec(run, DisableCmd(app)).Map((_: string) => ())
  }

  /** `IsEnabled`: PowerShell's answer compared with "true", ignoring case. */
  function IsEnabled(run: Runner, app: App): (r: Outcome<bool>)
    ensures r.Returned? <==> Exec(run, IsEnabledCmd(app)).Returned?
    ensures r.Returned? ==> (r.value <==> EqualsIgnoreCase("true", Exec(run, IsEnabledCmd(app)).value))
    ensures r.Threw? ==> r.error == Exec(run, IsEnabledCmd(app)).error
  {
    Exec(run, IsEnabledCmd(app)).Map((out: string) => EqualsIgnoreCase("true", out))
  }

  // ---------------------------------------------------------------------------
  // Properties

  /** The three commands address the same task: each holds the task folder and
      name right after its cmdlet. */
  lemma CommandsAddressTheTask(app: App)
    ensures OccursAt(EnableCmd(app), TaskBaseInfo(app), |RegisterPrefix|)
    ensures OccursAt(DisableCmd(app), TaskBaseInfo(app), |"Unregister-ScheduledTask "|)
    ensures OccursAt(IsEnabledCmd(app), TaskBaseInfo(app), |"(Get-ScheduledTask "|)
  {
    var base := TaskBaseInfo(app);
    var e := EnableCmd(app);
    var etail := " -Action (New-ScheduledTaskAction " + TaskExecInfo(app) + ")";
    assert e == RegisterPrefix + base + etail;
    assert e[|RegisterPrefix|..|RegisterPrefix| + |base|] == base;
    var d := DisableCmd(app);
    var dhead := "Unregister-ScheduledTask ";
    assert d == dhead + base + " -Confirm:$false";
    assert d[|dhead|..|dhead| + |base|] == base;
    var q := IsEnabledCmd(app);
    var qhead := "(Get-ScheduledTask ";
    assert q == qhead + base + " -ErrorAction SilentlyContinue) -ne $null";
    assert q[|qhead|..|qhead| + |base|] == base;
  }

  /** The task folder is the application name: two applications share a task
      exactly when they share a name. */
  lemma TaskFolderIsAppName(app: App, other: App)
    ensures TaskBaseInfo(app) == TaskBaseInfo(other) <==> app.appName == other.appName
  {
    var head := "-TaskPath \"\\";
    var tail := "\\\" -TaskName \"" + TaskName + "\" ";
    assert TaskBaseInfo(app) == head + app.appName + tail;
    assert TaskBaseInfo(other) == head + other.appName + tail;
    if TaskBaseInfo(app) == TaskBaseInfo(other) {
      assert app.appName == TaskBaseInfo(app)[|head|..|head| + |app.appName|];
    }
  }

  /** The arguments are joined with single spaces into one string, so their
      boundaries are lost: one argument `a b` and the two arguments `a`, `b`
      register the same action. */
  lemma ArgumentBoundariesLost()
    ensures TaskExecInfo(App("app", "/p", ["a b"])) == TaskExecInfo(App("app", "/p", ["a", "b"]))
  {
  }

  /** How PowerShell prints a boolean. */
  function PowerShellBool(b: bool): (r: string)
    ensures |r| > 0 && !IsWhiteSpace(r[0]) && !IsWhiteSpace(r[|r| - 1])
  {
    if b then "True" else "False"
  }

  /** Compared with "true" ignoring case, PowerShell's boolean reads back as itself. */
  lemma PowerShellBoolReadsBack(b: bool)
    ensures EqualsIgnoreCase("true", PowerShellBool(b)) == b
  {
    if b {
      var t := PowerShellBool(b);
      assert AsciiUpper('t') == AsciiUpper(t[0]);
    }
  }

  /** PowerShell prints the comparison as `True` or `False`; `IsEnabled` reads
      that answer back, whatever white space surrounds it. */
  lemma IsEnabledReadsAnswer(run: Runner, app: App, answer: bool, before: string, after: string, error: string)
    requires IsBlank(before) && IsBlank(after)
    requires run(PowerShell, PowerShellArgs(IsEnabledCmd(app))) ==
      Ran(ProcessResult(0, before + PowerShellBool(answer) + after, error))
    ensures IsEnabled(run, app) == Returned(answer)
  {
    TrimPadded(before, PowerShellBool(answer), after);
    PowerShellBoolReadsBack(answer);
  }

  /** Disabling a task PowerShell cannot find (the cmdlet exits non-zero) fails
      with an `ExecuteCommandException` that carries the exit code. */
  lemma DisableMissingTaskFails(run: Runner, app: App)
    requires run(PowerShell, PowerShellArgs(DisableCmd(app))).Ran?
    requires run(PowerShell, PowerShellArgs(DisableCmd(app))).result.exitCode != 0
    ensures Disable(run, app).Threw?
    ensures Disable(run, app).error.exitCode == Some(run(PowerShell, PowerShellArgs(DisableCmd(app))).result.exitCode)
  {
  }
}

=== FILE: text.dfy ===
/**
 The string primitives of the .NET base library that the generators and the
 status decisions rely on: `char.IsWhiteSpace`, `string.IsNullOrWhiteSpace`,
 `string.Trim`, `string.Join`, ordinal case-insensitive comparison and search,
 and decimal formatting of integers.
 */
module Text {
  import opened Wrappers

  /** The characters `char.IsWhiteSpace` accepts: the Unicode space, line and
      paragraph separators plus the control characters U+0009..U+000D and U+0085. */
  predicate IsWhiteSpace(c: char) {
    || '\U{9}' <= c <= '\U{D}'
    || c == ' '
    || c == '\U{85}'
    || c == '\U{A0}'
    || c == '\U{1680}'
    || '\U{2000}' <= c <= '\U{200A}'
    || c == '\U{2028}'
    || c == '\U{2029}'
    || c == '\U{202F}'
    || c == '\U{205F}'
    || c == '\U{3000}'
  }

  /** Every character is white space (true of the empty string). */
  predicate IsBlank(s: string) {
    forall i :: 0 <= i < |s| ==> IsWhiteSpace(s[i])
  }

  /** `string.IsNullOrWhiteSpace`. */
  predicate IsNullOrWhiteSpace(s: Option<string>) {
    s.None? || IsBlank(s.value)
  }

  /** The first position at or after `i` that does not hold white space
      (`|s|` when there is none). */
  function SkipWhiteSpace(s: string, i: nat): (r: nat)
    requires i <= |s|
    ensures i <= r <= |s|
    ensures forall j :: i <= j < r ==> IsWhiteSpace(s[j])
    ensures r < |s| ==> !IsWhiteSpace(s[r])
    decreases |s| - i
  {
    if i < |s| && IsWhiteSpace(s[i]) then SkipWhiteSpace(s, i + 1) else i
  }

  /** Scanning back from `j`, no further than `lo`: the end of the last
      character that does not hold white space (`lo` when there is none). */
  function SkipWhiteSpaceBack(s: string, lo: nat, j: nat): (r: nat)
    requires lo <= j <= |s|
    ensures lo <= r <= j
    ensures forall k :: r <= k < j ==> IsWhiteSpace(s[k])
    ensures r > lo ==> !IsWhiteSpace(s[r - 1])
    decreases j
  {
    if j > lo && IsWhiteSpace(s[j - 1]) then SkipWhiteSpaceBack(s, lo, j - 1) else j
  }

  /** `string.Trim()`: the result is a contiguous piece of `s`, everything cut
      away is white space, and the result neither starts nor ends with it. */
  function Trim(s: string): (r: string)
    ensures TrimmedAt(s, r, SkipWhiteSpace(s, 0))
    ensures r == [] || (!IsWhiteSpace(r[0]) && !IsWhiteSpace(r[|r| - 1]))
  {
    var i := SkipWhiteSpace(s, 0);
    s[i..SkipWhiteSpaceBack(s, i, |s|)]
  }

  /** `r` sits in `s` at offset `k`, with only white space around it. */
  ghost predicate TrimmedAt(s: string, r: string, k: int) {
    && 0 <= k && k + |r| <= |s|
    && s[k..k + |r|] == r
    && (forall j :: 0 <= j < k ==> IsWhiteSpace(s[j]))
    && (forall j :: k + |r| <= j < |s| ==> IsWhiteSpace(s[j]))
  }

  /** Trimming twice is trimming once. */
  lemma TrimIdempotent(s: string)
    ensures Trim(Trim(s)) == Trim(s)
  {
    var r := Trim(s);
    assert SkipWhiteSpace(r, 0) == 0;
    assert SkipWhiteSpaceBack(r, 0, |r|) == |r|;
    assert r[0..|r|] == r;
  }

  /** The trimmed text is empty exactly when the input is blank. */
  lemma TrimEmptyIffBlank(s: string)
    ensures Trim(s) == [] <==> IsBlank(s)
  {
    var k := SkipWhiteSpace(s, 0);
    if IsBlank(s) {
      assert k == |s|;
    }
  }

  /** Trimming a text with no white space at its ends, padded on either side
      with white space, gives the text back. */
  lemma TrimPadded(before: string, core: string, after: string)
    requires IsBlank(before) && IsBlank(after)
    requires core != [] && !IsWhiteSpace(core[0]) && !IsWhiteSpace(core[|core| - 1])
    ensures Trim(before + core + after) == core
  {
    var s := before + core + after;
    var i := |before|;
    var j := |before| + |core|;
    assert forall k :: 0 <= k < i ==> s[k] == before[k];
    assert s[i] == core[0] && s[j - 1] == core[|core| - 1];
    assert forall k :: j <= k < |s| ==> s[k] == after[k - j];
    assert SkipWhiteSpace(s, 0) == i;
    assert SkipWhiteSpaceBack(s, i, |s|) == j;
    assert s[i..j] == core;
  }

  /** Upper-casing of the ASCII letters, as `char.ToUpperInvariant` does for them. */
  function AsciiUpper(c: char): char {
    if 'a' <= c <= 'z' then (c as int - 32) as char else c
  }

  /** `string.Equals(a, b, StringComparison.OrdinalIgnoreCase)`, with case
      folding restricted to ASCII; every literal compared in this model is
      ASCII, and no non-ASCII character folds onto an ASCII letter of them. */
  predicate EqualsIgnoreCase(a: string, b: string) {
    |a| == |b| && forall i :: 0 <= i < |a| ==> AsciiUpper(a[i]) == AsciiUpper(b[i])
  }

  /** `string.Join(sep, xs)`: the parts with `sep` between neighbours. */
  function Join(sep: string, xs: seq<string>): (r: string)
    ensures |xs| == 1 ==> r == xs[0]
    ensures |xs| == 0 ==> r == ""
  {
    if |xs| == 0 then ""
    else if |xs| == 1 then xs[0]
    else xs[0] + sep + Join(sep, xs[1..])
  }

  /** One more part is added after a separator at the end: `sep` stands
      between every pair of neighbours, and nowhere else. */
  lemma {:induction false} JoinSnoc(sep: string, xs: seq<string>, x: string)
    requires |xs| > 0
    ensures Join(sep, xs + [x]) == Join(sep, xs) + sep + x
    decreases |xs|
  {
    var all := xs + [x];
    assert all[0] == xs[0];
    if |xs| == 1 {
      assert all[1..] == [x];
    } else {
      assert all[1..] == xs[1..] + [x];
      JoinSnoc(sep, xs[1..], x);
    }
  }

  /** `s` holds `sub` starting at index `i`. */
  predicate OccursAt(s: string, sub: string, i: int) {
    0 <= i && i + |sub| <= |s| && s[i..i + |sub|] == sub
  }

  ghost predicate Contains(s: string, sub: string) {
    exists i :: OccursAt(s, sub, i)
  }

  /** `s` holds `sub` at index `i`, ignoring ASCII case. */
  predicate OccursAtIgnoreCase(s: string, sub: string, i: int) {
    0 <= i && i + |sub| <= |s| && EqualsIgnoreCase(s[i..i + |sub|], sub)
  }

  /** `s.IndexOf(sub, StringComparison.OrdinalIgnoreCase)` searching from
      `from`: the first match at or after `from`, or -1 when there is none. */
  function IndexOfIgnoreCaseFrom(s: string, sub: string, from: nat): (r: int)
    requires from <= |s|
    ensures r == -1 || (from <= r && OccursAtIgnoreCase(s, sub, r))
    ensures r == -1 <==> forall j :: from <= j <= |s| ==> !OccursAtIgnoreCase(s, sub, j)
    ensures r != -1 ==> forall j :: from <= j < r ==> !OccursAtIgnoreCase(s, sub, j)
    decreases |s| - from
  {
    if OccursAtIgnoreCase(s, sub, from) then from
    else if from == |s| then -1
    else IndexOfIgnoreCaseFrom(s, sub, from + 1)
  }

  function IndexOfIgnoreCase(s: string, sub: string): (r: int)
    ensures r == -1 <==> forall j :: 0 <= j <= |s| ==> !OccursAtIgnoreCase(s, sub, j)
    ensures r != -1 ==> OccursAtIgnoreCase(s, sub, r) && forall j :: 0 <= j < r ==> !OccursAtIgnoreCase(s, sub, j)
  {
    IndexOfIgnoreCaseFrom(s, sub, 0)
  }

  // ---------------------------------------------------------------------------
  // Lines of a multi-line text

  /** A multi-line raw string literal: the lines joined by line breaks, with
      no break after the last line. */
  function JoinLines(lines: seq<string>): string {
    Join("\n", lines)
  }

  /** The first index of `c` in `s`, or `|s|` when `c` does not occur. */
  function IndexOfChar(s: string, c: char): (r: nat)
    ensures r <= |s|
    ensures r < |s| ==> s[r] == c
    ensures c !in s[..r]
    ensures r == |s| <==> c !in s
  {
    if s == [] then 0
    else if s[0] == c then 0
    else
      var k := IndexOfChar(s[1..], c);
      assert s[..k + 1] == [s[0]] + s[1..][..k];
      k + 1
  }

  /** No line holds a line break. */
  predicate LinesFree(lines: seq<string>) {
    forall i :: 0 <= i < |lines| ==> '\n' !in lines[i]
  }

  /** Line-break-free groups of lines stay so when put one after the other. */
  lemma LinesFreeAppend(a: seq<string>, b: seq<string>)
    requires LinesFree(a) && LinesFree(b)
    ensures LinesFree(a + b)
  {
    forall i | 0 <= i < |a + b| ensures '\n' !in (a + b)[i] {
      if i >= |a| { assert (a + b)[i] == b[i - |a|]; }
    }
  }

  /** Splits a text at every line break: the inverse of `JoinLines`. */
  function SplitLines(s: string): (r: seq<string>)
    ensures |r| >= 1
    decreases |s|
  {
    var i := IndexOfChar(s, '\n');
    if i == |s| then [s] else [s[..i]] + SplitLines(s[i + 1..])
  }

  /** A line ahead of a line break is split off whole. */
  lemma SplitLinesCons(a: string, b: string)
    requires '\n' !in a
    ensures SplitLines(a + "\n" + b) == [a] + SplitLines(b)
  {
    var s := a + "\n" + b;
    assert s[..|a|] == a;
    assert s[|a|] == '\n';
    IndexOfCharAt(s, '\n', |a|);
    assert s[|a| + 1..] == b;
  }

  lemma IndexOfCharAt(s: string, c: char, k: nat)
    requires k < |s| && s[k] == c && c !in s[..k]
    ensures IndexOfChar(s, c) == k
  {
  }

  lemma SeqAssoc<T>(a: seq<T>, b: seq<T>, c: seq<T>)
    ensures a + (b + c) == (a + b) + c
  {
  }

  /** Splitting at a line break splits the two sides independently. */
  lemma {:induction false} SplitLinesAppend(x: string, y: string)
    ensures SplitLines(x + "\n" + y) == SplitLines(x) + SplitLines(y)
    decreases |x|
  {
    var i := IndexOfChar(x, '\n');
    if i == |x| {
      SplitLinesCons(x, y);
    } else {
      var s := x + "\n" + y;
      assert s[..i] == x[..i];
      IndexOfCharAt(s, '\n', i);
      var rest := x[i + 1..];
      assert s[i + 1..] == rest + "\n" + y;
      assert SplitLines(s) == [x[..i]] + SplitLines(rest + "\n" + y);
      assert SplitLines(x) == [x[..i]] + SplitLines(rest);
      SplitLinesAppend(rest, y);
      SeqAssoc([x[..i]], SplitLines(rest), SplitLines(y));
    }
  }

  lemma JoinLinesCons(lines: seq<string>)
    requires |lines| > 1
    ensures JoinLines(lines) == lines[0] + "\n" + JoinLines(lines[1..])
  {
  }

  /** A block followed by lines free of line breaks. */
  lemma {:induction false} SplitJoinLinesFront(x: string, post: seq<string>)
    requires LinesFree(post)
    ensures SplitLines(JoinLines([x] + post)) == SplitLines(x) + post
    decreases |post|
  {
    var all := [x] + post;
    if |post| > 0 {
      JoinLinesCons(all);
      assert all[1..] == [post[0]] + post[1..];
      SplitLinesAppend(x, JoinLines(post));
      SplitJoinLinesFront(post[0], post[1..]);
      assert SplitLines(post[0]) == [post[0]];
      assert [post[0]] + post[1..] == post;
    } else {
      assert all == [x];
    }
  }

  /** Lines free of line breaks come back unchanged from their joined text, and
      a block among them that holds line breaks itself is split on its own. */
  lemma {:induction false} SplitJoinLines(pre: seq<string>, x: string, post: seq<string>)
    requires LinesFree(pre)
    requires LinesFree(post)
    ensures SplitLines(JoinLines(pre + [x] + post)) == pre + SplitLines(x) + post
  {
    var all := pre + [x] + post;
    if |pre| > 0 {
      var rest := pre[1..] + [x] + post;
      assert all[1..] == rest;
      assert all[0] == pre[0];
      JoinLinesCons(all);
      assert JoinLines(all) == pre[0] + "\n" + JoinLines(rest);
      SplitLinesCons(pre[0], JoinLines(rest));
      assert SplitLines(JoinLines(all)) == [pre[0]] + SplitLines(JoinLines(rest));
      assert LinesFree(pre[1..]) by {
        forall i | 0 <= i < |pre[1..]| ensures '\n' !in pre[1..][i] { assert pre[1..][i] == pre[i + 1]; }
      }
      SplitJoinLines(pre[1..], x, post);
      assert SplitLines(JoinLines(rest)) == pre[1..] + SplitLines(x) + post;
      ConsAssoc(pre, SplitLines(x), post);
    } else {
      assert all == [x] + post;
      SplitJoinLinesFront(x, post);
    }
  }

  /** Lines free of line breaks come back unchanged from their joined text. */
  lemma SplitJoinLinesAll(lines: seq<string>)
    requires |lines| > 0
    requires LinesFree(lines)
    ensures SplitLines(JoinLines(lines)) == lines
  {
    assert [] + [lines[0]] + lines[1..] == lines;
    SplitJoinLines([], lines[0], lines[1..]);
    SplitLinesSingle(lines[0]);
  }

  /** Putting the head of `a` back in front of `a[1..] + b + c`. */
  lemma ConsAssoc<T>(a: seq<T>, b: seq<T>, c: seq<T>)
    requires |a| > 0
    ensures [a[0]] + (a[1..] + b + c) == a + b + c
  {
    assert a == [a[0]] + a[1..];
  }

  /** A single line free of line breaks splits into itself. */
  lemma SplitLinesSingle(s: string)
    requires '\n' !in s
    ensures SplitLines(s) == [s]
  {
  }

  // ---------------------------------------------------------------------------
  // Lists of enclosed items, such as `"a" "b"` or `<string>a</string><string>b</string>`

  /** Each item wrapped in `open` and `close`, joined by `sep`. */
  function EncloseAll(open: string, close: string, sep: string, xs: seq<string>): (r: string)
    ensures |xs| == 0 ==> r == ""
  {
    if |xs| == 0 then ""
    else if |xs| == 1 then open + xs[0] + close
    else open + xs[0] + close + (sep + EncloseAll(open, close, sep, xs[1..]))
  }

  /** `EncloseAll` is `string.Join` over the individually wrapped items. */
  lemma {:induction false} EncloseAllIsJoin(open: string, close: string, sep: string, xs: seq<string>)
    ensures EncloseAll(open, close, sep, xs) == Join(sep, seq(|xs|, i requires 0 <= i < |xs| => open + xs[i] + close))
  {
    if |xs| > 1 {
      EncloseAllIsJoin(open, close, sep, xs[1..]);
      var w := seq(|xs|, i requires 0 <= i < |xs| => open + xs[i] + close);
      assert w[1..] == seq(|xs| - 1, i requires 0 <= i < |xs| - 1 => open + xs[1..][i] + close);
    }
  }

  /** A character missing from `x` and from every one of `xs` is missing
      from every item of `[x] + xs`. */
  lemma ConsAvoids(c: char, x: string, xs: seq<string>)
    requires c !in x
    requires forall i :: 0 <= i < |xs| ==> c !in xs[i]
    ensures forall i :: 0 <= i < |[x] + xs| ==> c !in ([x] + xs)[i]
  {
    forall i | 0 <= i < |[x] + xs| ensures c !in ([x] + xs)[i] {
      if i > 0 { assert ([x] + xs)[i] == xs[i - 1]; }
    }
  }

  /** Enclosing items free of line breaks in delimiters free of them gives a
      single line. */
  lemma {:induction false} EncloseAllLineFree(open: string, close: string, sep: string, xs: seq<string>)
    requires '\n' !in open && '\n' !in close && '\n' !in sep
    requires forall i :: 0 <= i < |xs| ==> '\n' !in xs[i]
    ensures '\n' !in EncloseAll(open, close, sep, xs)
  {
    if |xs| > 1 {
      EncloseAllLineFree(open, close, sep, xs[1..]);
    }
  }

  /** Reads back a list written by `EncloseAll`; `None` when `s` is not of that form. */
  function Disclose(open: string, close: string, sep: string, s: string): (r: Option<seq<string>>)
    requires |open| > 0 && |close| > 0
    decreases |s|
  {
    if s == [] then Some([])
    else if !(open <= s) then None
    else
      var rest := s[|open|..];
      var i := IndexOfChar(rest, close[0]);
      if !(close <= rest[i..]) then None
      else
        var after := rest[i + |close|..];
        if after == [] then Some([rest[..i]])
        else if !(sep <= after) || after[|sep|..] == [] then None
        else match Disclose(open, close, sep, after[|sep|..])
          case Some(more) => Some([rest[..i]] + more)
          case None => None
  }

  /** Items that do not contain the first character of `close` are recovered
      exactly, in order, from their enclosed list. */
  lemma {:induction false} DiscloseEncloseAll(open: string, close: string, sep: string, xs: seq<string>)
    requires |open| > 0 && |close| > 0
    requires forall i :: 0 <= i < |xs| ==> close[0] !in xs[i]
    ensures Disclose(open, close, sep, EncloseAll(open, close, sep, xs)) == Some(xs)
  {
    if |xs| == 1 {
      DiscloseEncloseOne(open, close, sep, xs);
    } else if |xs| > 1 {
      var tail := xs[1..];
      var more := EncloseAll(open, close, sep, tail);
      EncloseAllNonEmpty(open, close, sep, tail);
      forall i | 0 <= i < |tail| ensures close[0] !in tail[i] {
        assert tail[i] == xs[i + 1];
      }
      DiscloseEncloseAll(open, close, sep, tail);
      HeadTail(xs);
      DiscloseCons(open, close, sep, xs[0], more, tail, EncloseAll(open, close, sep, xs));
    }
  }

  /** A non-empty sequence is its head before its tail. */
  lemma HeadTail<T>(xs: seq<T>)
    requires |xs| > 0
    ensures [xs[0]] + xs[1..] == xs
  {
  }

  lemma EncloseAllNonEmpty(open: string, close: string, sep: string, xs: seq<string>)
    requires |open| > 0 && |xs| > 0
    ensures |EncloseAll(open, close, sep, xs)| > 0
  {
  }

  /** The first enclosed item is read off the front, leaving what follows its `close`. */
  lemma DiscloseHead(open: string, close: string, sep: string, x: string, tail: string)
    requires |open| > 0 && |close| > 0 && close[0] !in x
    ensures var s := open + x + close + tail;
      && open <= s
      && IndexOfChar(s[|open|..], close[0]) == |x|
      && close <= s[|open|..][|x|..]
      && s[|open|..][..|x|] == x
      && s[|open|..][|x| + |close|..] == tail
  {
    var s := open + x + close + tail;
    var rest := s[|open|..];
    assert rest == x + close + tail;
    assert rest[..|x|] == x;
    IndexOfCharAt(rest, close[0], |x|);
    assert rest[|x|..] == close + tail;
  }

  /** A single enclosed item. */
  lemma DiscloseSingle(open: string, close: string, sep: string, x: string)
    requires |open| > 0 && |close| > 0 && close[0] !in x
    ensures Disclose(open, close, sep, open + x + close) == Some([x])
  {
    var s := open + x + close;
    assert s == open + x + close + "";
    DiscloseHead(open, close, sep, x, "");
  }

  lemma DiscloseEncloseOne(open: string, close: string, sep: string, xs: seq<string>)
    requires |open| > 0 && |close| > 0 && |xs| == 1 && close[0] !in xs[0]
    ensures Disclose(open, close, sep, EncloseAll(open, close, sep, xs)) == Some(xs)
  {
    var e := EncloseAll(open, close, sep, xs);
    assert e == open + xs[0] + close;
    DiscloseSingle(open, close, sep, xs[0]);
    assert [xs[0]] == xs;
  }

  /** One item followed by a separator and a non-empty remainder that reads
      back as `ys`. */
  lemma DiscloseCons(open: string, close: string, sep: string, x: string, more: string, ys: seq<string>, s: string)
    requires |open| > 0 && |close| > 0 && close[0] !in x && |more| > 0
    requires s == open + x + close + (sep + more)
    requires Disclose(open, close, sep, more) == Some(ys)
    ensures Disclose(open, close, sep, s) == Some([x] + ys)
  {
    DiscloseHead(open, close, sep, x, sep + more);
    assert (sep + more)[|sep|..] == more;
  }

  // ---------------------------------------------------------------------------
  // Decimal formatting of integers (C# string interpolation of an `int`)

  /** The decimal digit for `d`. */
  function DigitChar(d: nat): (r: char)
    requires d < 10
    ensures '0' <= r <= '9'
  {
    ('0' as int + d) as char
  }

  function DigitValue(c: char): int {
    c as int - '0' as int
  }

  /** The decimal digits of `n`, most significant first, with no leading zero. */
  function NatToString(n: nat): (r: string)
    ensures |r| >= 1
    ensures forall i :: 0 <= i < |r| ==> '0' <= r[i] <= '9'
    ensures r[0] != '-'
    decreases n
  {
    if n < 10 then [DigitChar(n)] else NatToString(n / 10) + [DigitChar(n % 10)]
  }

  /** `int.ToString()`: a minus sign before the digits of a negative number. */
  function IntToString(n: int): string {
    if n < 0 then "-" + NatToString(-n) else NatToString(n)
  }

  /** The value of a string of decimal digits. */
  function ParseNat(s: string): int
    decreases |s|
  {
    if s == [] then 0 else ParseNat(s[..|s| - 1]) * 10 + DigitValue(s[|s| - 1])
  }

  function ParseInt(s: string): int {
    if |s| > 0 && s[0] == '-' then -ParseNat(s[1..]) else ParseNat(s)
  }

  lemma {:induction false} ParseNatToString(n: nat)
    ensures ParseNat(NatToString(n)) == n
  {
    var s := NatToString(n);
    if n < 10 {
      assert s[..0] == [];
      assert DigitValue(s[0]) == n;
    } else {
      assert s[..|s| - 1] == NatToString(n / 10);
      assert DigitValue(s[|s| - 1]) == n % 10;
      ParseNatToString(n / 10);
      assert ParseNat(s) == (n / 10) * 10 + n % 10;
    }
  }

  /** Formatting an integer loses nothing: the number is read back from its text. */
  lemma IntToStringRoundTrip(n: int)
    ensures ParseInt(IntToString(n)) == n
  {
    if n < 0 {
      var m: nat := -n;
      var digits := NatToString(m);
      ParseNatToString(m);
      var s := "-" + digits;
      assert s[0] == '-' && s[1..] == digits;
      assert IntToString(n) == s;
    } else {
      ParseNatToString(n);
    }
  }
}

=== FILE: unified_decorator.dfy ===
/**
 `ExceptionalUnifiedDecorator`: every exception escaping an operation of the
 wrapped launcher is turned into a member of the `AutoLaunchException` family.
 Security and access failures become `PermissionDeniedException`, members of
 the family pass unchanged, and anything else is wrapped.
 */
module UnifiedDecorator {
  import opened Wrappers
  import opened Exceptions
  import opened Launcher

  const WrappedMessage: string := "An error occurred while executing the operation."

  /** The catch clauses of `ExceptionUnified`, tried in order. */
  function Unify(e: Exn): (r: Exn)
    ensures r.IsAutoLaunch()
    ensures (e.SecurityError? || e.UnauthorizedAccess?) ==> r == NewPermissionDenied(None, Some(e))
    ensures e.IsAutoLaunch() ==> r == e
    ensures e.NativeError? ==> r.AutoLaunchError? && r.Message() == WrappedMessage && r.inner == Some(e)
  {
    if e.SecurityError? || e.UnauthorizedAccess? then NewPermissionDenied(None, Some(e))
    else if e.IsAutoLaunch() then e
    else NewAutoLaunch(WrappedMessage, Some(e))
  }

  /** `ExceptionUnified(func)`: the returned value unchanged, a thrown exception unified. */
  function Unified<T>(o: Outcome<T>): (r: Outcome<T>)
    ensures r.Returned? <==> o.Returned?
    ensures o.Returned? ==> r == o
    ensures r.Threw? ==> r.error.IsAutoLaunch()
  {
    o.MapError(Unify)
  }

  /** `ExceptionUnified(action)`: the action is run as a function returning
      `true`, and the `true` is dropped again. */
  function UnifiedAction(o: Outcome<()>): (r: Outcome<()>)
    ensures r == Unified(o)
  {
    var r := Unified(o.Map((_: ()) => true)).Map((_: bool) => ());
    assert r.Returned? ==> r.value == () && o.value == ();
    r
  }

  // The six forwarding operations; the asynchronous ones are the same transitions.

  function Enable(e: Engine, m: Machine, env: Env): (r: Step)
    ensures r.machine == Launcher.Enable(e, m, env).machine
    ensures r.outcome == Unified(Launcher.Enable(e, m, env).outcome)
    ensures r.outcome.Threw? ==> r.outcome.error.IsAutoLaunch()
  {
    var s := Launcher.Enable(e, m, env);
    Step(UnifiedAction(s.outcome), s.machine)
  }

  function Disable(e: Engine, m: Machine, env: Env): (r: Step)
    ensures r.machine == Launcher.Disable(e, m, env).machine
    ensures r.outcome == Unified(Launcher.Disable(e, m, env).outcome)
    ensures r.outcome.Threw? ==> r.outcome.error.IsAutoLaunch()
  {
    var s := Launcher.Disable(e, m, env);
    Step(UnifiedAction(s.outcome), s.machine)
  }

  /** The status query of the wrapped launcher, unified. */
  function IsEnabled(e: Engine, m: Machine, env: Env): (r: Outcome<bool>)
    ensures r == Unified(Launcher.IsEnabled(e, m, env))
    ensures r.Threw? ==> r.error.IsAutoLaunch()
  {
    Unified(Launcher.IsEnabled(e, m, env))
  }

  // ---------------------------------------------------------------------------
  // Properties

  /** Unifying is a projection onto the family: the family is left alone, so
      unifying twice is unifying once. */
  lemma UnifyIdempotent(e: Exn)
    ensures Unify(Unify(e)) == Unify(e)
  {
  }

  /** Unifying loses no failure: the original exception is kept, unchanged or
      as the inner exception of the replacement. */
  lemma UnifyKeepsOriginal(e: Exn)
    ensures Unify(e) == e || Unify(e).inner == Some(e)
  {
  }

  /** The wrapper changes nothing when the wrapped operation succeeds, and
      only the exception otherwise: the machine state is the wrapped one. */
  lemma SuccessPassesThrough(e: Engine, m: Machine, env: Env)
    requires Launcher.Enable(e, m, env).outcome.Returned?
    ensures Enable(e, m, env) == Launcher.Enable(e, m, env)
  {
  }
}

=== FILE: windows_registry.dfy ===
/**
 The registry engine: the application is registered under the `Run` key of
 the chosen hive, and Explorer's `StartupApproved\Run` key records whether the
 user has switched the entry off (first byte 0x02 means on).

 Both revisions share one body; the `IsEnabled` revision runs each operation
 under the permission guard, the `GetStatus` revision does not.
 */
module WindowsRegistry {
  import opened Wrappers
  import opened Exceptions
  import opened Text
  import opened Platform
  import opened RegistryStore
  import opened Enums

  const RunKeyPath: string := "Software\\Microsoft\\Windows\\CurrentVersion\\Run"
  const StartupApprovedKeyPath: string := "Software\\Microsoft\\Windows\\CurrentVersion\\Explorer\\StartupApproved\\Run"

  /** The approval value `Enable` writes: eight bytes, the first one 0x02. */
  const ApprovedEnabled: seq<Byte> := [2, 0, 0, 0, 0, 0, 0, 0]

  /** The hive the engine works in. */
  function Root(scope: WorkScope): (r: Hive)
    ensures r.CurrentUserHive? <==> scope.CurrentUser?
    ensures r.LocalMachineHive? <==> scope.AllUser?
  {
    match scope
    case CurrentUser => CurrentUserHive
    case AllUser => LocalMachineHive
  }

  function RunKey(scope: WorkScope): RegKey {
    RegKey(Root(scope), RunKeyPath)
  }

  function ApprovedKey(scope: WorkScope): RegKey {
    RegKey(Root(scope), StartupApprovedKeyPath)
  }

  /** The command line stored in the `Run` value. */
  function CommandLine(host: Host, app: App): string {
    host.escapeArguments([app.appPath] + app.args)
  }

  /** `Enumerable.FirstOrDefault` on a byte array: 0 for an empty one. */
  function FirstOrDefault(bytes: seq<Byte>): (r: Byte)
    ensures |bytes| > 0 ==> r == bytes[0]
    ensures |bytes| == 0 ==> r == 0
  {
    if |bytes| == 0 then 0 else bytes[0]
  }

  /** `GetValue(name) as string`: a value that is not a string reads as null. */
  function AsString(v: Option<RegValue>): (r: Option<string>)
    ensures r.Some? <==> v.Some? && v.value.RegString?
    ensures r.Some? ==> v == Some(RegString(r.value))
  {
    if v.Some? && v.value.RegString? then Some(v.value.text) else None
  }

  /** Every value in `st` that is not named `name` or not in `scope`'s two keys
      reads the same in `st2`. */
  ghost predicate OthersUnchanged(st: Store, st2: Store, scope: WorkScope, name: string) {
    forall k, n :: (n != name || (k != RunKey(scope) && k != ApprovedKey(scope))) ==>
      GetValue(st2, k, n) == GetValue(st, k, n)
  }

  // ---------------------------------------------------------------------------
  // The operations of the `GetStatus` revision (no permission guard)

  /** `Enable`: writes the command line under `Run`, then the approval bytes
      under `StartupApproved\Run`, creating either key when missing. */
  function EnableUnguarded(st: Store, host: Host, app: App, scope: WorkScope): (r: RegStep)
    ensures r.outcome.Returned? <==> Root(scope) !in st.denied
    ensures r.outcome.Returned? ==>
      && GetValue(r.store, RunKey(scope), app.appName) == Some(RegString(CommandLine(host, app)))
      && GetValue(r.store, ApprovedKey(scope), app.appName) == Some(RegBinary(ApprovedEnabled))
    ensures r.outcome.Threw? ==> r.store == st && r.outcome.error.UnauthorizedAccess?
    ensures OthersUnchanged(st, r.store, scope, app.appName)
    ensures r.store.denied == st.denied
  {
    var run := CreateSubKeyAndSetValue(st, RunKey(scope), app.appName, RegString(CommandLine(host, app)));
    if run.outcome.Threw? then run
    else CreateSubKeyAndSetValue(run.store, ApprovedKey(scope), app.appName, RegBinary(ApprovedEnabled))
  }

  /** `Disable`: deletes the value from both keys; a missing key or value is
      no error, an existing key of a write-protected hive is. */
  function DisableUnguarded(st: Store, app: App, scope: WorkScope): (r: RegStep)
    ensures r.outcome.Returned? <==>
      Root(scope) !in st.denied || (RunKey(scope) !in st.keys && ApprovedKey(scope) !in st.keys)
    ensures r.outcome.Returned? ==>
      && GetValue(r.store, RunKey(scope), app.appName).None?
      && GetValue(r.store, ApprovedKey(scope), app.appName).None?
    ensures r.outcome.Threw? ==> r.store == st && r.outcome.error.SecurityError?
    ensures OthersUnchanged(st, r.store, scope, app.appName)
    ensures r.store.denied == st.denied
  {
    var run := OpenSubKeyAndDeleteValue(st, RunKey(scope), app.appName);
    if run.outcome.Threw? then run
    else OpenSubKeyAndDeleteValue(run.store, ApprovedKey(scope), app.appName)
  }

  /** The status decision over the two values read: off without a non-blank
      string under `Run`; otherwise an approval byte array decides by its first
      byte, and anything else under `StartupApproved\Run` counts as on. */
  function StatusDecision(run: Option<RegValue>, approved: Option<RegValue>): (r: bool)
    ensures IsNullOrWhiteSpace(AsString(run)) ==> !r
    ensures !IsNullOrWhiteSpace(AsString(run)) && approved.Some? && approved.value.RegBinary? ==>
      (r <==> |approved.value.bytes| > 0 && approved.value.bytes[0] == 2)
    ensures !IsNullOrWhiteSpace(AsString(run)) && !(approved.Some? && approved.value.RegBinary?) ==> r
  {
    if IsNullOrWhiteSpace(AsString(run)) then false
    else match approved
      case Some(RegBinary(bytes)) => FirstOrDefault(bytes) == 2
      case _ => true
  }

  /** `GetStatus`: reads the two values and decides. Reading never throws. */
  function GetStatus(st: Store, app: App, scope: WorkScope): bool {
    StatusDecision(GetValue(st, RunKey(scope), app.appName), GetValue(st, ApprovedKey(scope), app.appName))
  }

  // ---------------------------------------------------------------------------
  // The operations of the `IsEnabled` revision (under the permission guard)

  /** `Enable` under `ThrowIfIOPermissionDenied`: the same state change, and a
      thrown exception passed through the guard. */
  function Enable(st: Store, host: Host, app: App, scope: WorkScope): (r: RegStep)
    ensures r.store == EnableUnguarded(st, host, app, scope).store
    ensures r.outcome.Returned? <==> Root(scope) !in st.denied
    ensures r.outcome.Threw? ==> r.outcome.error == host.permissionGuard(EnableUnguarded(st, host, app, scope).outcome.error)
  {
    var s := EnableUnguarded(st, host, app, scope);
    RegStep(s.outcome.MapError(host.permissionGuard), s.store)
  }

  /** `Disable` under `ThrowIfIOPermissionDenied`. */
  function Disable(st: Store, host: Host, app: App, scope: WorkScope): (r: RegStep)
    ensures r.store == DisableUnguarded(st, app, scope).store
    ensures r.outcome.Returned? <==> DisableUnguarded(st, app, scope).outcome.Returned?
    ensures r.outcome.Threw? ==> r.outcome.error == host.permissionGuard(DisableUnguarded(st, app, scope).outcome.error)
  {
    var s := DisableUnguarded(st, app, scope);
    RegStep(s.outcome.MapError(host.permissionGuard), s.store)
  }

  /** `IsEnabled` under `ThrowIfIOPermissionDenied`: the guard has nothing to
      catch, so the result is the status decision. */
  function IsEnabled(st: Store, host: Host, app: App, scope: WorkScope): (r: Outcome<bool>)
    ensures r == Returned(GetStatus(st, app, scope))
  {
    Returned(GetStatus(st, app, scope)).MapError(host.permissionGuard)
  }

  /** `EnableAsync` wraps the already guarded `Enable` in the guard once more. */
  function EnableAsync(st: Store, host: Host, app: App, scope: WorkScope): (r: RegStep)
    ensures r.store == Enable(st, host, app, scope).store
    ensures r.outcome.Returned? <==> Enable(st, host, app, scope).outcome.Returned?
    ensures r.outcome.Threw? ==> r.outcome.error == host.permissionGuard(Enable(st, host, app, scope).outcome.error)
  {
    var s := Enable(st, host, app, scope);
    RegStep(s.outcome.MapError(host.permissionGuard), s.store)
  }

  /** `DisableAsync`, likewise guarded twice. */
  function DisableAsync(st: Store, host: Host, app: App, scope: WorkScope): (r: RegStep)
    ensures r.store == Disable(st, host, app, scope).store
    ensures r.outcome.Returned? <==> Disable(st, host, app, scope).outcome.Returned?
  {
    var s := Disable(st, host, app, scope);
    RegStep(s.outcome.MapError(host.permissionGuard), s.store)
  }

  // ---------------------------------------------------------------------------
  // Properties

  /** After a successful `Enable` the entry reads as enabled exactly when the
      stored command line is not blank. */
  lemma EnableThenStatus(st: Store, host: Host, app: App, scope: WorkScope)
    requires EnableUnguarded(st, host, app, scope).outcome.Returned?
    ensures GetStatus(EnableUnguarded(st, host, app, scope).store, app, scope) <==> !IsBlank(CommandLine(host, app))
  {
  }

  /** After a successful `Disable` the entry reads as not enabled. */
  lemma DisableThenStatus(st: Store, app: App, scope: WorkScope)
    requires DisableUnguarded(st, app, scope).outcome.Returned?
    ensures !GetStatus(DisableUnguarded(st, app, scope).store, app, scope)
  {
  }

  /** An approval value whose first byte is not 0x02 (Explorer writes 0x03 when
      the user turns the entry off) or an empty one keeps the entry off, whatever
      the `Run` value says. */
  lemma ApprovalSwitchesOff(st: Store, app: App, scope: WorkScope, bytes: seq<Byte>)
    requires GetValue(st, ApprovedKey(scope), app.appName) == Some(RegBinary(bytes))
    requires |bytes| == 0 || bytes[0] != 2
    ensures !GetStatus(st, app, scope)
  {
  }

  /** Enabling an already enabled entry changes nothing more. */
  lemma EnableIdempotent(st: Store, host: Host, app: App, scope: WorkScope)
    requires EnableUnguarded(st, host, app, scope).outcome.Returned?
    ensures var once := EnableUnguarded(st, host, app, scope).store;
      EnableUnguarded(once, host, app, scope) == RegStep(Returned(()), once)
  {
    var once := EnableUnguarded(st, host, app, scope).store;
    var run := RunKey(scope);
    var approved := ApprovedKey(scope);
    assert run != approved;
    assert once.keys[run][app.appName := RegString(CommandLine(host, app))] == once.keys[run];
    var mid := once.(keys := once.keys[run := once.keys[run]]);
    assert mid == once;
    assert once.keys[approved][app.appName := RegBinary(ApprovedEnabled)] == once.keys[approved];
  }

  /** Another application's status is not affected by enabling or disabling this one. */
  lemma OtherAppUnaffected(st: Store, host: Host, app: App, other: App, scope: WorkScope)
    requires other.appName != app.appName
    ensures GetStatus(EnableUnguarded(st, host, app, scope).store, other, scope) == GetStatus(st, other, scope)
    ensures GetStatus(DisableUnguarded(st, app, scope).store, other, scope) == GetStatus(st, other, scope)
  {
  }

  /** The two scopes live in different hives: enabling or disabling the entry
      for one scope leaves its status in the other scope as it was. */
  lemma ScopesIndependent(st: Store, host: Host, app: App, scope: WorkScope, other: WorkScope)
    requires scope != other
    ensures GetStatus(EnableUnguarded(st, host, app, scope).store, app, other) == GetStatus(st, app, other)
    ensures GetStatus(DisableUnguarded(st, app, scope).store, app, other) == GetStatus(st, app, other)
  {
    assert Root(scope) != Root(other);
    assert RunKey(other) != RunKey(scope) && RunKey(other) != ApprovedKey(scope);
    assert ApprovedKey(other) != RunKey(scope) && ApprovedKey(other) != ApprovedKey(scope);
  }

  /** The two revisions make the same state change and agree on success; only
      the exception thrown may differ, by the guard. */
  lemma RevisionsAgree(st: Store, host: Host, app: App, scope: WorkScope)
    ensures Enable(st, host, app, scope).store == EnableUnguarded(st, host, app, scope).store
    ensures Enable(st, host, app, scope).outcome.Returned? == EnableUnguarded(st, host, app, scope).outcome.Returned?
    ensures Disable(st, host, app, scope).store == DisableUnguarded(st, app, scope).store
    ensures Disable(st, host, app, scope).outcome.Returned? == DisableUnguarded(st, app, scope).outcome.Returned?
    ensures IsEnabled(st, host, app, scope) == Returned(GetStatus(st, app, scope))
  {
  }
}

=== FILE: wrappers.dfy ===
/** Optional values, standing in for C#'s nullable references. */
module Wrappers {

  /** `None` plays the role of `null`. */
  datatype Option<+T> = None | Some(value: T) {

    /** The `??` operator: the carried value, or `default` when there is none. */
    function GetOr(default: T): T {
      match this
      case Some(v) => v
      case None => default
    }
  }
}
